=== FILE: README.md ===
# PM Assist, modelled in Dafny

PM Assist turns a rough product idea into a product plan. The model covers five parts:

- **The server** (`src/server.ts`). Its HTTP handlers:
  - `POST /api/generate` runs the three-stage pipeline and writes the plan;
  - `GET /api/files`, `GET /api/files/:filename` and `DELETE /api/files/:filename` list, read and delete saved plans;
  - `POST /api/guided/start`, `/select-stack` and `/complete` drive the guided session.
- **The stages behind those handlers:**
  - the guided-mode generators (`src/llm/guided.ts`);
  - the refinement stage that extracts a JSON plan from a fenced block (`src/llm/refine.ts`);
  - the pipeline (`src/pipeline/orchestrator.ts`);
  - the Markdown writer (`src/utils/output.ts`).
- **The input validator** (`src/llm/validate.ts`), modelled on its own: no handler, pipeline stage or client code calls `validateInput`.
- **The browser client's text helpers** (`public/app.js`):
  - HTML escaping and appendix stripping in `renderMarkdown`;
  - `extractOriginalIdea`;
  - the tech-stack menu;
  - reading the typed stack selection;
  - the question captions and the question/answer list.
- **The browser client's chat state** (`public/app.js`): the current chat, the generating flag, the mode, the guided conversation and the messages. It is a class whose handler methods change that state.

How the model stands in for what it cannot see:

- Each call to a language model is a function parameter, from a prompt to a `Result`.
- `JSON.parse` is a function parameter too.
- The clock is a `Timestamp` record holding the three renderings the code uses.
- The output directory is a map from file names to contents.
- Each handler returns what it answered, the new directory, and the sequence of service calls it made. That lets the contracts state which stages run, on which arguments, and which do not run.

Modules, one per source file:

| module | models |
|---|---|
| `Wrappers` | `Option`, `Result` and thrown values |
| `JsStrings` | the JavaScript string built-ins the code uses: `trim`, `toLowerCase`, `replace(/c/g, …)`, `split`, `join`, `parseInt`, greedy regex regions, decimal rendering |
| `Validate` | `validate.ts` |
| `Guided` | `guided.ts` |
| `Refine` | `refine.ts` |
| `Orchestrator` | `orchestrator.ts` |
| `Output` | `output.ts` |
| `Server` | `server.ts` |
| `AppText` | the pure helpers of `app.js` |
| `App` | the state and handlers of `app.js` |

Some things about the code that the proofs make visible:

- The generate handler reads `result.isSimpleResponse` and `result.simpleResponse`, but `runPipeline` returns an object without them. With that orchestrator, every successful generate request whose plan carries its four lists writes the plan (`Server.GenerateWithOrchestratorAlwaysWrites`).
- For the same reason, `writeMarkdownOutput` always returns a path when the server calls it. The "Failed to write output file" reply cannot occur.
- In the file list, the check `file !== '.gitkeep'` adds nothing to `file.endsWith('.md')` (`Server.GitkeepExclusionIsRedundant`).
- `renderMarkdown` escapes `&` before `<` and `>`, so every character is escaped exactly once and the escaping can be undone. The other order would escape the `&` of `&lt;` again (`AppText.WrongOrderEscapesTwice`).

## Model

| member | source | states |
|---|---|---|
| JsStrings.Trim | src/llm/validate.ts:15 | `trim()` returns a part of the text that starts and ends with a non-whitespace character; it is empty exactly when the text is all whitespace |
| JsStrings.TrimIsInfix | src/llm/validate.ts:15 | `trim()` drops whitespace at the two ends only: the result is the part of the text between a whitespace prefix and a whitespace suffix |
| JsStrings.ToLower | src/llm/validate.ts:20 | `toLowerCase()` keeps the length and lower-cases character by character |
| JsStrings.GreedyRegionSpec | src/llm/validate.ts:71 | a greedy `open…close` regex region exists exactly when some opening character precedes some closing one, and it runs from the first opening to the last closing character |
| JsStrings.ParseIntDecimal | public/app.js:635 | `parseInt` reads the decimal rendering of a number back as that number |
| JsStrings.SplitJoin | src/utils/output.ts:42 | splitting lines joined by `\n` gives the lines back when none holds a line feed |
| Validate.GetSimpleResponse | src/llm/validate.ts:98-111 | the canned reply is never empty |
| Validate.SimpleResponseTable | src/llm/validate.ts:98-111 | the table's keys are exactly the eight filler words; each filler word gets its own reply, distinct from the fallback; every other word gets the fallback |
| Validate.FastPathIsFillerWord | src/llm/validate.ts:15-22 | the fast path is taken exactly when the trimmed, lower-cased input is a filler word; the one-word test never changes the outcome |
| Validate.OrDefault | src/llm/validate.ts:84-85 | `value \|\| fallback` keeps a truthy value and is truthy whenever the fallback is non-empty |
| Validate.ReadVerdict | src/llm/validate.ts:77-86 | a parsed `null` throws, and so does logging a `reasoning` whose string conversion throws (an object with its own `toString`, or an array holding one): no verdict; otherwise `isValidProductIdea` holds exactly when `isValid` is the boolean `true`; a missing or empty `response` becomes `valid`; a missing `reasoning` gets the default text |
| Validate.ValidateInput | src/llm/validate.ts:10-96 | a filler word is rejected without asking the model; any call, parse or property error fails open; the idea passes exactly on an error or on a parsed `isValid` of `true`; `response` and `reasoning` are always truthy; a filler word's `reasoning` names the word; otherwise the verdict read from the reply is returned unchanged |
| Validate.VerdictDefaultsReachCaller | src/llm/validate.ts:84-85 | a reply without `response` and `reasoning` reaches the caller as `valid` and `No reasoning provided` |
| Validate.UnprintableReasoningFailsOpen | src/llm/validate.ts:79-95 | a verdict whose `reasoning` cannot be logged fails open, whatever `isValid` says |
| Validate.RejectionWithObjectReasoningIsLost | src/llm/validate.ts:79-95 | `{"isValid": false, "reasoning": {"toString": 1}}`, and the same with that object inside an array, give no verdict |
| Validate.VerdictCandidateSpec | src/llm/validate.ts:70-74 | the parsed text is the first-`{`-to-last-`}` region when one exists, otherwise the trimmed reply |
| Guided.BracketCandidateSpec | src/llm/guided.ts:61-63 | the parsed text is the first-`[`-to-last-`]` region when one exists, otherwise the untrimmed reply |
| Guided.BracketCandidateOfWrapped | src/llm/guided.ts:61-63 | a JSON array surrounded by bracket-free prose is extracted exactly |
| Guided.ParseArrayReply | src/llm/guided.ts:61-69 | a failed call is rethrown unchanged; otherwise the result is the parse of the bracket candidate |
| Guided.GenerateTechStackOptions | src/llm/guided.ts:20-70 | the prompt is built from the idea; the call's error is rethrown unchanged; a reply is parsed from its bracket candidate |
| Guided.QuestionsPromptFor | src/llm/guided.ts:80-85 | the prompt carries the idea, the expanded idea and the stack name; a single technology is listed as itself |
| Guided.GenerateOpenQuestions | src/llm/guided.ts:72-118 | the call's error is rethrown unchanged; a reply is parsed from its bracket candidate |
| Guided.SameExtractionRule | src/llm/guided.ts:61-113 | on the same reply text, both generators parse the same candidate |
| Guided.QaBlocks | src/llm/guided.ts:129-130 | block `i` is `Q{i+1}: question\nA{i+1}: answer` |
| Guided.QaText | src/llm/guided.ts:129-131 | the text is empty exactly when there are no pairs, and otherwise starts with `Q1: ` |
| Guided.QaTextSnoc | src/llm/guided.ts:129-131 | adding a pair adds a blank line and the next numbered block |
| Guided.QaTextSingle | src/llm/guided.ts:129-131 | one pair gives one block numbered 1, with no separator |
| Guided.PlanPromptFor | src/llm/guided.ts:133-146 | the prompt carries the idea, the expanded idea, a stack line starting with the stack name, and the Q/A text |
| Guided.GenerateGuidedFinalPlan | src/llm/guided.ts:120-189 | the result is the model's reply to the plan prompt, error or text, unchanged |
| Guided.FinalPlanIsVerbatim | src/llm/guided.ts:177-184 | a final plan containing a JSON array is returned whole, not cut down to the array |
| Refine.ContentStart | src/llm/refine.ts:64 | the group starts after the opening fence, the optional `json` tag and the optional line feed |
| Refine.ClosingFrom | src/llm/refine.ts:64 | the lazy group ends at the first position where `\n?` and a closing fence match |
| Refine.FirstFence | src/llm/refine.ts:64 | the first three-backtick fence at or after a position |
| Refine.FirstFenceDecides | src/llm/refine.ts:64 | the leftmost-match search is decided at the first fence: if that fence finds no closing fence, no later position matches |
| Refine.RefineCandidate | src/llm/refine.ts:64-67 | the leftmost match's group, trimmed, when it is non-empty; the whole reply, trimmed, when nothing matches or the group is empty; never longer than the reply |
| Refine.NoFenceCandidate | src/llm/refine.ts:64-67 | a reply without a fence is parsed whole, trimmed |
| Refine.CandidateOfBlock | src/llm/refine.ts:65-67 | a non-empty group is parsed, trimmed |
| Refine.EmptyBlockFallsBack | src/llm/refine.ts:64-65 | when the first fence is closed right where its group starts, the group is empty and `\|\| text` falls back to the whole reply, trimmed |
| Refine.EmptyBlockAfterProse | src/llm/refine.ts:64-65 | an empty block right after backtick-free prose makes the whole reply the candidate |
| Refine.NoClosingAfter | src/llm/refine.ts:64 | no closing fence matches where no backtick follows |
| Refine.UnclosedFenceFallsBack | src/llm/refine.ts:64-67 | an opening fence that is never closed, such as in ```` ```json\n[1] ````, gives no match, and the whole reply is parsed, trimmed |
| Refine.BlockAt | src/llm/refine.ts:64-67 | prose, an opening fence, backtick-free content and a closing fence: the candidate is the trimmed content |
| Refine.FencedBlockRoundTrip | src/llm/refine.ts:63-67 | wrapping content in a fenced block, tagged or not, between prose and any rest extracts the content, trimmed |
| Refine.ProseWrappedExample | src/llm/refine.ts:63-67 | the reply `here is the data: ` followed by a `json` block holding `[1,2,3]` gives exactly `[1,2,3]` |
| Refine.RefineIntoPlan | src/llm/refine.ts:14-74 | success exactly when the call and the parse both succeed, with the parsed plan; every failure becomes an `Error` whose message starts with `Llama API error: ` |
| Orchestrator.RunPipeline | src/pipeline/orchestrator.ts:13-39 | expand always runs; critique runs exactly on expand's output when expand succeeded; refine runs exactly on both outputs when both succeeded; a failing stage's error is the run's error; on success the record holds the input, the stage outputs and the start time |
| Orchestrator.RefineStageFailureIsWrapped | src/pipeline/orchestrator.ts:24-30 | with `refineIntoPlan` as the third stage, a run that fails after both earlier stages succeeded fails with a `Llama API error: ` message |
| Output.ChooseFilename | src/utils/output.ts:17-19 | a non-empty custom name wins; otherwise the name starts with `product-plan-` and ends with `.md` |
| Output.DefaultFilenameShape | src/utils/output.ts:17-19 | the default name is `product-plan-{date}-{h}-{m}-{s}.md` for an ISO date and a `h:m:s zone` time string |
| Output.DatePartOf | src/utils/output.ts:17 | the date is the ISO text before `T` |
| Output.TimePartOf | src/utils/output.ts:18 | the time is the text before the first space, with colons replaced by dashes |
| Output.ColonsToDashes | src/utils/output.ts:18 | `replace(/:/g, '-')` turns `h:m:s` into `h-m-s` |
| Output.BulletLines | src/utils/output.ts:42 | one `- item` line per item, in order |
| Output.NumberedLines | src/utils/output.ts:58 | line `i` is `{i+1}. step` |
| Output.BulletsReadBack | src/utils/output.ts:42-54 | splitting a bullet list at line feeds gives the bullet lines back, each starting with `- ` |
| Output.NumberedReadBack | src/utils/output.ts:58 | splitting the numbered list at line feeds gives its lines back, and line `i` parses as `i+1` |
| Output.SectionBodies | src/utils/output.ts:32-58 | the body under each heading: the problem, the user and the technical notes verbatim; the features, the risks and the open questions as bullet lists; the steps as a numbered list |
| Output.RenderedSections | src/utils/output.ts:28-58 | section `k` is `## ` and heading `k`, a blank line, and body `k` |
| Output.SectionsInOrder | src/utils/output.ts:28-62 | every heading occurs at its offset; the offsets increase; the rule and the appendix heading follow the plan body |
| Output.HeadingAt | src/utils/output.ts:32-58 | the `k`-th section heading sits at its offset in the document |
| Output.SectionAt | src/utils/output.ts:28-62 | section `k`, heading and body, stands in the document at its heading's offset, and the next heading follows after one blank line |
| Output.HeadingsIncrease | src/utils/output.ts:32-58 | each section heading comes before the next |
| Output.AppendixAfterBody | src/utils/output.ts:60-62 | the rule and the appendix heading follow the plan body directly |
| Output.WriteMarkdownOutput | src/utils/output.ts:5-78 | nothing is written exactly for a simple response; otherwise the file gets the chosen name and the document |
| Output.AppendixVerbatim | src/utils/output.ts:62-72 | the document ends with the expanded idea and the critique block, unchanged |
| Server.Generate | src/server.ts:33-82 | the idea is checked first, then the key, and neither failure calls or writes anything; otherwise the pipeline runs once on the idea; a failure gives 500 with its message and writes nothing; a simple response writes nothing; a full plan is written under its default name and returned with it |
| Server.SavePlan | src/server.ts:58-75 | the plan is written under the default name and the reply carries the text read back and that name |
| Server.GenerateWithOrchestratorAlwaysWrites | src/server.ts:46-58 | fed by `runPipeline`, every successful request writes the plan and returns it (plans are typed, so their four lists are present) |
| Server.GetFile | src/server.ts:104-123 | a name with `..` or `/` gives 400; a stored file is returned exactly when the name is safe and present; otherwise 404 |
| Server.DeleteFile | src/server.ts:244-277 | a deletion happens exactly for a safe `.md` name that is present, and removes only that file; the unsafe, non-Markdown and missing cases give 400, 400 and 404 and leave the directory alone |
| Server.GitkeepExclusionIsRedundant | src/server.ts:91 | a name is listed exactly when it ends with `.md` |
| Server.FilterListed | src/server.ts:90-91 | only listed names survive the filter |
| Server.FilterCounts | src/server.ts:90-91 | the filter keeps every `.md` entry as often as it occurs and drops the rest |
| Server.InsertDescending | src/server.ts:92 | inserting into a descending list keeps it descending and adds exactly that element |
| Server.SortDescending | src/server.ts:92 | the result is descending and a permutation of the input |
| Server.ListFiles | src/server.ts:85-101 | given what `readdir` returned for the directory: exactly the saved `.md` files are listed, each as often as `readdir` returned it, in descending order |
| Server.GuidedStart | src/server.ts:126-157 | the idea and key checks call nothing; expansion always runs before stack generation, which runs only after a successful expansion; the reply is the two results exactly when both succeed; any failure is a 500; the directory is left alone |
| Server.SelectStack | src/server.ts:160-192 | a missing field gives 400 and a missing key 500, calling nothing; once past both guards the questions for the stack are requested exactly once; they are returned exactly when generated; a failed generation is a 500 carrying its message; the directory is left alone |
| Server.Complete | src/server.ts:195-241 | a missing field gives 400 and a missing key 500, calling nothing; once past both guards the plan is requested exactly once; a failed request is a 500 carrying its message; on success it is written under the default name and returned with it; nothing else changes the directory |
| Server.SavedPlanLifecycle | src/server.ts:85-277 | a completed guided plan can be fetched, appears in the listing of the directory, and can be deleted |
| Server.DefaultNameIsSafe | src/server.ts:219-222 | the default name passes the traversal guard and ends with `.md` when its date and time parts hold no `.` or `/` |
| AppText.EscapeHtmlIsCharwise | public/app.js:330-332 | the three passes escape each character once, on its own |
| AppText.EscapeHtmlRoundTrip | public/app.js:330-332 | the escaped text holds no `<` or `>`, and unescaping gives the input back |
| AppText.WrongOrderEscapesTwice | public/app.js:330-332 | escaping `<` before `&` would turn every `<` into `&amp;lt;` at its place; the order used gives `&lt;` |
| AppText.EscapeLtFirstSplits | public/app.js:330-332 | in the other order, a `<` between two texts becomes `&amp;lt;` between their escapes |
| AppText.EntityAmpersandEscaped | public/app.js:330 | the `&` pass turns `&lt;` into `&amp;lt;` |
| AppText.WhitespaceRunEnd | public/app.js:326 | the end of the whitespace run from a position |
| AppText.FirstMarker | public/app.js:326 | the leftmost position where `---`, whitespace ending in a line feed, and `## Appendix:` match |
| AppText.StripAppendix | public/app.js:326 | the result is a prefix of the text that ends where the first appendix marker starts, or the whole text when there is none |
| AppText.RenderMarkdownText | public/app.js:318-332 | empty input gives `Error: Invalid content`; otherwise the text without its appendix, trimmed and escaped |
| AppText.StripAppendixAt | public/app.js:326 | a text with no appendix marker before position `b`, continued at `b` by the rule and the appendix heading, keeps exactly its first `b` characters and two line feeds |
| AppText.RenderedPlanHidesAppendix | public/app.js:326-332 | when no appendix marker starts inside the plan body, a written plan is shown as its escaped, trimmed body, without the appendix |
| AppText.DashFreePlanHidesAppendix | public/app.js:326-332 | in particular, a plan body without `---` is shown that way |
| AppText.LastLineBreak | public/app.js:537 | the line feed that the greedy `\s*\n` ends on |
| AppText.SectionEnd | public/app.js:537 | the lazy group ends at the first `\n###` or at the end of the text |
| AppText.GroupAfter | public/app.js:537 | a captured group is never empty |
| AppText.ExtractOriginalIdea | public/app.js:535-542 | a result exists only when the text contains the heading |
| AppText.ExtractAfterHeading | public/app.js:535-542 | a heading preceded only by whole lines without a heading, followed by an idea with text and no `\n###`, then `\n\n###`, gives the trimmed idea |
| AppText.GroupAfterIdea | public/app.js:537 | after a heading, the group trims to the idea written under it |
| AppText.SavedPlanRecoversIdea | public/app.js:535-542 | opening a written plan recovers its original idea, trimmed |
| AppText.AppendItemLines | public/app.js:610-612 | the loop appends one `- item` line per item |
| AppText.ComposeStackBody | public/app.js:607-613 | the lines written after a stack's title |
| AppText.ComposeTechStackMenu | public/app.js:602-616 | the loop builds the introduction, each stack's entry in order, and the footer |
| AppText.MenuListsEveryStack | public/app.js:602-638 | every stack's numbered title is in the menu, and typing that number selects that stack |
| AppText.ResolveSelection | public/app.js:630-642 | "auto" in any case picks the first stack, or throws when there are none; a number in range picks that stack; anything else asks again |
| AppText.Resolve | public/app.js:630-642 | the same choice, in terms of the two readings of the selection |
| AppText.PickNumber | public/app.js:635-642 | a parsed number in `1..count` picks stack number−1; anything else asks again |
| AppText.MenuNumberSelects | public/app.js:606-637 | the number printed in front of a stack selects it |
| AppText.QuestionPrompt | public/app.js:687-693 | the caption starts with `**Question ` and the message ends with the question, or `undefined` when there is none |
| AppText.QuestionPromptNumbers | public/app.js:689-692 | the caption reads back as the position, counted from 1, and the number of questions |
| AppText.AnswerOrDefault | public/app.js:219 | a stored non-empty answer is sent; otherwise `No answer provided` |
| AppText.QuestionsAndAnswers | public/app.js:217-220 | one pair per question, holding that question and its answer or the default |
| AppText.AnswersReachPlanPrompt | public/app.js:217-229 | each question reaches the final-plan prompt as its numbered block, next to its answer |
| App.StartedConversation | public/app.js:191-196 | the session stores the idea, the expanded idea and the stacks |
| App.ChoseStack | public/app.js:666-670 | the chosen stack and its questions are stored, the answers start empty at question 0, and the rest is kept |
| App.RecordAnswer | public/app.js:206-208 | the answer is stored at the current index and every other answer is kept |
| App.AnswerStep | public/app.js:206-212 | the answer is stored and the index moves to the next question |
| App.AnswerStepKeepsValid | public/app.js:204-214 | moving to the next question keeps the answers up to the index |
| App.RecordAnswerKeepsValid | public/app.js:204-208 | storing the last answer keeps the conversation valid |
| App.AnsweredInOrder | public/app.js:204-214 | answering in order stores exactly the typed answers |
| App.CompletedSessionSendsTypedAnswers | public/app.js:204-231 | answering every question in order asks each one and then sends exactly the typed answers, with the default for empty ones |
| App.FailureText | public/app.js:253-255 | a failed request is reported as an `Error: ` message |
| App.FreeFlowText | public/app.js:116-154 | a reply with content is shown as it is; anything else is shown as an `Error: ` message |
| App.FreeFlowChat | public/app.js:127-145 | the current chat becomes the idea and the reply exactly when the reply has content and is not a simple response |
| App.PickedStack | public/app.js:630-643 | "auto" gives the first stack and a number in range the numbered one; nothing otherwise |
| App.SelectionPicksStack | public/app.js:630-643 | a stack is picked exactly when the selection reads as "auto" with stacks, or as a number in range |
| App.ChatApp.constructor | public/app.js:1-5 | no chat, not generating, no mode, no conversation, no messages |
| App.ChatApp.Post | public/app.js:264-316 | appends one message and changes nothing else |
| App.ChatApp.ShowTechStackOptions | public/app.js:602-622 | posts the menu and moves the conversation to waiting for a selection |
| App.ChatApp.AskNextQuestion | public/app.js:687-693 | posts the caption and the current question |
| App.ChatApp.HandleFreeFlowMode | public/app.js:86-160 | posts the idea and the reply text, sends the idea and count, updates the chat as `FreeFlowChat` says, and ends not generating |
| App.ChatApp.SelectTechStack | public/app.js:625-684 | "auto" without stacks throws and changes nothing; an invalid selection asks again and returns false; a picked stack is confirmed and sent; on a reply its questions start and the first one is asked; on a failure an error is posted; true is returned |
| App.ChatApp.UseStack | public/app.js:645-684 | posts the confirmation, sends the stack, then stores the questions and asks the first, or posts the error |
| App.ChatApp.StartSession | public/app.js:178-202 | sends the idea; on a reply stores the session and shows the menu; on a failure posts the error and keeps the state |
| App.ChatApp.AnswerQuestion | public/app.js:204-250 | stores the answer; asks the next question when there is one; otherwise sends every question with its answer and completes or posts the error |
| App.ChatApp.CompleteSession | public/app.js:215-250 | sends the questions and answers; on a reply shows the plan, makes it the current chat and ends the session; on a failure posts the error and keeps the state |
| App.ChatApp.HandleGuidedMode | public/app.js:163-261 | posts the input, then the branch of the current step: the initial step starts a session (the menu on success; the error text and the conversation kept on failure); the answer step stores the answer and asks the next question or completes the session; other steps do nothing more; ends not generating |
| App.ChatApp.RunGuidedStep | public/app.js:177-251 | the initial branch with the full new state of `StartSession`, the answer branch with that of `AnswerQuestion`; other steps change nothing |
| App.ChatApp.HandleGuidedModeInput | public/app.js:696-709 | posts the input; while a selection is awaited, the full new state of `SelectTechStack`, throwing exactly when "auto" finds no stack; otherwise that of `HandleGuidedMode` |
| App.ChatApp.HandleSend | public/app.js:61-83 | blank input, or input while generating, changes nothing; otherwise the trimmed input is handled as `Route` states |
| App.ChatApp.Route | public/app.js:69-82 | records the mode; free flow gives the full new state of `HandleFreeFlowMode`; guided flow opens a conversation when there is none and then gives the full new state of `HandleGuidedModeInput` |
| App.ChatApp.StartNewChat | public/app.js:545-564 | forgets the chat, the mode and the conversation, clears the messages, and keeps the generating flag |

## Left out

- Calls to language models are parameters. The prompt wording beyond its interpolated values, the model names, the temperatures and the logging are not modelled.
- `expandIdea` and `critiqueIdea` (`src/llm/expand.ts`, `src/llm/critique.ts`) are abstract stage parameters.
- `JSON.parse` is a parameter. The JSON grammar is not modelled, and neither are the shapes of parsed values beyond what the code reads from them.
- The clock and the `Date` renderings `toISOString`, `toTimeString` and `toLocaleString` are not modelled. They are the strings of a `Timestamp` parameter.
- File system I/O is not modelled: the directory is a map. `mkdir` and `path.join`/`path.basename` are left out, and a written path is modelled as its file name.
- The generate handler writes under `process.cwd()/output`, while the file handlers read `__dirname/../output`. The model uses one directory, so it assumes both are the same.
- Dafny strings are sequences of Unicode scalar values, while JavaScript strings are UTF-16 code units. For characters outside the Basic Multilingual Plane the lengths and offsets differ (the `OccursAt` positions, `WhitespaceRunEnd`, the `Trim` and slice lemmas); the model counts scalar values.
- `localeCompare` is modelled as code-point order. Locale collation is not modelled.
- `toLowerCase` is modelled for ASCII letters and the Kelvin sign, the only characters whose lower case is an ASCII letter. Other Unicode case mappings are left out.
- The `llmCount` of the generate request is passed to `runPipeline`, which takes no such argument. It is recorded in the client's request and otherwise ignored.
- The CLI in `src/index.ts` is not part of this model.
- DOM updates, loading indicators, `fetch` and async scheduling are not modelled. The server's replies are parameters, and requests are recorded in `requests`.
- `loadChatHistory`, `loadChat`, `deleteChat`, `copyToClipboard` and `formatFilename` are not modelled. `loadChat` reads the idea with `extractOriginalIdea`, which is modelled.
- The Markdown-to-HTML rewrites after escaping in `renderMarkdown` (headers, bold, lists, paragraphs) are not modelled.
- The `ProductPlan` lists are typed sequences, so a parsed plan always carries them. In the source, a parsed plan that lacks one of them (the reply `{}`, say) makes `.map` throw in `writeMarkdownOutput`, and the generate handler then answers 500 without writing. Those paths are not modelled.
- App.ChatApp.StartSession: a `TechStackOption` is a typed record, so every parsed stack carries `technologies`, `pros` and `cons`. In the source, `generateTechStackOptions` returns whatever `JSON.parse` gives, and `/api/guided/start` forwards it. A stack lacking one of those fields (the reply `[{"name":"A"}]`, say) makes the menu throw after the step was already set to `select_stack`. The catch then posts `Error: …`, and every later guided input is only echoed until a new chat is started. The model states the menu and `AwaitingStackSelection` for every successful reply; that stuck path, whose resting state is `Step.SelectStack`, is not modelled.
- App.ChatApp.ShowTechStackOptions: for the same reason, the throw from `stack.technologies.join`, `stack.pros.forEach` or `stack.cons.forEach` on a malformed stack is not modelled.
- Validate.SimpleResponseTable: a word outside the table gets the fallback only among words that are not inherited `Object.prototype` names. In the source, `responses['constructor']` or `responses['__proto__']` is a truthy inherited value, not the fallback. `validateInput` only passes filler words, so this case never arises there.
- Validate.GetSimpleResponse: returns the fallback for inherited `Object.prototype` names, where the source returns the inherited value (see the line above).
- The string conversion of a parsed `reasoning` is modelled only as far as it throws: the text it would log is not.
- `addMessage`'s handling of `undefined` and of object content is not modelled: messages are strings.
- A thrown `selectTechStack` rejection is reported as `threw`. What the browser does with an unhandled rejection is not modelled.
- App.FailureText: only the `Error: ` prefix is stated, not which message follows it.
- App.FreeFlowText: for failed or empty replies, only the `Error: ` prefix is stated, not the exact message.
- Guided.QuestionsPromptFor: the technologies line is stated exactly only for a single technology. Longer lists are joined with `, ` in the body.
- Guided.PlanPromptFor: only the start of the stack line (the name and ` - `) is stated.

=== FILE: app.dfy ===
/**
 * The browser client's chat state (public/app.js): the current chat, the
 * generating flag, the selected mode, the guided conversation and the message
 * list, and the handlers that move them on. The server's replies are parameters;
 * the requests the client sends are recorded in `requests`.
 */
module App {
  import opened Wrappers
  import opened JsStrings
  import opened Guided
  import opened AppText

  datatype Role = User | Assistant

  /** A chat bubble. */
  datatype Message = Message(role: Role, content: string)

  /** The two values of the mode selector. */
  datatype Mode = FreeFlow | GuidedFlow

  /** `currentChat`. */
  datatype Chat = Chat(filename: Option<string>, idea: Option<string>, content: string)

  /** `conversationState.step`. */
  datatype Step = Initial | SelectStack | AwaitingStackSelection | AnswerQuestions

  /** `conversationState`; fields the JavaScript object does not have yet are empty. */
  datatype Conversation = Conversation(
    step: Step,
    idea: string,
    expandedIdea: string,
    techStacks: seq<TechStackOption>,
    selectedStack: Option<TechStackOption>,
    questions: seq<string>,
    answers: seq<string>,
    currentQuestionIndex: nat)

  /** `{ step: 'initial' }`. */
  const InitialConversation := Conversation(Initial, "", "", [], None, [], [], 0)

  /** What a `fetch` gave: a parsed success body, an error status with the body's
      `error` field (read only by the free-flow handler), or a rejected request. */
  datatype Response<T> = Ok(data: T) | Failed(errorField: Option<string>) | NetworkError(reason: string)

  datatype GenerateData = GenerateData(content: Option<string>, filename: Option<string>, isSimpleResponse: bool)
  datatype StartData = StartData(expandedIdea: string, techStacks: seq<TechStackOption>)
  datatype CompleteData = CompleteData(content: string, filename: string)

  /** The server's answers to the requests one `handleSend` may make. */
  datatype Replies = Replies(
    generate: Response<GenerateData>,
    start: Response<StartData>,
    questions: Response<seq<string>>,
    complete: Response<CompleteData>)

  /** A request body the client sent. */
  datatype Request =
    | GenerateRequest(idea: string, llmCount: Option<int>)
    | StartRequest(idea: string)
    | SelectStackRequest(idea: string, expandedIdea: string, selectedStack: TechStackOption)
    | CompleteRequest(idea: string, expandedIdea: string, selectedStack: TechStackOption,
                      questionsAndAnswers: seq<QA>)

  /** What `selectTechStack` ended with: its return value, or an exception. */
  datatype SelectOutcome = Returned(accepted: bool) | Threw

  // ---------------------------------------------------------------------------
  // The guided conversation, step by step
  // ---------------------------------------------------------------------------

  /** While questions are asked, the index points at a question (or is 0 when
      there are none) and the answers reach up to it, and at most one past it
      when a completion failed after the last answer was stored. */
  predicate ValidConversation(c: Conversation) {
    c.step == AnswerQuestions ==>
      && c.selectedStack.Some?
      && (c.currentQuestionIndex < |c.questions| || (c.questions == [] && c.currentQuestionIndex == 0))
      && c.currentQuestionIndex <= |c.answers| <= c.currentQuestionIndex + 1
  }

  /** The state after `/api/guided/start` answered: the typed idea, the expansion and
      the stacks on offer. */
  function StartedConversation(idea: string, data: StartData): (c: Conversation)
    ensures c.step == SelectStack && c.idea == idea
    ensures c.expandedIdea == data.expandedIdea && c.techStacks == data.techStacks
  {
    Conversation(SelectStack, idea, data.expandedIdea, data.techStacks, None, [], [], 0)
  }

  /** The state after the questions for the chosen stack arrived. */
  function ChoseStack(c: Conversation, stack: TechStackOption, questions: seq<string>): (r: Conversation)
    ensures ValidConversation(r)
    ensures r.step == AnswerQuestions && r.selectedStack == Some(stack) && r.questions == questions
    ensures r.answers == [] && r.currentQuestionIndex == 0
    ensures r.idea == c.idea && r.expandedIdea == c.expandedIdea && r.techStacks == c.techStacks
  {
    c.(step := AnswerQuestions, selectedStack := Some(stack), questions := questions,
       answers := [], currentQuestionIndex := 0)
  }

  /** `answers[currentQuestionIndex] = input`. */
  function RecordAnswer(c: Conversation, input: string): (r: Conversation)
    requires c.currentQuestionIndex <= |c.answers|
    ensures r == c.(answers := r.answers)
    ensures |r.answers| == if c.currentQuestionIndex < |c.answers| then |c.answers| else |c.answers| + 1
    ensures r.answers[c.currentQuestionIndex] == input
    ensures forall j :: 0 <= j < |c.answers| && j != c.currentQuestionIndex ==> r.answers[j] == c.answers[j]
  {
    var i := c.currentQuestionIndex;
    if i < |c.answers| then c.(answers := c.answers[i := input]) else c.(answers := c.answers + [input])
  }

  /** Whether the question just answered was followed by another. */
  predicate HasNextQuestion(c: Conversation) {
    c.currentQuestionIndex + 1 < |c.questions|
  }

  /** Storing an answer that is not the last and moving to the next question. */
  function AnswerStep(c: Conversation, input: string): (r: Conversation)
    requires c.currentQuestionIndex <= |c.answers|
    ensures r.currentQuestionIndex == c.currentQuestionIndex + 1
    ensures r.answers == RecordAnswer(c, input).answers
    ensures r.step == c.step && r.questions == c.questions && r.selectedStack == c.selectedStack
  {
    RecordAnswer(c, input).(currentQuestionIndex := c.currentQuestionIndex + 1)
  }

  /** An answer step keeps the conversation well formed. */
  lemma AnswerStepKeepsValid(c: Conversation, input: string)
    requires ValidConversation(c) && c.step == AnswerQuestions && HasNextQuestion(c)
    ensures ValidConversation(AnswerStep(c, input))
    ensures |AnswerStep(c, input).answers| == AnswerStep(c, input).currentQuestionIndex
  {
  }

  /** The answers of a completion that failed stay stored, still well formed. */
  lemma RecordAnswerKeepsValid(c: Conversation, input: string)
    requires ValidConversation(c) && c.step == AnswerQuestions
    ensures ValidConversation(RecordAnswer(c, input))
    ensures |RecordAnswer(c, input).answers| == c.currentQuestionIndex + 1
  {
  }

  /** A freshly chosen stack answered with `inputs`, none of them the last. */
  function AnsweredInOrder(c: Conversation, inputs: seq<string>): (r: Conversation)
    requires c.answers == [] && c.currentQuestionIndex == 0
    ensures r == c.(answers := inputs, currentQuestionIndex := |inputs|)
    decreases |inputs|
  {
    if inputs == [] then c
    else
      var before := AnsweredInOrder(c, inputs[..|inputs| - 1]);
      assert inputs[..|inputs| - 1] + [inputs[|inputs| - 1]] == inputs;
      AnswerStep(before, inputs[|inputs| - 1])
  }

  /** Answering every question of a fresh session in order sends exactly the typed
      answers, with "No answer provided" standing in for the empty ones. */
  lemma {:induction false} CompletedSessionSendsTypedAnswers(c: Conversation, inputs: seq<string>)
    requires c.step == AnswerQuestions && c.answers == [] && c.currentQuestionIndex == 0
    requires |inputs| == |c.questions| >= 1
    ensures var last := AnsweredInOrder(c, inputs[..|inputs| - 1]);
            var done := RecordAnswer(last, inputs[|inputs| - 1]);
            && !HasNextQuestion(last)
            && (forall j :: 0 <= j < |inputs| - 1 ==> HasNextQuestion(AnsweredInOrder(c, inputs[..j])))
            && done.answers == inputs
            && QuestionsAndAnswers(c.questions, done.answers)
               == seq(|inputs|, i requires 0 <= i < |inputs| => QA(c.questions[i], AnswerOrDefault(inputs, i)))
  {
    var n := |inputs|;
    var last := AnsweredInOrder(c, inputs[..n - 1]);
    assert inputs[..n - 1] + [inputs[n - 1]] == inputs;
    forall j | 0 <= j < n - 1 ensures HasNextQuestion(AnsweredInOrder(c, inputs[..j])) {
      assert AnsweredInOrder(c, inputs[..j]).currentQuestionIndex == |inputs[..j]| == j;
    }
  }

  // ---------------------------------------------------------------------------
  // Texts the handlers post
  // ---------------------------------------------------------------------------

  function ErrorText(message: string): string {
    "Error: " + message
  }

  /** The error text of a failed request whose body the handler does not read. */
  function FailureText<T>(r: Response<T>, thrown: string): (t: string)
    requires !r.Ok?
    ensures StartsWith(t, "Error: ")
  {
    var m := if r.Failed? then thrown else r.reason;
    assert (ErrorText(m))[..7] == "Error: ";
    ErrorText(m)
  }

  /** What the free-flow handler posts for the reply to `/api/generate`: the plan or
      canned reply when there is one, an error text otherwise. */
  function FreeFlowText(reply: Response<GenerateData>): (t: string)
    ensures reply.Ok? && reply.data.content.Some? && reply.data.content.value != "" ==>
              t == reply.data.content.value
    ensures !(reply.Ok? && reply.data.content.Some? && reply.data.content.value != "") ==>
              StartsWith(t, "Error: ")
  {
    var text :=
      match reply
      case Ok(data) =>
        if data.content.None? || data.content.value == "" then ErrorText("No content received from server")
        else data.content.value
      case Failed(errorField) =>
        ErrorText(if errorField.None? || errorField.value == "" then "Failed to generate plan" else errorField.value)
      case NetworkError(reason) => ErrorText(reason);
    assert !(reply.Ok? && reply.data.content.Some? && reply.data.content.value != "") ==> text[..7] == "Error: ";
    text
  }

  /** The chat the free-flow handler records: a full plan with content. */
  function FreeFlowChat(idea: string, reply: Response<GenerateData>): (r: Option<Chat>)
    ensures r.Some? <==> reply.Ok? && reply.data.content.Some? && reply.data.content.value != ""
                         && !reply.data.isSimpleResponse
    ensures r.Some? ==> r.value == Chat(reply.data.filename, Some(idea), reply.data.content.value)
  {
    if reply.Ok? && reply.data.content.Some? && reply.data.content.value != "" && !reply.data.isSimpleResponse then
      Some(Chat(reply.data.filename, Some(idea), reply.data.content.value))
    else None
  }

  function AutoText(stack: TechStackOption): string {
    "I've selected **" + stack.name + "** as the best fit for your project. Let's continue!"
  }

  function ChoiceText(stack: TechStackOption): string {
    "Great choice! We'll use **" + stack.name + "**. Moving to the next step..."
  }

  function RepromptText(stackCount: nat): string {
    "Please enter a valid number (1-" + Decimal(stackCount) + ") or \"auto\"."
  }

  /** The stack a selection picks: the first one for "auto", the numbered one for a
      number in range. */
  function PickedStack(stacks: seq<TechStackOption>, selection: Selection): (r: Option<TechStackOption>)
    ensures selection.AutoPick? && |stacks| > 0 ==> r == Some(stacks[0])
    ensures selection.NumberPick? && selection.index < |stacks| ==> r == Some(stacks[selection.index])
    ensures selection.Reprompt? || selection.AutoWithoutStacks? ==> r.None?
  {
    match selection
    case AutoPick => if |stacks| > 0 then Some(stacks[0]) else None
    case NumberPick(i) => if i < |stacks| then Some(stacks[i]) else None
    case _ => None
  }

  /** A selection that is read as "auto" or as a number in range always picks a stack. */
  lemma SelectionPicksStack(stacks: seq<TechStackOption>, typed: string)
    ensures var sel := ResolveSelection(typed, |stacks|);
            PickedStack(stacks, sel).Some? <==> sel.AutoPick? || sel.NumberPick?
  {
  }

  function ConfirmText(selection: Selection, stack: TechStackOption): string {
    if selection.AutoPick? then AutoText(stack) else ChoiceText(stack)
  }

  // ---------------------------------------------------------------------------
  // The client
  // ---------------------------------------------------------------------------

  class ChatApp {
    var currentChat: Option<Chat>
    var isGenerating: bool
    var selectedMode: Option<Mode>
    var conversationState: Option<Conversation>
    var messages: seq<Message>
    var requests: seq<Request>

    predicate Valid()
      reads this
    {
      conversationState.Some? ==> ValidConversation(conversationState.value)
    }

    /** The state when the page loads. */
    constructor()
      ensures Valid()
      ensures currentChat == None && !isGenerating && selectedMode == None && conversationState == None
      ensures messages == [] && requests == []
    {
      currentChat := None;
      isGenerating := false;
      selectedMode := None;
      conversationState := None;
      messages := [];
      requests := [];
    }

    method Post(role: Role, content: string)
      modifies this
      ensures messages == old(messages) + [Message(role, content)]
      ensures currentChat == old(currentChat) && isGenerating == old(isGenerating)
      ensures selectedMode == old(selectedMode) && conversationState == old(conversationState)
      ensures requests == old(requests)
    {
      messages := messages + [Message(role, content)];
    }

    /** `showTechStackOptions`: posts the menu and waits for a selection. */
    method ShowTechStackOptions(techStacks: seq<TechStackOption>)
      requires conversationState.Some?
      modifies this
      ensures messages == old(messages) + [Message(Assistant, TechStackMenu(techStacks))]
      ensures conversationState == Some(old(conversationState).value.(step := AwaitingStackSelection))
      ensures currentChat == old(currentChat) && isGenerating == old(isGenerating)
      ensures selectedMode == old(selectedMode) && requests == old(requests)
    {
      var message := ComposeTechStackMenu(techStacks);
      Post(Assistant, message);
      conversationState := Some(conversationState.value.(step := AwaitingStackSelection));
    }

    /** `askNextQuestion`: posts the current question under its number. */
    method AskNextQuestion()
      requires conversationState.Some?
      modifies this
      ensures messages == old(messages)
              + [Message(Assistant, QuestionPrompt(old(conversationState).value.questions,
                                                   old(conversationState).value.currentQuestionIndex))]
      ensures currentChat == old(currentChat) && isGenerating == old(isGenerating)
      ensures selectedMode == old(selectedMode) && conversationState == old(conversationState)
      ensures requests == old(requests)
    {
      var c := conversationState.value;
      Post(Assistant, QuestionPrompt(c.questions, c.currentQuestionIndex));
    }

    /** `handleFreeFlowMode`: one request to `/api/generate`; a full plan with content
        becomes the current chat. */
    method HandleFreeFlowMode(idea: string, llmCount: Option<int>, reply: Response<GenerateData>)
      modifies this
      ensures messages == old(messages) + [Message(User, idea), Message(Assistant, FreeFlowText(reply))]
      ensures requests == old(requests) + [GenerateRequest(idea, llmCount)]
      ensures currentChat == if FreeFlowChat(idea, reply).Some? then FreeFlowChat(idea, reply) else old(currentChat)
      ensures !isGenerating
      ensures selectedMode == old(selectedMode) && conversationState == old(conversationState)
    {
      Post(User, idea);
      isGenerating := true;
      requests := requests + [GenerateRequest(idea, llmCount)];
      Post(Assistant, FreeFlowText(reply));
      var chat := FreeFlowChat(idea, reply);
      if chat.Some? {
        currentChat := chat;
      }
      isGenerating := false;
    }

    /** The state after `selectTechStack` read `selection` against the stacks of `c`,
        from the messages `msgs`, the requests `reqs` and the flag `generating`:
        nothing happens when "auto" finds no stack (the handler throws), the
        numbers on offer are asked for again when the selection is out of range,
        and otherwise the chosen stack is confirmed and its questions requested. */
    predicate Selected(c: Conversation, msgs: seq<Message>, reqs: seq<Request>, generating: bool,
                       selection: string, reply: Response<seq<string>>)
      reads this
    {
      var sel := ResolveSelection(selection, |c.techStacks|);
      var picked := PickedStack(c.techStacks, sel);
      && (sel.AutoWithoutStacks? ==>
            && messages == msgs && requests == reqs
            && conversationState == Some(c) && isGenerating == generating)
      && (sel.Reprompt? ==>
            && messages == msgs + [Message(Assistant, RepromptText(|c.techStacks|))] && requests == reqs
            && conversationState == Some(c) && isGenerating == generating)
      && (picked.Some? ==>
            var confirm := ConfirmText(sel, picked.value);
            && !isGenerating
            && requests == reqs + [SelectStackRequest(c.idea, c.expandedIdea, picked.value)]
            && (reply.Ok? ==>
                  && conversationState == Some(ChoseStack(c, picked.value, reply.data))
                  && messages == msgs + [Message(Assistant, confirm), Message(Assistant, QuestionPrompt(reply.data, 0))])
            && (!reply.Ok? ==>
                  && conversationState == Some(c)
                  && messages == msgs + [Message(Assistant, confirm),
                                         Message(Assistant, FailureText(reply, "Failed to get questions"))]))
    }

    /** `selectTechStack`: reads the selection, then asks `/api/guided/select-stack`
        for the questions of the chosen stack. */
    method SelectTechStack(selection: string, reply: Response<seq<string>>) returns (outcome: SelectOutcome)
      requires Valid() && conversationState.Some?
      modifies this
      ensures Valid()
      ensures Selected(old(conversationState).value, old(messages), old(requests), old(isGenerating), selection, reply)
      ensures var sel := ResolveSelection(selection, |old(conversationState).value.techStacks|);
              outcome == if sel.AutoWithoutStacks? then Threw else Returned(!sel.Reprompt?)
      ensures currentChat == old(currentChat) && selectedMode == old(selectedMode)
    {
      var c := conversationState.value;
      var stacks := c.techStacks;
      var sel := ResolveSelection(selection, |stacks|);
      if sel.AutoWithoutStacks? {
        return Threw;
      } else if sel.Reprompt? {
        Post(Assistant, RepromptText(|stacks|));
        return Returned(false);
      }
      var stack := if sel.AutoPick? then stacks[0] else stacks[sel.index];
      UseStack(ConfirmText(sel, stack), stack, reply);
      outcome := Returned(true);
    }

    /** The rest of `selectTechStack` once a stack is chosen: the confirmation, then
        `/api/guided/select-stack` and the first question. */
    method UseStack(confirm: string, stack: TechStackOption, reply: Response<seq<string>>)
      requires Valid() && conversationState.Some?
      modifies this
      ensures Valid()
      ensures var c := old(conversationState).value;
              && !isGenerating
              && requests == old(requests) + [SelectStackRequest(c.idea, c.expandedIdea, stack)]
              && (reply.Ok? ==>
                    && conversationState == Some(ChoseStack(c, stack, reply.data))
                    && messages == old(messages) + [Message(Assistant, confirm),
                                                    Message(Assistant, QuestionPrompt(reply.data, 0))])
              && (!reply.Ok? ==>
                    && conversationState == old(conversationState)
                    && messages == old(messages) + [Message(Assistant, confirm),
                                                    Message(Assistant, FailureText(reply, "Failed to get questions"))])
      ensures currentChat == old(currentChat) && selectedMode == old(selectedMode)
    {
      var c := conversationState.value;
      Post(Assistant, confirm);
      isGenerating := true;
      requests := requests + [SelectStackRequest(c.idea, c.expandedIdea, stack)];
      if reply.Ok? {
        conversationState := Some(ChoseStack(c, stack, reply.data));
        AskNextQuestion();
      } else {
        Post(Assistant, FailureText(reply, "Failed to get questions"));
      }
      isGenerating := false;
    }

    /** The state after the `initial` branch sent `input`, from the conversation `c`,
        the messages `msgs` and the requests `reqs`: the menu and the wait for a
        selection on success; on failure the error text, with the conversation as
        it was. */
    predicate Started(c: Option<Conversation>, msgs: seq<Message>, reqs: seq<Request>,
                      input: string, reply: Response<StartData>)
      reads this
    {
      && requests == reqs + [StartRequest(input)]
      && (reply.Ok? ==>
            && conversationState == Some(StartedConversation(input, reply.data).(step := AwaitingStackSelection))
            && messages == msgs + [Message(Assistant, TechStackMenu(reply.data.techStacks))])
      && (!reply.Ok? ==>
            && conversationState == c
            && messages == msgs + [Message(Assistant, FailureText(reply, "Failed to start guided session"))])
    }

    /** The state after the `answer_questions` branch stored `input` as the answer to
        the current question of `c`, from the messages `msgs`, the requests `reqs`,
        the chat `chat` and the mode `mode`: the next question while there is one;
        after the last, the plan and the end of the session, or the error text with
        the answer kept. */
    predicate Answered(c: Conversation, msgs: seq<Message>, reqs: seq<Request>, chat: Option<Chat>,
                       mode: Option<Mode>, input: string, reply: Response<CompleteData>)
      reads this
    {
      && c.currentQuestionIndex <= |c.answers| && c.selectedStack.Some?
      && (HasNextQuestion(c) ==>
            && conversationState == Some(AnswerStep(c, input))
            && messages == msgs + [Message(Assistant, QuestionPrompt(c.questions, c.currentQuestionIndex + 1))]
            && requests == reqs && currentChat == chat && selectedMode == mode)
      && (!HasNextQuestion(c) ==>
            && requests == reqs + [CompleteRequest(c.idea, c.expandedIdea, c.selectedStack.value,
                                                   QuestionsAndAnswers(c.questions, RecordAnswer(c, input).answers))]
            && (reply.Ok? ==>
                  && SessionCompleted(reply.data)
                  && messages == msgs + [Message(Assistant, reply.data.content)])
            && (!reply.Ok? ==>
                  && conversationState == Some(RecordAnswer(c, input))
                  && currentChat == chat && selectedMode == mode
                  && messages == msgs + [Message(Assistant, FailureText(reply, "Failed to complete session"))]))
    }

    /** The state after the branch of `handleGuidedMode` for the step of `c` ran on
        `input`: the `initial` and `answer_questions` branches as above; in the other
        steps nothing changes. */
    predicate StepRan(c: Conversation, msgs: seq<Message>, reqs: seq<Request>, chat: Option<Chat>,
                      mode: Option<Mode>, input: string, replies: Replies)
      reads this
    {
      && (c.step == Initial ==>
            Started(Some(c), msgs, reqs, input, replies.start) && currentChat == chat && selectedMode == mode)
      && (c.step == AnswerQuestions ==> Answered(c, msgs, reqs, chat, mode, input, replies.complete))
      && (c.step != Initial && c.step != AnswerQuestions ==>
            && messages == msgs && requests == reqs && conversationState == Some(c)
            && currentChat == chat && selectedMode == mode)
    }

    /** The state after `handleSend` passed its guard and handed `idea` to the
        handler of `mode`, from the conversation `c0`, the messages `msgs`, the
        requests `reqs` and the chat `chat`; `threw` is whether the handler threw. */
    predicate Routed(c0: Option<Conversation>, msgs: seq<Message>, reqs: seq<Request>, chat: Option<Chat>,
                     idea: string, mode: Mode, llmCount: Option<int>, replies: Replies, threw: bool)
      reads this
    {
      && (mode == FreeFlow ==>
            && !threw && !isGenerating
            && messages == msgs + [Message(User, idea), Message(Assistant, FreeFlowText(replies.generate))]
            && requests == reqs + [GenerateRequest(idea, llmCount)]
            && currentChat == (if FreeFlowChat(idea, replies.generate).Some? then FreeFlowChat(idea, replies.generate)
                               else chat)
            && selectedMode == Some(FreeFlow) && conversationState == c0)
      && (mode == GuidedFlow ==>
            // a guided conversation is opened first when there is none
            && !isGenerating
            && InputHandled(if c0.Some? then c0.value else InitialConversation, msgs, reqs, false, chat,
                            Some(GuidedFlow), idea, replies, threw))
    }

    /** The state after `handleGuidedModeInput` handled `input` in conversation `c`,
        from the messages `msgs`, the requests `reqs`, the flag `generating`, the
        chat `chat` and the mode `mode`; `threw` is whether it threw. The input is
        posted, then read as a selection while the menu waits, and handed to
        `handleGuidedMode` otherwise. */
    predicate InputHandled(c: Conversation, msgs: seq<Message>, reqs: seq<Request>, generating: bool,
                           chat: Option<Chat>, mode: Option<Mode>, input: string, replies: Replies, threw: bool)
      reads this
    {
      var posted := msgs + [Message(User, input)];
      && (threw <==> c.step == AwaitingStackSelection && ResolveSelection(input, |c.techStacks|).AutoWithoutStacks?)
      && (c.step == AwaitingStackSelection ==>
            && Selected(c, posted, reqs, generating, input, replies.questions)
            && currentChat == chat && selectedMode == mode)
      && (c.step != AwaitingStackSelection ==> !isGenerating && StepRan(c, posted, reqs, chat, mode, input, replies))
    }

    /** The `initial` branch of `handleGuidedMode`: `/api/guided/start`, then the menu. */
    method StartSession(input: string, reply: Response<StartData>)
      requires Valid() && conversationState.Some?
      modifies this
      ensures Valid()
      ensures Started(old(conversationState), old(messages), old(requests), input, reply)
      ensures currentChat == old(currentChat) && selectedMode == old(selectedMode)
      ensures isGenerating == old(isGenerating)
    {
      requests := requests + [StartRequest(input)];
      if reply.Ok? {
        conversationState := Some(StartedConversation(input, reply.data));
        ShowTechStackOptions(reply.data.techStacks);
      } else {
        Post(Assistant, FailureText(reply, "Failed to start guided session"));
      }
    }

    /** The `answer_questions` branch of `handleGuidedMode`: stores the answer, then
        asks the next question or sends `/api/guided/complete`. */
    method AnswerQuestion(input: string, reply: Response<CompleteData>)
      requires Valid() && conversationState.Some? && conversationState.value.step == AnswerQuestions
      modifies this
      ensures Valid()
      ensures isGenerating == old(isGenerating)
      ensures Answered(old(conversationState).value, old(messages), old(requests), old(currentChat), old(selectedMode),
                       input, reply)
    {
      var c := conversationState.value;
      if HasNextQuestion(c) {
        AnswerStepKeepsValid(c, input);
        conversationState := Some(AnswerStep(c, input));
        AskNextQuestion();
      } else {
        var answered := RecordAnswer(c, input);
        RecordAnswerKeepsValid(c, input);
        conversationState := Some(answered);
        CompleteSession(reply);
      }
    }

    /** The state after `/api/guided/complete` answered with a plan: it is shown and
        becomes the current chat, and the guided session ends. */
    predicate SessionCompleted(data: CompleteData)
      reads this
    {
      conversationState == None && selectedMode == None
      && currentChat == Some(Chat(Some(data.filename), None, data.content))
    }

    /** The end of the `answer_questions` branch once the last answer is stored:
        sends `/api/guided/complete` with every question and its answer. */
    method CompleteSession(reply: Response<CompleteData>)
      requires Valid() && conversationState.Some? && conversationState.value.selectedStack.Some?
      modifies this
      ensures Valid()
      ensures isGenerating == old(isGenerating)
      ensures var c := old(conversationState).value;
              requests == old(requests) + [CompleteRequest(c.idea, c.expandedIdea, c.selectedStack.value,
                                                           QuestionsAndAnswers(c.questions, c.answers))]
      ensures reply.Ok? ==>
                && SessionCompleted(reply.data)
                && messages == old(messages) + [Message(Assistant, reply.data.content)]
      ensures !reply.Ok? ==>
                && conversationState == old(conversationState)
                && selectedMode == old(selectedMode) && currentChat == old(currentChat)
                && messages == old(messages) + [Message(Assistant, FailureText(reply, "Failed to complete session"))]
    {
      var c := conversationState.value;
      var qas := QuestionsAndAnswers(c.questions, c.answers);
      requests := requests + [CompleteRequest(c.idea, c.expandedIdea, c.selectedStack.value, qas)];
      if reply.Ok? {
        Post(Assistant, reply.data.content);
        currentChat := Some(Chat(Some(reply.data.filename), None, reply.data.content));
        conversationState := None;
        selectedMode := None;
      } else {
        Post(Assistant, FailureText(reply, "Failed to complete session"));
      }
    }

    /** `handleGuidedMode`: posts the input, then runs the branch of the current step;
        in the other steps nothing else happens. */
    method HandleGuidedMode(input: string, replies: Replies)
      requires Valid() && conversationState.Some?
      modifies this
      ensures Valid()
      ensures !isGenerating
      ensures StepRan(old(conversationState).value, old(messages) + [Message(User, input)], old(requests),
                      old(currentChat), old(selectedMode), input, replies)
    {
      Post(User, input);
      isGenerating := true;
      RunGuidedStep(input, replies);
      isGenerating := false;
    }

    /** The branch of `handleGuidedMode` for the current step: the `initial` and
        `answer_questions` steps each add one reply; the others do nothing. */
    method RunGuidedStep(input: string, replies: Replies)
      requires Valid() && conversationState.Some?
      modifies this
      ensures Valid()
      ensures StepRan(old(conversationState).value, old(messages), old(requests), old(currentChat), old(selectedMode),
                      input, replies)
    {
      var c := conversationState.value;
      if c.step == Initial {
        StartSession(input, replies.start);
        assert c.step != AnswerQuestions;
      } else if c.step == AnswerQuestions {
        AnswerQuestion(input, replies.complete);
      }
    }

    /** `handleGuidedModeInput`: a selection while the menu waits, otherwise the
        guided handler. */
    method HandleGuidedModeInput(input: string, replies: Replies) returns (threw: bool)
      requires Valid() && conversationState.Some?
      modifies this
      ensures Valid()
      ensures InputHandled(old(conversationState).value, old(messages), old(requests), old(isGenerating),
                           old(currentChat), old(selectedMode), input, replies, threw)
    {
      if conversationState.value.step == AwaitingStackSelection {
        Post(User, input);
        var posted := messages;
        var outcome := SelectTechStack(input, replies.questions);
        assert messages[..|posted|] == posted;
        threw := outcome == Threw;
      } else {
        HandleGuidedMode(input, replies);
        threw := false;
      }
    }

    /** `handleSend`: ignores blank input and input sent while a request runs;
        otherwise records the mode and hands the trimmed input to the handler of
        that mode, opening a guided conversation first when there is none. */
    method HandleSend(rawInput: string, mode: Mode, llmCount: Option<int>, replies: Replies) returns (threw: bool)
      requires Valid()
      modifies this
      ensures Valid()
      ensures Trim(rawInput) == [] || old(isGenerating) ==>
                && !threw && messages == old(messages) && requests == old(requests)
                && currentChat == old(currentChat) && isGenerating == old(isGenerating)
                && selectedMode == old(selectedMode) && conversationState == old(conversationState)
      ensures Trim(rawInput) != [] && !old(isGenerating) ==>
                Routed(old(conversationState), old(messages), old(requests), old(currentChat),
                       Trim(rawInput), mode, llmCount, replies, threw)
    {
      var idea := Trim(rawInput);
      if idea == [] || isGenerating {
        return false;
      }
      threw := Route(idea, mode, llmCount, replies);
    }

    /** The part of `handleSend` after its guard: records the mode and hands the
        input to the handler of that mode. */
    method Route(idea: string, mode: Mode, llmCount: Option<int>, replies: Replies) returns (threw: bool)
      requires Valid() && !isGenerating
      modifies this
      ensures Valid()
      ensures Routed(old(conversationState), old(messages), old(requests), old(currentChat),
                     idea, mode, llmCount, replies, threw)
    {
      selectedMode := Some(mode);
      if mode == GuidedFlow {
        if conversationState.None? {
          conversationState := Some(InitialConversation);
        }
        threw := HandleGuidedModeInput(idea, replies);
      } else {
        HandleFreeFlowMode(idea, llmCount, replies.generate);
        threw := false;
        assert mode != GuidedFlow;
      }
    }

    /** `startNewChat`: forgets the chat, the mode and the conversation and clears the
        messages; a request in flight keeps `isGenerating`. */
    method StartNewChat()
      modifies this
      ensures currentChat == None && selectedMode == None && conversationState == None && messages == []
      ensures isGenerating == old(isGenerating) && requests == old(requests)
      ensures Valid()
    {
      currentChat := None;
      selectedMode := None;
      conversationState := None;
      messages := [];
    }
  }
}

=== FILE: apptext.dfy ===
/**
 * The text helpers of the browser client (public/app.js): the HTML escaping and
 * appendix stripping done by `renderMarkdown`, `extractOriginalIdea`, the label
 * of `askNextQuestion`, the tech-stack menu of `showTechStackOptions`, the
 * reading of a stack selection in `selectTechStack`, and the question/answer
 * list sent on completion.
 */
module AppText {
  import opened Wrappers
  import opened JsStrings
  import opened Guided
  import Orchestrator
  import Output

  // ---------------------------------------------------------------------------
  // HTML escaping
  // ---------------------------------------------------------------------------

  /** The three passes of `renderMarkdown`: `&` first, then `<`, then `>`. */
  function EscapeHtml(s: string): string {
    ReplaceAll(ReplaceAll(ReplaceAll(s, '&', "&amp;"), '<', "&lt;"), '>', "&gt;")
  }

  /** The entity a single character is written as. */
  function EscapeChar(c: char): string {
    if c == '&' then "&amp;" else if c == '<' then "&lt;" else if c == '>' then "&gt;" else [c]
  }

  /** Each character escaped once, on its own. */
  function EscapeEach(s: string): string {
    if s == [] then [] else EscapeChar(s[0]) + EscapeEach(s[1..])
  }

  lemma EscapeOneChar(c: char)
    ensures EscapeHtml([c]) == EscapeChar(c)
  {
    ReplaceSingle(c, '&', "&amp;");
    if c == '&' {
      ReplaceAllAbsent("&amp;", '<', "&lt;");
      ReplaceAllAbsent("&amp;", '>', "&gt;");
    } else {
      ReplaceSingle(c, '<', "&lt;");
      if c == '<' {
        ReplaceAllAbsent("&lt;", '>', "&gt;");
      } else {
        ReplaceSingle(c, '>', "&gt;");
      }
    }
  }

  lemma EscapeConcat(a: string, b: string)
    ensures EscapeHtml(a + b) == EscapeHtml(a) + EscapeHtml(b)
  {
    ReplaceAllConcat(a, b, '&', "&amp;");
    ReplaceAllConcat(ReplaceAll(a, '&', "&amp;"), ReplaceAll(b, '&', "&amp;"), '<', "&lt;");
    ReplaceAllConcat(ReplaceAll(ReplaceAll(a, '&', "&amp;"), '<', "&lt;"),
                     ReplaceAll(ReplaceAll(b, '&', "&amp;"), '<', "&lt;"), '>', "&gt;");
  }

  /** Because `&` is replaced first, the entities introduced by the later passes are
      never escaped again: the three passes escape every character exactly once. */
  lemma {:induction false} EscapeHtmlIsCharwise(s: string)
    ensures EscapeHtml(s) == EscapeEach(s)
    decreases |s|
  {
    if s != [] {
      assert s == [s[0]] + s[1..];
      EscapeConcat([s[0]], s[1..]);
      EscapeOneChar(s[0]);
      EscapeHtmlIsCharwise(s[1..]);
    }
  }

  /** Reading entities back: `&amp;`, `&lt;` and `&gt;` become the character again. */
  function Unescape(s: string): string
    decreases |s|
  {
    if s == [] then []
    else if StartsWith(s, "&amp;") then "&" + Unescape(s[5..])
    else if StartsWith(s, "&lt;") then "<" + Unescape(s[4..])
    else if StartsWith(s, "&gt;") then ">" + Unescape(s[4..])
    else [s[0]] + Unescape(s[1..])
  }

  lemma UnescapeStep(c: char, rest: string)
    ensures Unescape(EscapeChar(c) + rest) == [c] + Unescape(rest)
  {
    var t := EscapeChar(c) + rest;
    if c == '&' {
      assert t[..5] == "&amp;" && t[5..] == rest;
    } else if c == '<' {
      assert !StartsWith(t, "&amp;") by { assert t[1] == 'l'; }
      assert t[..4] == "&lt;" && t[4..] == rest;
    } else if c == '>' {
      assert !StartsWith(t, "&amp;") by { assert t[1] == 'g'; }
      assert !StartsWith(t, "&lt;") by { assert t[1] == 'g'; }
      assert t[..4] == "&gt;" && t[4..] == rest;
    } else {
      assert t[0] == c && t[1..] == rest;
      assert !StartsWith(t, "&amp;") && !StartsWith(t, "&lt;") && !StartsWith(t, "&gt;") by {
        assert c != '&';
      }
    }
  }

  /** Escaping loses nothing and doubles nothing: unescaping gives the text back. */
  lemma {:induction false} UnescapeEscapeEach(s: string)
    ensures Unescape(EscapeEach(s)) == s
    decreases |s|
  {
    if s != [] {
      UnescapeStep(s[0], EscapeEach(s[1..]));
      UnescapeEscapeEach(s[1..]);
    }
  }

  lemma {:induction false} NoMarkupInEscapeEach(s: string)
    ensures '<' !in EscapeEach(s) && '>' !in EscapeEach(s)
    decreases |s|
  {
    if s != [] {
      NoMarkupInEscapeEach(s[1..]);
    }
  }

  /** The escaped text holds no `<` or `>`, and unescaping restores the input. */
  lemma EscapeHtmlRoundTrip(s: string)
    ensures Unescape(EscapeHtml(s)) == s
    ensures '<' !in EscapeHtml(s) && '>' !in EscapeHtml(s)
  {
    EscapeHtmlIsCharwise(s);
    UnescapeEscapeEach(s);
    NoMarkupInEscapeEach(s);
  }

  /** The two replacements of `EscapeHtml` for `<` and `&`, in the other order. */
  function EscapeLtFirst(x: string): string {
    ReplaceAll(ReplaceAll(x, '<', "&lt;"), '&', "&amp;")
  }

  /** Escaping `<` before `&` would escape the new entity's `&` a second time:
      every `<` of the text would show as `&amp;lt;`, while the order used maps a
      lone `<` to `&lt;`. */
  lemma WrongOrderEscapesTwice(s: string, i: nat)
    requires i < |s| && s[i] == '<'
    ensures OccursAt(EscapeLtFirst(s), "&amp;lt;", |EscapeLtFirst(s[..i])|)
    ensures EscapeHtml([s[i]]) == "&lt;"
  {
    var pre, post := s[..i], s[i + 1..];
    assert s == pre + ([s[i]] + post);
    EscapeLtFirstSplits(pre, post);
    OccursInMiddle(EscapeLtFirst(pre), "&amp;lt;", EscapeLtFirst(post));
    EscapeOneChar('<');
  }

  lemma EscapeLtFirstSplits(pre: string, post: string)
    ensures EscapeLtFirst(pre + (['<'] + post)) == EscapeLtFirst(pre) + "&amp;lt;" + EscapeLtFirst(post)
  {
    ReplaceAllConcat(pre, ['<'] + post, '<', "&lt;");
    ReplaceAllConcat(['<'], post, '<', "&lt;");
    ReplaceSingle('<', '<', "&lt;");
    var a, c := ReplaceAll(pre, '<', "&lt;"), ReplaceAll(post, '<', "&lt;");
    assert ReplaceAll(pre + (['<'] + post), '<', "&lt;") == a + ("&lt;" + c);
    ReplaceAllConcat(a, "&lt;" + c, '&', "&amp;");
    ReplaceAllConcat("&lt;", c, '&', "&amp;");
    EntityAmpersandEscaped();
  }

  lemma EntityAmpersandEscaped()
    ensures ReplaceAll("&lt;", '&', "&amp;") == "&amp;lt;"
  {
    var lt := "&lt;";
    assert lt[1..] == "lt;";
    assert lt == ['&'] + lt[1..];
    ReplaceLeading('&', "lt;", "&amp;");
  }

  // ---------------------------------------------------------------------------
  // Appendix stripping: /---\s*\n+## Appendix:[\s\S]*$/m
  // ---------------------------------------------------------------------------

  predicate DashesAt(t: string, p: nat) {
    p + 3 <= |t| && t[p] == '-' && t[p + 1] == '-' && t[p + 2] == '-'
  }

  /** The end of the whitespace run that starts at `i`. */
  function WhitespaceRunEnd(t: string, i: nat): (q: nat)
    requires i <= |t|
    ensures i <= q <= |t| && (q == |t| || !IsWhitespace(t[q]))
    ensures forall k :: i <= k < q ==> IsWhitespace(t[k])
    decreases |t| - i
  {
    if i < |t| && IsWhitespace(t[i]) then WhitespaceRunEnd(t, i + 1) else i
  }

  /** The marker matches at `p`: three dashes, whitespace that ends in a line feed,
      and `## Appendix:` right after it. `## Appendix:` starts with a character that
      is not whitespace, so the whitespace the pattern consumes is the whole run. */
  predicate AppendixMarkerAt(t: string, p: nat) {
    DashesAt(t, p)
    && var q := WhitespaceRunEnd(t, p + 3);
       q > p + 3 && t[q - 1] == '\n' && OccursAt(t, "## Appendix:", q)
  }

  /** The leftmost marker at or after `from`. */
  function FirstMarker(t: string, from: nat): (r: Option<nat>)
    requires from <= |t|
    ensures r.Some? ==> from <= r.value < |t| && AppendixMarkerAt(t, r.value)
    ensures forall p: nat :: from <= p && (r.None? || p < r.value) ==> !AppendixMarkerAt(t, p)
    decreases |t| - from
  {
    if AppendixMarkerAt(t, from) then Some(from)
    else if from == |t| then None
    else FirstMarker(t, from + 1)
  }

  /** The text with everything from the first marker on removed. */
  function StripAppendix(t: string): (r: string)
    ensures |r| <= |t| && r == t[..|r|]
    ensures r != t ==> AppendixMarkerAt(t, |r|)
    ensures forall p: nat :: p < |r| ==> !AppendixMarkerAt(t, p)
  {
    match FirstMarker(t, 0)
    case Some(p) => t[..p]
    case None => t
  }

  /** What `renderMarkdown` hands to its markup rewrites: an error text for an empty
      message, otherwise the message without its appendix, trimmed and escaped. */
  function RenderMarkdownText(text: string): (r: string)
    ensures text == "" ==> r == "Error: Invalid content"
    ensures text != "" ==> r == EscapeHtml(Trim(StripAppendix(text)))
  {
    if text == "" then "Error: Invalid content" else EscapeHtml(Trim(StripAppendix(text)))
  }

  /** The rule and appendix heading that the written documents put after the plan. */
  const AppendixMarker: string := "\n\n---\n\n## Appendix:"

  /** A document with no marker before `b` that continues at `b` with the rule and
      the appendix heading loses exactly the rule and everything after it. */
  lemma StripAppendixAt(t: string, b: nat)
    requires b <= |t| && forall p: nat :: p < b ==> !AppendixMarkerAt(t, p)
    requires OccursAt(t, AppendixMarker, b)
    ensures StripAppendix(t) == t[..b] + "\n\n"
  {
    var w := t[b..b + |AppendixMarker|];
    assert w == AppendixMarker;
    assert t[b] == w[0] == '\n' && t[b + 1] == w[1] == '\n';
    assert !DashesAt(t, b) && !DashesAt(t, b + 1);
    MarkerAt(t, b);
    assert FirstMarker(t, 0) == Some(b + 2);
    assert t[..b + 2] == t[..b] + t[b..b + 2];
  }

  /** With no `---` before `b` and two line feeds at `b`, no dashes start before `b + 2`. */
  lemma NoDashesBefore(t: string, b: nat)
    requires b + 2 <= |t| && !Contains(t[..b], "---")
    requires t[b] == '\n' && t[b + 1] == '\n'
    ensures forall p: nat :: p < b + 2 ==> !DashesAt(t, p)
  {
    forall p: nat | p < b + 2 ensures !DashesAt(t, p) {
      if p + 3 <= b {
        var u := t[..b];
        assert !OccursAt(u, "---", p);
        var d := u[p..p + 3];
        assert d[0] == t[p] && d[1] == t[p + 1] && d[2] == t[p + 2];
        assert d != "---";
      }
    }
  }

  lemma MarkerAt(t: string, b: nat)
    requires OccursAt(t, AppendixMarker, b)
    ensures AppendixMarkerAt(t, b + 2)
  {
    var w := t[b..b + |AppendixMarker|];
    assert w == AppendixMarker;
    assert t[b + 2] == w[2] == '-' && t[b + 3] == w[3] == '-' && t[b + 4] == w[4] == '-';
    assert t[b + 5] == w[5] == '\n' && t[b + 6] == w[6] == '\n' && t[b + 7] == w[7] == '#';
    assert WhitespaceRunEnd(t, b + 7) == b + 7;
    assert WhitespaceRunEnd(t, b + 5) == b + 7;
    assert t[b + 7..b + 19] == AppendixMarker[7..];
    assert AppendixMarker[7..] == "## Appendix:";
  }

  // ---------------------------------------------------------------------------
  // Original idea: /### Original Idea\s*\n(.+?)(?=\n###|$)/s
  // ---------------------------------------------------------------------------

  const OriginalIdeaHeading: string := "### Original Idea"
  const SectionBreak: string := "\n###"

  /** The line feed that `\s*\n` ends on: the last one in `t[lo..hi]` that still
      leaves a character for the group. Later candidates are tried first because
      `\s*` is greedy. */
  function LastLineBreak(t: string, lo: nat, hi: nat): (r: Option<nat>)
    requires lo <= hi <= |t|
    ensures r.Some? ==> lo <= r.value < hi && t[r.value] == '\n' && r.value + 1 < |t|
    ensures forall k :: lo <= k < hi && (r.None? || r.value < k) ==> !(t[k] == '\n' && k + 1 < |t|)
    decreases hi - lo
  {
    if hi == lo then None
    else if t[hi - 1] == '\n' && hi < |t| then Some(hi - 1)
    else LastLineBreak(t, lo, hi - 1)
  }

  /** Where the lazy group stops: the first position at or after `e` where a line
      feed and `###` follow, or the end of the text. */
  function SectionEnd(t: string, e: nat): (r: nat)
    requires e <= |t|
    ensures e <= r <= |t| && (r == |t| || OccursAt(t, SectionBreak, r))
    ensures forall k: nat :: e <= k < r ==> !OccursAt(t, SectionBreak, k)
    decreases |t| - e
  {
    if e == |t| || OccursAt(t, SectionBreak, e) then e else SectionEnd(t, e + 1)
  }

  /** The group captured by a match whose heading ends at `h`, if one does. */
  function GroupAfter(t: string, h: nat): (r: Option<string>)
    requires h <= |t|
    ensures r.Some? ==> r.value != []
  {
    match LastLineBreak(t, h, WhitespaceRunEnd(t, h))
    case None => None
    case Some(m) => Some(t[m + 1..SectionEnd(t, m + 2)])
  }

  /** The group captured by a match that starts at the heading at `p`, if one does. */
  function IdeaAt(t: string, p: nat): Option<string>
    requires p + |OriginalIdeaHeading| <= |t|
  {
    GroupAfter(t, p + |OriginalIdeaHeading|)
  }

  /** The group of the leftmost match at or after `from`. */
  function IdeaFrom(t: string, from: nat): (r: Option<string>)
    requires from <= |t|
    decreases |t| - from
  {
    if from + |OriginalIdeaHeading| > |t| then None
    else if OccursAt(t, OriginalIdeaHeading, from) && IdeaAt(t, from).Some? then IdeaAt(t, from)
    else IdeaFrom(t, from + 1)
  }

  /** `extractOriginalIdea`: the trimmed group of the first match, or `null`. */
  function ExtractOriginalIdea(markdown: string): (r: Option<string>)
    ensures r.Some? ==> Contains(markdown, OriginalIdeaHeading)
  {
    match IdeaFrom(markdown, 0)
    case None => None
    case Some(g) => IdeaFromFindsHeading(markdown, 0); Some(Trim(g))
  }

  lemma {:induction false} IdeaFromFindsHeading(t: string, from: nat)
    requires from <= |t|
    ensures IdeaFrom(t, from).Some? ==> Contains(t, OriginalIdeaHeading)
    decreases |t| - from
  {
    if from + |OriginalIdeaHeading| <= |t| && !(OccursAt(t, OriginalIdeaHeading, from) && IdeaAt(t, from).Some?) {
      IdeaFromFindsHeading(t, from + 1);
    }
  }

  lemma {:induction false} IdeaFromSkips(t: string, from: nat, p: nat)
    requires from <= p && p + |OriginalIdeaHeading| <= |t|
    requires forall k: nat :: from <= k < p ==> !OccursAt(t, OriginalIdeaHeading, k)
    ensures IdeaFrom(t, from) == IdeaFrom(t, p)
    decreases p - from
  {
    if from < p {
      IdeaFromSkips(t, from + 1, p);
    }
  }

  /** The group ends at the line feed before `###` that follows the idea. */
  lemma SectionEndBefore(t: string, lo: nat, b: nat)
    requires lo <= b + 1 && b + 5 <= |t|
    requires t[b] == '\n' && t[b + 1] == '\n' && t[b + 2] == '#' && t[b + 3] == '#' && t[b + 4] == '#'
    requires forall k: nat :: lo <= k && k + 4 <= b ==> !OccursAt(t, SectionBreak, k)
    ensures SectionEnd(t, lo) == b + 1
  {
    assert t[b + 1..b + 5] == SectionBreak;
    assert OccursAt(t, SectionBreak, b + 1);
    forall k: nat | lo <= k <= b ensures !OccursAt(t, SectionBreak, k) {
      if k == b {
        assert t[k..k + 4][1] != SectionBreak[1];
      } else if b < k + 4 {
        assert t[k..k + 4][b - k] != SectionBreak[b - k];
      }
    }
    var r := SectionEnd(t, lo);
    assert r <= b + 1;
  }

  /** After a heading that ends at `h` come a line feed, an idea with some text in it
      and no `\n###`, and then `\n\n###`: the match captures the idea up to that
      break, less some leading whitespace, and a line feed. */
  lemma GroupAfterIdea(t: string, h: nat, idea: string)
    requires h + 1 + |idea| + 5 <= |t| && t[h] == '\n'
    requires OccursAt(t, idea, h + 1)
    requires var b := h + 1 + |idea|;
             t[b] == '\n' && t[b + 1] == '\n' && t[b + 2] == '#' && t[b + 3] == '#' && t[b + 4] == '#'
    requires !AllWhitespace(idea) && !Contains(idea, SectionBreak)
    ensures GroupAfter(t, h).Some? && Trim(GroupAfter(t, h).value) == Trim(idea)
  {
    var b := h + 1 + |idea|;
    var k := LineBreakBeforeIdea(t, h, idea);
    var g := h + 1 + k;
    NoBreakInIdea(t, h + 1, idea, g + 1);
    SectionEndBefore(t, g + 1, b);
    var group := GroupText(t, h + 1, idea, k);
    GroupBetween(t, h, h + k, b + 1);
    assert GroupAfter(t, h) == Some(group);
    IdeaTrimmed(idea, k);
  }

  /** The group runs from after the chosen line feed to the section end. */
  lemma GroupBetween(t: string, h: nat, m: nat, e: nat)
    requires h <= |t| && LastLineBreak(t, h, WhitespaceRunEnd(t, h)) == Some(m)
    requires SectionEnd(t, m + 2) == e
    ensures m + 1 <= e <= |t| && GroupAfter(t, h) == Some(t[m + 1..e])
  {
  }

  /** No `\n###` starts inside an idea that holds none. */
  lemma NoBreakInIdea(t: string, i0: nat, idea: string, lo: nat)
    requires OccursAt(t, idea, i0) && i0 <= lo
    requires !Contains(idea, SectionBreak)
    ensures forall e: nat :: lo <= e && e + 4 <= i0 + |idea| ==> !OccursAt(t, SectionBreak, e)
  {
    forall e: nat | lo <= e && e + 4 <= i0 + |idea| ensures !OccursAt(t, SectionBreak, e) {
      assert !OccursAt(idea, SectionBreak, e - i0);
      SliceWithin(t, idea, i0, e, 4);
    }
  }

  /** The text from the idea's `k`-th character through the line feed after it. */
  lemma GroupText(t: string, i0: nat, idea: string, k: nat) returns (group: string)
    requires OccursAt(t, idea, i0) && k <= |idea| && i0 + |idea| < |t| && t[i0 + |idea|] == '\n'
    ensures group == t[i0 + k..i0 + |idea| + 1] && group == idea[k..] + ['\n']
  {
    var g := i0 + k;
    var b := i0 + |idea|;
    SliceWithin(t, idea, i0, g, b - g);
    assert idea[k..k + (b - g)] == idea[k..];
    group := t[g..b + 1];
    assert group == t[g..b] + [t[b]];
  }

  /** The line feed the pattern's `\s*\n` ends on lies before the first character of
      the idea that is not whitespace. */
  lemma LineBreakBeforeIdea(t: string, h: nat, idea: string) returns (k: nat)
    requires h + 1 + |idea| < |t| && t[h] == '\n'
    requires OccursAt(t, idea, h + 1)
    requires !AllWhitespace(idea)
    ensures var m := LastLineBreak(t, h, WhitespaceRunEnd(t, h));
            m.Some? && m.value + 1 == h + 1 + k
    ensures k < |idea| && AllWhitespace(idea[..k])
  {
    var i0 := h + 1;
    var b := i0 + |idea|;
    var j0 :| 0 <= j0 < |idea| && !IsWhitespace(idea[j0]);
    assert t[i0 + j0] == t[i0..b][j0];
    var q := WhitespaceRunEnd(t, h);
    assert h < q <= i0 + j0;
    var m := LastLineBreak(t, h, q);
    assert m.Some?;
    k := m.value + 1 - i0;
    forall j | 0 <= j < k ensures IsWhitespace(idea[..k][j]) {
      assert idea[..k][j] == t[i0..b][j] == t[i0 + j];
    }
  }

  lemma IdeaTrimmed(idea: string, k: nat)
    requires k <= |idea| && AllWhitespace(idea[..k])
    ensures Trim(idea[k..] + ['\n']) == Trim(idea)
  {
    var w := idea[..k];
    var s := idea[k..];
    assert w + s == idea;
    TrimLeading(w, s);
    TrimTrailingLineFeed(s);
  }

  lemma TrimLeading(w: string, s: string)
    requires AllWhitespace(w)
    ensures Trim(w + s) == Trim(s)
  {
    assert w + s + [] == w + s;
    TrimSkipsWhitespace(w, s, []);
  }

  lemma TrimTrailingLineFeed(s: string)
    ensures Trim(s + ['\n']) == Trim(s)
  {
    assert [] + s + ['\n'] == s + ['\n'];
    assert AllWhitespace(['\n']);
    TrimSkipsWhitespace([], s, ['\n']);
  }

  /** No heading starts inside a first part of `t` that ends a line and holds none
      of its own. */
  lemma NoHeadingBefore(t: string, n: nat)
    requires n <= |t| && (n == 0 || t[n - 1] == '\n')
    requires !Contains(t[..n], OriginalIdeaHeading)
    ensures forall k: nat :: k < n ==> !OccursAt(t, OriginalIdeaHeading, k)
  {
    var pre := t[..n];
    forall k: nat | k < n ensures !OccursAt(t, OriginalIdeaHeading, k) {
      if k + |OriginalIdeaHeading| <= n {
        assert t[k..k + |OriginalIdeaHeading|] == pre[k..k + |OriginalIdeaHeading|];
        assert !OccursAt(pre, OriginalIdeaHeading, k);
      } else if k + |OriginalIdeaHeading| <= |t| {
        var j := n - 1 - k;
        assert t[k..k + |OriginalIdeaHeading|][j] == t[n - 1] == '\n';
        assert OriginalIdeaHeading[j] != '\n';
      }
    }
  }

  /** A heading preceded by text that ends a line and holds no heading of its own is
      the first match: `extractOriginalIdea` returns the idea written under it. */
  lemma ExtractAfterHeading(pre: string, idea: string, rest: string)
    requires pre == [] || pre[|pre| - 1] == '\n'
    requires !Contains(pre, OriginalIdeaHeading)
    requires Trim(idea) != [] && !Contains(idea, SectionBreak)
    ensures ExtractOriginalIdea(pre + OriginalIdeaHeading + "\n" + idea + "\n\n###" + rest) == Some(Trim(idea))
  {
    var t := pre + OriginalIdeaHeading + "\n" + idea + "\n\n###" + rest;
    HeadingLayout(pre, idea, rest);
    assert |pre| == 0 || t[|pre| - 1] == pre[|pre| - 1];
    ExtractAt(t, |pre|, |pre| + |OriginalIdeaHeading|, idea);
  }

  /** The same, stated on the positions of the text. */
  lemma ExtractAt(t: string, p: nat, h: nat, idea: string)
    requires p <= |t| && (p == 0 || t[p - 1] == '\n') && !Contains(t[..p], OriginalIdeaHeading)
    requires OccursAt(t, OriginalIdeaHeading, p) && h == p + |OriginalIdeaHeading|
    requires h + 1 + |idea| + 5 <= |t| && t[h] == '\n' && OccursAt(t, idea, h + 1)
    requires var b := h + 1 + |idea|;
             t[b] == '\n' && t[b + 1] == '\n' && t[b + 2] == '#' && t[b + 3] == '#' && t[b + 4] == '#'
    requires Trim(idea) != [] && !Contains(idea, SectionBreak)
    ensures ExtractOriginalIdea(t) == Some(Trim(idea))
  {
    NoHeadingBefore(t, p);
    IdeaFromSkips(t, 0, p);
    GroupAfterIdea(t, h, idea);
    ExtractOfMatch(t, p, h);
  }

  /** When the leftmost match is the heading at `p`, the result is its trimmed group. */
  lemma ExtractOfMatch(t: string, p: nat, h: nat)
    requires OccursAt(t, OriginalIdeaHeading, p) && h == p + |OriginalIdeaHeading| && h <= |t|
    requires IdeaFrom(t, 0) == IdeaFrom(t, p) && GroupAfter(t, h).Some?
    ensures ExtractOriginalIdea(t) == Some(Trim(GroupAfter(t, h).value))
  {
    assert IdeaFrom(t, p) == GroupAfter(t, h);
  }

  lemma HeadingLayout(pre: string, idea: string, rest: string)
    ensures var t := pre + OriginalIdeaHeading + "\n" + idea + "\n\n###" + rest;
            var h := |pre| + |OriginalIdeaHeading|;
            var b := h + 1 + |idea|;
            && b + 5 <= |t| && |pre| <= |t| && t[..|pre|] == pre
            && OccursAt(t, OriginalIdeaHeading, |pre|)
            && t[h] == '\n' && OccursAt(t, idea, h + 1)
            && t[b] == '\n' && t[b + 1] == '\n' && t[b + 2] == '#' && t[b + 3] == '#' && t[b + 4] == '#'
  {
    var t := pre + OriginalIdeaHeading + "\n" + idea + "\n\n###" + rest;
    var h := |pre| + |OriginalIdeaHeading|;
    assert t[..|pre|] == pre;
    assert t[|pre|..h] == OriginalIdeaHeading;
    assert t[h + 1..h + 1 + |idea|] == idea;
  }

  // ---------------------------------------------------------------------------
  // The client reading the documents the server writes
  // ---------------------------------------------------------------------------

  /** A written plan is shown without its appendix: when no appendix marker starts
      inside the plan body, the chat shows exactly the escaped, trimmed body. */
  lemma RenderedPlanHidesAppendix(result: Orchestrator.PipelineResult)
    requires forall p: nat :: p < |Output.PlanBody(result.plan, result.timestamp.locale)| ==>
               !AppendixMarkerAt(Output.Markdown(result), p)
    ensures RenderMarkdownText(Output.Markdown(result))
            == EscapeHtml(Trim(Output.PlanBody(result.plan, result.timestamp.locale)))
  {
    var body := Output.PlanBody(result.plan, result.timestamp.locale);
    var md := Output.Markdown(result);
    MarkerAfterPlanBody(result);
    StripAppendixAt(md, |body|);
    TrimTrailingBreaks(body);
  }

  /** In particular, a plan body that holds no `---` at all, not even a rule or a
      table separator, is shown exactly. */
  lemma DashFreePlanHidesAppendix(result: Orchestrator.PipelineResult)
    requires !Contains(Output.PlanBody(result.plan, result.timestamp.locale), "---")
    ensures RenderMarkdownText(Output.Markdown(result))
            == EscapeHtml(Trim(Output.PlanBody(result.plan, result.timestamp.locale)))
  {
    var body := Output.PlanBody(result.plan, result.timestamp.locale);
    var md := Output.Markdown(result);
    MarkerAfterPlanBody(result);
    NoDashesBefore(md, |body|);
    RenderedPlanHidesAppendix(result);
  }

  lemma MarkerAfterPlanBody(result: Orchestrator.PipelineResult)
    ensures var body := Output.PlanBody(result.plan, result.timestamp.locale);
            var md := Output.Markdown(result);
            |body| <= |md| && md[..|body|] == body && OccursAt(md, AppendixMarker, |body|)
  {
    var body := Output.PlanBody(result.plan, result.timestamp.locale);
    var md := Output.Markdown(result);
    Output.AppendixAfterBody(result);
    MarkerStartsAppendix();
    OccursTake(md, Output.Rule + Output.AppendixHeading, |body|, |AppendixMarker|);
    PrefixOfConcat(body, Output.Rule, Output.Appendix(result.originalIdea, result.expandedIdea, result.critique));
  }

  /** The marker is how the rule and the appendix heading begin. */
  lemma MarkerStartsAppendix()
    ensures |AppendixMarker| <= |Output.Rule + Output.AppendixHeading|
    ensures (Output.Rule + Output.AppendixHeading)[..|AppendixMarker|] == AppendixMarker
  {
  }

  lemma TrimTrailingBreaks(s: string)
    ensures Trim(s + "\n\n") == Trim(s)
  {
    assert [] + s + "\n\n" == s + "\n\n";
    assert AllWhitespace("\n\n");
    TrimSkipsWhitespace([], s, "\n\n");
  }

  /** Opening a saved plan recovers the idea it was generated from, trimmed, when the
      plan body holds no heading of that name and the idea has text and no `\n###`. */
  lemma SavedPlanRecoversIdea(result: Orchestrator.PipelineResult)
    requires !Contains(Output.PlanBody(result.plan, result.timestamp.locale), OriginalIdeaHeading)
    requires Trim(result.originalIdea) != [] && !Contains(result.originalIdea, SectionBreak)
    ensures ExtractOriginalIdea(Output.Markdown(result)) == Some(Trim(result.originalIdea))
  {
    var body := Output.PlanBody(result.plan, result.timestamp.locale);
    var pre := body + (Output.Rule + Output.AppendixHeading);
    var rest := Output.ExpandedBlock(result.expandedIdea, result.critique)[3..];
    MarkdownAroundIdea(result);
    NoHeadingInFront(body);
    assert pre[|pre| - 1] == '\n';
    ExtractAfterHeading(pre, result.originalIdea, rest);
  }

  lemma MarkdownAroundIdea(result: Orchestrator.PipelineResult)
    ensures var pre := Output.PlanBody(result.plan, result.timestamp.locale) + (Output.Rule + Output.AppendixHeading);
            var block := Output.ExpandedBlock(result.expandedIdea, result.critique);
            3 <= |block|
            && Output.Markdown(result)
               == pre + OriginalIdeaHeading + "\n" + result.originalIdea + "\n\n###" + block[3..]
  {
    var block := Output.ExpandedBlock(result.expandedIdea, result.critique);
    assert block == "###" + block[3..];
    assert "### Original Idea\n" == OriginalIdeaHeading + "\n";
  }

  /** The rule and the appendix heading add no heading of the original idea. */
  lemma NoHeadingInFront(body: string)
    requires !Contains(body, OriginalIdeaHeading)
    ensures !Contains(body + (Output.Rule + Output.AppendixHeading), OriginalIdeaHeading)
  {
    var front := Output.Rule + Output.AppendixHeading;
    var t := body + front;
    var n := |OriginalIdeaHeading|;
    assert 'I' !in front;
    assert OriginalIdeaHeading[13] == 'I' && '\n' !in OriginalIdeaHeading;
    forall k: nat | k + n <= |t| ensures !OccursAt(t, OriginalIdeaHeading, k) {
      if k + n <= |body| {
        assert t[k..k + n] == body[k..k + n];
        assert !OccursAt(body, OriginalIdeaHeading, k);
      } else if k < |body| {
        assert t[k..k + n][|body| - k] == front[0] == '\n';
      } else {
        assert t[k..k + n][13] == front[k + 13 - |body|];
      }
    }
  }

  // ---------------------------------------------------------------------------
  // The tech-stack menu of `showTechStackOptions`
  // ---------------------------------------------------------------------------

  const MenuIntro: string := "Great! Based on your idea, here are some technology stack options:\n\n"

  /** One `- item` line per item, in order. */
  function ItemLines(items: seq<string>): string
    decreases |items|
  {
    if items == [] then "" else ItemLines(items[..|items| - 1]) + ("- " + items[|items| - 1] + "\n")
  }

  /** The numbered title line of stack `i`. */
  function StackTitle(i: nat, stack: TechStackOption): string {
    "**" + Decimal(i + 1) + ". " + stack.name + "**\n"
  }

  /** The description, the technologies and the heading of the pros. */
  function StackDetails(stack: TechStackOption): string {
    stack.description + "\n\n" + ("**Technologies:** " + Join(stack.technologies, ", ") + "\n\n") + "**Pros:**\n"
  }

  /** What follows the title in a stack's entry. */
  function StackBody(stack: TechStackOption): string {
    StackDetails(stack) + ItemLines(stack.pros) + "\n**Cons:**\n" + ItemLines(stack.cons) + "\n---\n\n"
  }

  /** The whole entry of stack `i`. */
  function StackEntry(i: nat, stack: TechStackOption): string {
    StackTitle(i, stack) + StackBody(stack)
  }

  /** The entries of the first `k` stacks. */
  function StackEntries(stacks: seq<TechStackOption>, k: nat): string
    requires k <= |stacks|
  {
    if k == 0 then "" else StackEntries(stacks, k - 1) + StackEntry(k - 1, stacks[k - 1])
  }

  function MenuFooter(count: nat): string {
    "\nType the number (1-" + Decimal(count) + ") to select a stack, or type \"auto\" to let me choose the best fit for you."
  }

  /** The message `showTechStackOptions` posts. */
  function TechStackMenu(stacks: seq<TechStackOption>): string {
    MenuIntro + StackEntries(stacks, |stacks|) + MenuFooter(|stacks|)
  }

  /** Appends `- item\n` for each item, as the `forEach` over pros and cons does. */
  method AppendItemLines(message: string, items: seq<string>) returns (r: string)
    ensures r == message + ItemLines(items)
  {
    r := message;
    var j := 0;
    while j < |items|
      invariant 0 <= j <= |items|
      invariant r == message + ItemLines(items[..j])
    {
      assert items[..j + 1][..j] == items[..j];
      r := r + ("- " + items[j] + "\n");
      j := j + 1;
    }
    assert items[..|items|] == items;
  }

  /** Builds the menu message one stack at a time, as `showTechStackOptions` does;
      the pros and cons are added line by line. */
  method ComposeTechStackMenu(stacks: seq<TechStackOption>) returns (message: string)
    ensures message == TechStackMenu(stacks)
  {
    message := MenuIntro;
    var i := 0;
    while i < |stacks|
      invariant 0 <= i <= |stacks|
      invariant message == MenuIntro + StackEntries(stacks, i)
    {
      var body := ComposeStackBody(stacks[i]);
      var entry := StackTitle(i, stacks[i]) + body;
      assert StackEntries(stacks, i + 1) == StackEntries(stacks, i) + entry;
      ConcatAssoc(MenuIntro, StackEntries(stacks, i), entry);
      message := message + entry;
      i := i + 1;
    }
    message := message + MenuFooter(|stacks|);
  }

  /** The lines one pass of the `forEach` adds after the title of a stack. */
  method ComposeStackBody(stack: TechStackOption) returns (body: string)
    ensures body == StackBody(stack)
  {
    body := StackDetails(stack);
    body := AppendItemLines(body, stack.pros);
    body := body + "\n**Cons:**\n";
    body := AppendItemLines(body, stack.cons);
    body := body + "\n---\n\n";
  }

  lemma {:induction false} EntriesPrefix(stacks: seq<TechStackOption>, k: nat, n: nat)
    requires k <= n <= |stacks|
    ensures |StackEntries(stacks, k)| <= |StackEntries(stacks, n)|
    ensures StackEntries(stacks, n)[..|StackEntries(stacks, k)|] == StackEntries(stacks, k)
    decreases n - k
  {
    if k < n {
      EntriesPrefix(stacks, k, n - 1);
      var e := StackEntries(stacks, n - 1);
      var x := StackEntry(n - 1, stacks[n - 1]);
      assert StackEntries(stacks, n) == e + x;
      PrefixOfAppend(StackEntries(stacks, k), e, x);
    }
  }

  /** The title of stack `i` sits where the entries of the stacks before it end. */
  lemma TitleInEntries(stacks: seq<TechStackOption>, i: nat)
    requires i < |stacks|
    ensures OccursAt(StackEntries(stacks, |stacks|), StackTitle(i, stacks[i]), |StackEntries(stacks, i)|)
  {
    var before := StackEntries(stacks, i);
    var upTo := StackEntries(stacks, i + 1);
    var all := StackEntries(stacks, |stacks|);
    var title := StackTitle(i, stacks[i]);
    var body := StackBody(stacks[i]);
    EntriesPrefix(stacks, i + 1, |stacks|);
    assert upTo == before + StackEntry(i, stacks[i]);
    assert StackEntry(i, stacks[i]) == title + body;
    assert upTo == before + title + body;
    OccursInMiddle(before, title, body);
    OccursInExtension(all, upTo, title, |before|);
  }

  lemma OccursInExtension(s: string, p: string, sub: string, o: nat)
    requires |p| <= |s| && s[..|p|] == p && OccursAt(p, sub, o)
    ensures OccursAt(s, sub, o)
  {
    assert s[o..o + |sub|] == s[..|p|][o..o + |sub|];
  }

  /** Every stack is listed under its number, and typing that number selects it. */
  lemma MenuListsEveryStack(stacks: seq<TechStackOption>, i: nat)
    requires i < |stacks|
    ensures Contains(TechStackMenu(stacks), StackTitle(i, stacks[i]))
    ensures ResolveSelection(Decimal(i + 1), |stacks|) == NumberPick(i)
  {
    var o := |StackEntries(stacks, i)|;
    TitleInEntries(stacks, i);
    OccursShifted(MenuIntro, StackEntries(stacks, |stacks|), MenuFooter(|stacks|), StackTitle(i, stacks[i]), o);
    assert OccursAt(TechStackMenu(stacks), StackTitle(i, stacks[i]), |MenuIntro| + o);
    MenuNumberSelects(i, |stacks|);
  }

  // ---------------------------------------------------------------------------
  // Reading a selection: `selectTechStack`
  // ---------------------------------------------------------------------------

  /** How `selectTechStack` reads the typed selection. */
  datatype Selection =
    | AutoPick            // "auto" in any case: the first stack
    | NumberPick(index: nat)
    | Reprompt            // asked again for a valid number, `false` returned
    | AutoWithoutStacks   // "auto" with no stack offered: reading `name` of `undefined` throws

  /** The word that asks for the first stack, in any letter case. */
  const AutoWord: string := "auto"

  function ResolveSelection(selection: string, stackCount: nat): (r: Selection)
    ensures r.AutoPick? || r.AutoWithoutStacks? <==> ToLower(selection) == AutoWord
    ensures r.AutoPick? ==> stackCount > 0
    ensures r.AutoWithoutStacks? ==> stackCount == 0
    ensures r.NumberPick? ==> r.index < stackCount && ParseInt(selection) == Some(r.index + 1)
    ensures r.Reprompt? <==>
              ToLower(selection) != AutoWord
              && !(ParseInt(selection).Some? && 1 <= ParseInt(selection).value <= stackCount)
  {
    Resolve(ToLower(selection) == AutoWord, ParseInt(selection), stackCount)
  }

  /** The choice made by the two readings of a selection. */
  function Resolve(isAuto: bool, parsed: Option<int>, stackCount: nat): (r: Selection)
    ensures r.AutoPick? || r.AutoWithoutStacks? <==> isAuto
    ensures r.AutoPick? ==> stackCount > 0
    ensures r.AutoWithoutStacks? ==> stackCount == 0
    ensures r.NumberPick? ==> r.index < stackCount && parsed == Some(r.index + 1)
    ensures r.Reprompt? <==> !isAuto && !(parsed.Some? && 1 <= parsed.value <= stackCount)
  {
    if isAuto then (if stackCount > 0 then AutoPick else AutoWithoutStacks)
    else PickNumber(parsed, stackCount)
  }

  /** The choice made by a parsed number: a stack when it lies in `1..stackCount`. */
  function PickNumber(parsed: Option<int>, stackCount: nat): (r: Selection)
    ensures r.NumberPick? || r.Reprompt?
    ensures r.NumberPick? ==> r.index < stackCount && parsed == Some(r.index + 1)
    ensures r.Reprompt? <==> !(parsed.Some? && 1 <= parsed.value <= stackCount)
  {
    match parsed
    case Some(v) => if 0 <= v - 1 < stackCount then NumberPick(v - 1) else Reprompt
    case None => Reprompt
  }

  /** The number printed in front of a stack selects that stack. */
  lemma MenuNumberSelects(i: nat, stackCount: nat)
    requires i < stackCount
    ensures ResolveSelection(Decimal(i + 1), stackCount) == NumberPick(i)
  {
    var d := Decimal(i + 1);
    assert ToLower(d)[0] == LowerChar(d[0]) == d[0];
    assert ToLower(d) != AutoWord;
    ParseIntDecimal(i + 1);
  }

  // ---------------------------------------------------------------------------
  // Questions and answers: `askNextQuestion` and the completion request
  // ---------------------------------------------------------------------------

  const QuestionWord: string := "**Question "

  /** The caption `**Question {current}/{total}:**` and a blank line. */
  function QuestionCaption(current: nat, total: nat): string {
    QuestionWord + Decimal(current) + "/" + Decimal(total) + ":**\n\n"
  }

  /** The question at `index`; a missing question is interpolated as `undefined`. */
  function QuestionText(questions: seq<string>, index: nat): string {
    if index < |questions| then questions[index] else "undefined"
  }

  /** The message `askNextQuestion` posts for the question at `index`. */
  function QuestionPrompt(questions: seq<string>, index: nat): (r: string)
    ensures StartsWith(r, QuestionWord)
    ensures index < |questions| ==> EndsWith(r, questions[index])
    ensures index >= |questions| ==> EndsWith(r, "undefined")
  {
    var caption := QuestionCaption(index + 1, |questions|);
    var q := QuestionText(questions, index);
    assert (caption + q)[..|QuestionWord|] == QuestionWord;
    EndsWithLast(caption, q);
    caption + q
  }

  /** The caption reads back as the position (counted from 1) and the number of
      questions. */
  lemma QuestionPromptNumbers(questions: seq<string>, index: nat)
    ensures var r := QuestionPrompt(questions, index);
            var k := |QuestionWord| + |Decimal(index + 1)| + 1;
            k <= |r| && ParseInt(r[|QuestionWord|..]) == Some(index + 1) && ParseInt(r[k..]) == Some(|questions|)
  {
    var q := QuestionText(questions, index);
    CaptionCurrent(index + 1, |questions|, q);
    CaptionTotal(index + 1, |questions|, q);
  }

  lemma CaptionCurrent(current: nat, total: nat, q: string)
    ensures ParseInt((QuestionCaption(current, total) + q)[|QuestionWord|..]) == Some(current)
  {
    var tail := ":**\n\n";
    DropFirst(QuestionWord, Decimal(current), "/", Decimal(total), tail, q);
    assert ("/" + Decimal(total) + tail + q)[0] == '/';
    ParseIntDecimalThen(current, "/" + Decimal(total) + tail + q);
  }

  lemma CaptionTotal(current: nat, total: nat, q: string)
    ensures var k := |QuestionWord| + |Decimal(current)| + 1;
            k <= |QuestionCaption(current, total) + q|
            && ParseInt((QuestionCaption(current, total) + q)[k..]) == Some(total)
  {
    var tail := ":**\n\n";
    DropParts(QuestionWord, Decimal(current), "/", Decimal(total), tail, q);
    assert (tail + q)[0] == ':';
    ParseIntDecimalThen(total, tail + q);
  }

  /** The answer sent for question `i`: what was typed, or "No answer provided" when
      nothing (or an empty string) is stored for it. */
  function AnswerOrDefault(answers: seq<string>, i: nat): (a: string)
    ensures a != ""
    ensures i < |answers| && answers[i] != "" ==> a == answers[i]
    ensures (i >= |answers| || answers[i] == "") ==> a == "No answer provided"
  {
    if i < |answers| && answers[i] != "" then answers[i] else "No answer provided"
  }

  /** The `questionsAndAnswers` list of the completion request. */
  function QuestionsAndAnswers(questions: seq<string>, answers: seq<string>): (r: seq<QA>)
    ensures |r| == |questions|
    ensures forall i :: 0 <= i < |questions| ==>
              r[i].question == questions[i] && r[i].answer == AnswerOrDefault(answers, i)
  {
    seq(|questions|, i requires 0 <= i < |questions| => QA(questions[i], AnswerOrDefault(answers, i)))
  }

  /** Each question reaches the final-plan prompt as its own numbered block, next to
      the answer typed for it. */
  lemma AnswersReachPlanPrompt(questions: seq<string>, answers: seq<string>, i: nat)
    requires i < |questions|
    ensures exists o: nat :: OccursAt(QaText(QuestionsAndAnswers(questions, answers)),
                                      QaBlock(i, QA(questions[i], AnswerOrDefault(answers, i))), o)
  {
    var qas := QuestionsAndAnswers(questions, answers);
    JoinPiece(QaBlocks(qas), "\n\n", i);
    var o := JoinOffset(QaBlocks(qas), "\n\n", i);
    assert OccursAt(QaText(qas), QaBlock(i, qas[i]), o);
  }
}

=== FILE: guided.dfy ===
/**
 * The guided flow's model calls (src/llm/guided.ts): the JSON candidate picked
 * out of a tech-stack or question reply, the question/answer text handed to the
 * final-plan prompt, and the pass-through of the final plan. The model calls and
 * `JSON.parse` are parameters; prompt wording is not modelled, only the values
 * interpolated into it.
 */
module Guided {
  import opened Wrappers
  import opened JsStrings

  /** `TechStackOption`. */
  datatype TechStackOption = TechStackOption(
    name: string,
    description: string,
    technologies: seq<string>,
    pros: seq<string>,
    cons: seq<string>)

  /** One `{ question, answer }` pair. */
  datatype QA = QA(question: string, answer: string)

  /** The values the open-questions prompt interpolates. */
  datatype QuestionsPrompt = QuestionsPrompt(idea: string, expandedIdea: string, stackName: string, technologies: string)

  /** The values the final-plan prompt interpolates. */
  datatype PlanPrompt = PlanPrompt(idea: string, expandedIdea: string, stackLine: string, technologies: string, qaText: string)

  /** `text.match(/\[[\s\S]*\]/)`, falling back to the raw text (not trimmed). */
  function BracketCandidate(text: string): string {
    match GreedyRegion(text, '[', ']')
    case Some(region) => region
    case None => text
  }

  /** The candidate is the span from the first `[` to the last `]` exactly when
      some `[` precedes some `]`; otherwise it is the whole raw text. */
  lemma BracketCandidateSpec(text: string)
    ensures (exists i, j :: 0 <= i < j < |text| && text[i] == '[' && text[j] == ']') ==>
              exists i: nat, j: nat :: IsGreedySpan(text, '[', ']', i, j) && BracketCandidate(text) == text[i..j + 1]
    ensures !(exists i, j :: 0 <= i < j < |text| && text[i] == '[' && text[j] == ']') ==>
              BracketCandidate(text) == text
  {
    GreedyRegionSpec(text, '[', ']');
  }

  /** A JSON array wrapped in prose that holds no `[` before it and no `]` after
      it is handed to the parser as it stands. */
  lemma BracketCandidateOfWrapped(pre: string, json: string, post: string)
    requires '[' !in pre && ']' !in post
    requires 2 <= |json| && json[0] == '[' && json[|json| - 1] == ']'
    ensures BracketCandidate(pre + json + post) == json
  {
    GreedyRegionOfWrapped(pre, json, post, '[', ']');
  }

  /** Extract and parse an array reply; a failed call or parse is passed on unchanged. */
  function ParseArrayReply<T>(reply: Result<string, Exception>, parse: string -> Result<T, Exception>): (r: Result<T, Exception>)
    ensures reply.Failure? ==> r == Failure(reply.error)
    ensures reply.Success? ==> r == parse(BracketCandidate(reply.value))
  {
    match reply
    case Failure(e) => Failure(e)
    case Success(text) => parse(BracketCandidate(text))
  }

  /** `generateTechStackOptions(idea, apiKey)`, with the model call on the prompt
      built from `idea` as `invoke`. */
  function GenerateTechStackOptions(idea: string, invoke: string -> Result<string, Exception>,
                                    parse: string -> Result<seq<TechStackOption>, Exception>): (r: Result<seq<TechStackOption>, Exception>)
    ensures invoke(idea).Failure? ==> r == Failure(invoke(idea).error)
    ensures invoke(idea).Success? ==> r == parse(BracketCandidate(invoke(idea).value))
  {
    ParseArrayReply(invoke(idea), parse)
  }

  /** The prompt values of `generateOpenQuestions`: the stack's technologies are
      joined with `", "`. */
  function QuestionsPromptFor(idea: string, expandedIdea: string, stack: TechStackOption): (p: QuestionsPrompt)
    ensures p.idea == idea && p.expandedIdea == expandedIdea && p.stackName == stack.name
    ensures |stack.technologies| == 1 ==> p.technologies == stack.technologies[0]
  {
    QuestionsPrompt(idea, expandedIdea, stack.name, Join(stack.technologies, ", "))
  }

  /** `generateOpenQuestions(idea, expandedIdea, selectedStack, apiKey)`. */
  function GenerateOpenQuestions(idea: string, expandedIdea: string, stack: TechStackOption,
                                 invoke: QuestionsPrompt -> Result<string, Exception>,
                                 parse: string -> Result<seq<string>, Exception>): (r: Result<seq<string>, Exception>)
    ensures var reply := invoke(QuestionsPromptFor(idea, expandedIdea, stack));
            && (reply.Failure? ==> r == Failure(reply.error))
            && (reply.Success? ==> r == parse(BracketCandidate(reply.value)))
  {
    ParseArrayReply(invoke(QuestionsPromptFor(idea, expandedIdea, stack)), parse)
  }

  /** Both generators pick the JSON candidate by the same rule: on the same reply
      text they hand the parser the same string. */
  lemma SameExtractionRule(idea: string, expandedIdea: string, stack: TechStackOption,
                           text: string, invokeStacks: string -> Result<string, Exception>,
                           invokeQuestions: QuestionsPrompt -> Result<string, Exception>,
                           parseStacks: string -> Result<seq<TechStackOption>, Exception>,
                           parseQuestions: string -> Result<seq<string>, Exception>)
    requires invokeStacks(idea) == Success(text)
    requires invokeQuestions(QuestionsPromptFor(idea, expandedIdea, stack)) == Success(text)
    ensures GenerateTechStackOptions(idea, invokeStacks, parseStacks) == parseStacks(BracketCandidate(text))
    ensures GenerateOpenQuestions(idea, expandedIdea, stack, invokeQuestions, parseQuestions)
            == parseQuestions(BracketCandidate(text))
  {
  }

  /** Block `i` of the Q/A text: `Q{i+1}: question\nA{i+1}: answer`. */
  function QaBlock(i: nat, qa: QA): string {
    "Q" + Decimal(i + 1) + ": " + qa.question + "\nA" + Decimal(i + 1) + ": " + qa.answer
  }

  function QaBlocks(qas: seq<QA>): (r: seq<string>)
    ensures |r| == |qas|
    ensures forall i :: 0 <= i < |qas| ==> r[i] == QaBlock(i, qas[i])
  {
    seq(|qas|, i requires 0 <= i < |qas| => QaBlock(i, qas[i]))
  }

  /** `qaText`: the blocks joined by a blank line. */
  function QaText(qas: seq<QA>): (r: string)
    ensures qas == [] <==> r == ""
    ensures qas != [] ==> StartsWith(r, "Q1: ")
  {
    var blocks := QaBlocks(qas);
    if qas == [] then ""
    else
      assert blocks[0] == "Q" + "1" + ": " + qas[0].question + "\nA1: " + qas[0].answer;
      assert |blocks| == 1 || Join(blocks, "\n\n") == blocks[0] + "\n\n" + Join(blocks[1..], "\n\n");
      Join(blocks, "\n\n")
  }

  /** Appending a pair appends one blank line and the next numbered block: the
      numbering follows the position in the list. */
  lemma QaTextSnoc(qas: seq<QA>, qa: QA)
    requires qas != []
    ensures QaText(qas + [qa]) == QaText(qas) + "\n\n" + QaBlock(|qas|, qa)
  {
    assert QaBlocks(qas + [qa]) == QaBlocks(qas) + [QaBlock(|qas|, qa)];
    JoinSnoc(QaBlocks(qas), QaBlock(|qas|, qa), "\n\n");
  }

  /** A single pair gives a single block numbered 1, with no separator. */
  lemma QaTextSingle(qa: QA)
    ensures QaText([qa]) == "Q1: " + qa.question + "\nA1: " + qa.answer
  {
    assert QaBlocks([qa]) == [QaBlock(0, qa)];
  }

  /** The prompt values of `generateGuidedFinalPlan`. */
  function PlanPromptFor(idea: string, expandedIdea: string, stack: TechStackOption, qas: seq<QA>): (p: PlanPrompt)
    ensures p.idea == idea && p.expandedIdea == expandedIdea
    ensures StartsWith(p.stackLine, stack.name + " - ")
    ensures p.qaText == QaText(qas)
  {
    PlanPrompt(idea, expandedIdea, stack.name + " - " + stack.description, Join(stack.technologies, ", "), QaText(qas))
  }

  /** `generateGuidedFinalPlan`: the model text is the result, with no extraction,
      trimming or parsing; a failed call is rethrown unchanged. */
  function GenerateGuidedFinalPlan(idea: string, expandedIdea: string, stack: TechStackOption, qas: seq<QA>,
                                   invoke: PlanPrompt -> Result<string, Exception>): (r: Result<string, Exception>)
    ensures r == invoke(PlanPromptFor(idea, expandedIdea, stack, qas))
  {
    invoke(PlanPromptFor(idea, expandedIdea, stack, qas))
  }

  /** A final plan that contains brackets is still returned whole: no bracket
      extraction is applied to it, unlike the array replies. */
  lemma FinalPlanIsVerbatim(idea: string, expandedIdea: string, stack: TechStackOption, qas: seq<QA>,
                            invoke: PlanPrompt -> Result<string, Exception>, pre: string, json: string)
    requires invoke(PlanPromptFor(idea, expandedIdea, stack, qas)) == Success(pre + json)
    requires pre != [] && '[' !in pre
    requires 2 <= |json| && json[0] == '[' && json[|json| - 1] == ']'
    ensures GenerateGuidedFinalPlan(idea, expandedIdea, stack, qas, invoke).value != BracketCandidate(pre + json)
  {
    assert pre + json == pre + json + [];
    BracketCandidateOfWrapped(pre, json, []);
  }
}

=== FILE: jsstrings.dfy ===
/**
 * The JavaScript string primitives the application relies on, stated over
 * `seq<char>`: `trim`, `toLowerCase`, `includes`, `startsWith`, `endsWith`,
 * `indexOf`, `lastIndexOf`, `split`, `join`, `replace(/c/g, …)`, `parseInt`
 * and the decimal rendering of a number inside a template literal.
 */
module JsStrings {
  import opened Wrappers

  /** The characters JavaScript's `\s` matches and `String.prototype.trim` removes
      (WhiteSpace and LineTerminator of ECMA-262). */
  predicate IsWhitespace(c: char) {
    var n := c as int;
    (0x09 <= n <= 0x0D) || n == 0x20 || n == 0xA0 || n == 0x1680
    || (0x2000 <= n <= 0x200A) || n == 0x2028 || n == 0x2029 || n == 0x202F
    || n == 0x205F || n == 0x3000 || n == 0xFEFF
  }

  predicate AllWhitespace(s: string) {
    forall k :: 0 <= k < |s| ==> IsWhitespace(s[k])
  }

  /** `s.trimStart()`: drops the leading whitespace run. */
  function TrimStart(s: string): (r: string)
    ensures |r| <= |s| && r == s[|s| - |r|..]
    ensures AllWhitespace(s[..|s| - |r|])
    ensures r == [] || !IsWhitespace(r[0])
  {
    if s != [] && IsWhitespace(s[0]) then
      var t := s[1..];
      var r := TrimStart(t);
      assert s[..|s| - |r|] == [s[0]] + t[..|t| - |r|];
      assert s[|s| - |r|..] == t[|t| - |r|..];
      r
    else s
  }

  /** `s.trimEnd()`: drops the trailing whitespace run. */
  function TrimEnd(s: string): (r: string)
    ensures |r| <= |s| && r == s[..|r|]
    ensures AllWhitespace(s[|r|..])
    ensures r == [] || !IsWhitespace(r[|r| - 1])
  {
    if s != [] && IsWhitespace(s[|s| - 1]) then
      var t := s[..|s| - 1];
      var r := TrimEnd(t);
      assert s[..|r|] == t[..|r|];
      assert s[|r|..] == t[|r|..] + [s[|s| - 1]];
      r
    else s
  }

  /** `s.trim()`. */
  function Trim(s: string): (r: string)
    ensures |r| <= |s|
    ensures r == [] <==> AllWhitespace(s)
    ensures r == [] || (!IsWhitespace(r[0]) && !IsWhitespace(r[|r| - 1]))
  {
    var t := TrimStart(s);
    assert s == s[..|s| - |t|] + t;
    TrimEnd(t)
  }

  /** Trimming drops whitespace, and only at the two ends: the result is the
      part of `s` between a whitespace prefix and a whitespace suffix. With the
      ends of the result not being whitespace, this pins the result down. */
  lemma TrimIsInfix(s: string)
    ensures exists i: nat :: i + |Trim(s)| <= |s| && Trim(s) == s[i..i + |Trim(s)|]
                             && AllWhitespace(s[..i]) && AllWhitespace(s[i + |Trim(s)|..])
  {
    var t := TrimStart(s);
    var r := TrimEnd(t);
    var i := |s| - |t|;
    SliceOfSuffix(s, i, t, r);
    assert r == Trim(s) && AllWhitespace(s[..i]) && AllWhitespace(s[i + |r|..]);
    assert i + |r| <= |s| && r == s[i..i + |r|];
  }

  /** A prefix `r` of the suffix `t` of `s` that starts at `i`. */
  lemma SliceOfSuffix<T>(s: seq<T>, i: nat, t: seq<T>, r: seq<T>)
    requires i <= |s| && t == s[i..] && |r| <= |t| && r == t[..|r|]
    ensures s[i..i + |r|] == r && s[i + |r|..] == t[|r|..]
  {
  }

  /** Trimming ignores whitespace already at either end. */
  lemma {:induction false} TrimStartSkipsWhitespace(w: string, s: string)
    requires AllWhitespace(w)
    ensures TrimStart(w + s) == TrimStart(s)
    decreases |w|
  {
    if w != [] {
      assert (w + s)[1..] == w[1..] + s;
      TrimStartSkipsWhitespace(w[1..], s);
    } else {
      assert w + s == s;
    }
  }

  lemma {:induction false} TrimEndSkipsWhitespace(s: string, w: string)
    requires AllWhitespace(w)
    ensures TrimEnd(s + w) == TrimEnd(s)
    decreases |w|
  {
    if w != [] {
      assert (s + w)[..|s + w| - 1] == s + w[..|w| - 1];
      TrimEndSkipsWhitespace(s, w[..|w| - 1]);
    } else {
      assert s + w == s;
    }
  }

  lemma {:induction false} TrimStartConcat(s: string, v: string)
    requires TrimStart(s) != []
    ensures TrimStart(s + v) == TrimStart(s) + v
    decreases |s|
  {
    assert s != [];
    var sv := s + v;
    assert sv[0] == s[0];
    if IsWhitespace(s[0]) {
      assert sv[1..] == s[1..] + v;
      assert TrimStart(s) == TrimStart(s[1..]);
      assert TrimStart(sv) == TrimStart(sv[1..]);
      TrimStartConcat(s[1..], v);
    } else {
      assert TrimStart(s) == s;
      assert TrimStart(sv) == sv;
    }
  }

  /** `Trim(w + s + v) == Trim(s)` for whitespace `w` and `v`. */
  lemma TrimSkipsWhitespace(w: string, s: string, v: string)
    requires AllWhitespace(w) && AllWhitespace(v)
    ensures Trim(w + s + v) == Trim(s)
  {
    assert w + s + v == w + (s + v);
    TrimStartSkipsWhitespace(w, s + v);
    assert Trim(w + s + v) == TrimEnd(TrimStart(s + v));
    var t := TrimStart(s);
    if t == [] {
      assert AllWhitespace(s);
      assert AllWhitespace(s + v) by {
        forall k | 0 <= k < |s + v| ensures IsWhitespace((s + v)[k]) {
          if k < |s| { assert (s + v)[k] == s[k]; } else { assert (s + v)[k] == v[k - |s|]; }
        }
      }
      assert Trim(s + v) == [];
    } else {
      TrimStartConcat(s, v);
      TrimEndSkipsWhitespace(t, v);
    }
  }

  /** A string with no whitespace at either end is its own trim. */
  lemma TrimUnchanged(s: string)
    requires s == [] || (!IsWhitespace(s[0]) && !IsWhitespace(s[|s| - 1]))
    ensures Trim(s) == s
  {
  }

  /** `toLowerCase` on the characters whose lower-case form is ASCII: the
      letters `A`–`Z` and U+212A KELVIN SIGN (which lower-cases to `k`).
      Every other character is kept as it is. */
  function LowerChar(c: char): char {
    if 'A' <= c <= 'Z' then (c as int + 32) as char
    else if c as int == 0x212A then 'k'
    else c
  }

  function ToLower(s: string): (r: string)
    ensures |r| == |s|
    ensures forall k :: 0 <= k < |s| ==> r[k] == LowerChar(s[k])
  {
    if s == [] then [] else [LowerChar(s[0])] + ToLower(s[1..])
  }

  /** `sub` occurs in `s` at position `i`. */
  predicate OccursAt(s: string, sub: string, i: nat) {
    i + |sub| <= |s| && s[i..i + |sub|] == sub
  }

  /** The middle part of a concatenation occurs where the first part ends. */
  lemma OccursInMiddle(a: string, b: string, c: string)
    ensures OccursAt(a + b + c, b, |a|)
  {
    assert (a + b + c)[|a|..|a| + |b|] == b;
  }

  /** An occurrence survives putting text around it, shifted by what comes before. */
  lemma OccursShifted(a: string, s: string, c: string, sub: string, o: nat)
    requires OccursAt(s, sub, o)
    ensures OccursAt(a + s + c, sub, |a| + o)
  {
    assert (a + s + c)[|a| + o..|a| + o + |sub|] == s[o..o + |sub|];
  }

  /** An occurrence of `x + y` is an occurrence of `x`. */
  lemma OccursPrefix(s: string, x: string, y: string, o: nat)
    requires OccursAt(s, x + y, o)
    ensures OccursAt(s, x, o)
  {
    assert s[o..o + |x|] == (x + y)[..|x|];
  }

  /** An occurrence of `x` is an occurrence of each of its prefixes. */
  lemma OccursTake(s: string, x: string, o: nat, n: nat)
    requires OccursAt(s, x, o) && n <= |x|
    ensures OccursAt(s, x[..n], o)
  {
    assert s[o..o + n] == s[o..o + |x|][..n];
  }

  /** A slice that lies within an occurrence of `sub` is the matching slice of `sub`. */
  lemma SliceWithin(s: string, sub: string, o: nat, e: nat, n: nat)
    requires OccursAt(s, sub, o)
    requires o <= e && e + n <= o + |sub|
    ensures s[e..e + n] == sub[e - o..e - o + n]
  {
    var a := s[e..e + n];
    var b := sub[e - o..e - o + n];
    var m := s[o..o + |sub|];
    forall j | 0 <= j < n ensures a[j] == b[j] {
      assert a[j] == s[e + j] == m[e - o + j];
    }
  }

  /** A concatenation starts with its first part. */
  lemma PrefixOfConcat(a: string, b: string, c: string)
    ensures |a| <= |a + b + c| && (a + b + c)[..|a|] == a
  {
    assert (a + b + c)[..|a|] == a;
  }

  lemma ConcatAssoc(a: string, b: string, c: string)
    ensures a + b + c == a + (b + c)
  {
  }

  /** What follows the first three of six concatenated parts. */
  lemma DropParts(a: string, b: string, c: string, d: string, e: string, f: string)
    ensures |a| + |b| + |c| <= |a + b + c + d + e + f|
    ensures (a + b + c + d + e + f)[|a| + |b| + |c|..] == d + (e + f)
  {
    assert (a + b + c + d + e + f)[|a| + |b| + |c|..] == d + (e + f);
  }

  /** What follows the first of six concatenated parts. */
  lemma DropFirst(a: string, b: string, c: string, d: string, e: string, f: string)
    ensures (a + b + c + d + e + f)[|a|..] == b + (c + d + e + f)
  {
    assert (a + b + c + d + e + f)[|a|..] == b + (c + d + e + f);
  }

  /** A concatenation ends with its last part. */
  lemma EndsWithLast(a: string, b: string)
    ensures EndsWith(a + b, b)
  {
    assert (a + b)[|a|..] == b;
  }

  /** A prefix of the front part is a prefix of the whole. */
  lemma PrefixOfAppend(p: string, a: string, b: string)
    requires |p| <= |a| && a[..|p|] == p
    ensures |p| <= |a + b| && (a + b)[..|p|] == p
  {
    assert (a + b)[..|p|] == a[..|p|];
  }

  /** A suffix stays a suffix when text is put in front. */
  lemma EndsWithExtended(a: string, s: string, x: string)
    requires EndsWith(s, x)
    ensures EndsWith(a + s, x)
  {
    assert (a + s)[|a + s| - |x|..] == s[|s| - |x|..];
  }

  /** `s.includes(sub)`. */
  predicate Contains(s: string, sub: string) {
    exists i: nat {:trigger OccursAt(s, sub, i)} :: i <= |s| && OccursAt(s, sub, i)
  }

  /** `s.startsWith(p)`. */
  predicate StartsWith(s: string, p: string) {
    OccursAt(s, p, 0)
  }

  /** `s.endsWith(x)`. */
  predicate EndsWith(s: string, x: string) {
    |x| <= |s| && s[|s| - |x|..] == x
  }

  /** `s.indexOf(c, from)`, with `None` for -1. */
  function IndexOfFrom(s: string, c: char, from: nat): (r: Option<nat>)
    requires from <= |s|
    ensures r.Some? ==> from <= r.value < |s| && s[r.value] == c
    ensures forall k :: from <= k < |s| && (r.None? || k < r.value) ==> s[k] != c
    decreases |s| - from
  {
    if from == |s| then None
    else if s[from] == c then Some(from)
    else IndexOfFrom(s, c, from + 1)
  }

  function IndexOf(s: string, c: char): (r: Option<nat>)
    ensures r.Some? ==> r.value < |s| && s[r.value] == c && c !in s[..r.value]
    ensures r.None? <==> c !in s
  {
    var r := IndexOfFrom(s, c, 0);
    assert r.Some? ==> forall k :: 0 <= k < r.value ==> s[..r.value][k] != c;
    r
  }

  /** `s.lastIndexOf(c)`, with `None` for -1. */
  function LastIndexOf(s: string, c: char): (r: Option<nat>)
    ensures r.Some? ==> r.value < |s| && s[r.value] == c && c !in s[r.value + 1..]
    ensures r.None? <==> c !in s
  {
    if s == [] then None
    else if s[|s| - 1] == c then Some(|s| - 1)
    else
      var r := LastIndexOf(s[..|s| - 1], c);
      assert r.Some? ==> s[r.value + 1..] == s[..|s| - 1][r.value + 1..] + [s[|s| - 1]];
      assert r.None? ==> s == s[..|s| - 1] + [s[|s| - 1]];
      r
  }

  /** `text.match(/O[\s\S]*C/)` for two distinct characters `O` and `C`: the greedy
      region from the first `O` to the last `C`, when that `C` comes after that `O`. */
  function GreedyRegion(text: string, open: char, close: char): (r: Option<string>)
    ensures r.Some? ==> 2 <= |r.value| && r.value[0] == open && r.value[|r.value| - 1] == close
  {
    match (IndexOf(text, open), LastIndexOf(text, close))
    case (Some(i), Some(j)) => if i < j then Some(text[i..j + 1]) else None
    case _ => None
  }

  /** `i` is the first `open` of `text`, `j` its last `close`, and `i < j`. */
  predicate IsGreedySpan(text: string, open: char, close: char, i: nat, j: nat) {
    i < j < |text| && text[i] == open && text[j] == close
    && open !in text[..i] && close !in text[j + 1..]
  }

  /** The greedy region exists exactly when some `open` comes before some `close`,
      and it then runs from the first `open` to the last `close`. */
  lemma GreedyRegionSpec(text: string, open: char, close: char)
    ensures (exists i, j :: 0 <= i < j < |text| && text[i] == open && text[j] == close) <==>
              GreedyRegion(text, open, close).Some?
    ensures GreedyRegion(text, open, close).Some? ==>
              exists i: nat, j: nat :: IsGreedySpan(text, open, close, i, j)
                                       && GreedyRegion(text, open, close).value == text[i..j + 1]
  {
    if exists i, j :: 0 <= i < j < |text| && text[i] == open && text[j] == close {
      var i, j :| 0 <= i < j < |text| && text[i] == open && text[j] == close;
      assert open in text && close in text;
      var i0 := IndexOf(text, open).value;
      var j0 := LastIndexOf(text, close).value;
      assert i0 <= i && j <= j0;
      assert IsGreedySpan(text, open, close, i0, j0);
    }
  }

  /** A region framed by text that holds no `open` before it and no `close` after
      it is exactly what the greedy match picks out. */
  lemma GreedyRegionOfWrapped(pre: string, region: string, post: string, open: char, close: char)
    requires open !in pre && close !in post
    requires 2 <= |region| && region[0] == open && region[|region| - 1] == close
    ensures GreedyRegion(pre + region + post, open, close) == Some(region)
  {
    var text := pre + region + post;
    var i, j := |pre|, |pre| + |region| - 1;
    assert text[..i] == pre;
    assert text[j + 1..] == post;
    assert text[i..j + 1] == region;
    IndexOfAt(text, open, i);
    LastIndexOfAt(text, close, j);
  }

  /** The first `c` of `s` is where `indexOf` finds it. */
  lemma IndexOfAt(s: string, c: char, i: nat)
    requires i < |s| && s[i] == c && c !in s[..i]
    ensures IndexOf(s, c) == Some(i)
  {
    assert c in s;
    var k := IndexOf(s, c).value;
  }

  /** The last `c` of `s` is where `lastIndexOf` finds it. */
  lemma LastIndexOfAt(s: string, c: char, j: nat)
    requires j < |s| && s[j] == c && c !in s[j + 1..]
    ensures LastIndexOf(s, c) == Some(j)
  {
    assert c in s;
    var k := LastIndexOf(s, c).value;
  }

  /** `s.indexOf(sub, from)`, with `None` for -1. */
  function IndexOfSubFrom(s: string, sub: string, from: nat): (r: Option<nat>)
    requires from <= |s|
    ensures r.Some? ==> from <= r.value && OccursAt(s, sub, r.value)
    ensures forall k: nat :: from <= k && (r.None? || k < r.value) ==> !OccursAt(s, sub, k)
    decreases |s| - from
  {
    if OccursAt(s, sub, from) then Some(from)
    else if from == |s| then None
    else IndexOfSubFrom(s, sub, from + 1)
  }

  /** `s.split(c)[0]`: the part before the first `c`, or all of `s`. */
  function PrefixBefore(s: string, c: char): (r: string)
    ensures c !in r
  {
    match IndexOf(s, c)
    case Some(i) => s[..i]
    case None => s
  }

  /** `s.replace(/c/g, rep)`. */
  function ReplaceAll(s: string, c: char, rep: string): (r: string)
    ensures c !in rep ==> c !in r
  {
    if s == [] then [] else (if s[0] == c then rep else [s[0]]) + ReplaceAll(s[1..], c, rep)
  }

  lemma {:induction false} ReplaceAllConcat(a: string, b: string, c: char, rep: string)
    ensures ReplaceAll(a + b, c, rep) == ReplaceAll(a, c, rep) + ReplaceAll(b, c, rep)
    decreases |a|
  {
    if a == [] {
      assert a + b == b;
    } else {
      assert (a + b)[1..] == a[1..] + b;
      ReplaceAllConcat(a[1..], b, c, rep);
    }
  }

  /** Splitting at the first `c` of `pre + [c] + rest` keeps `pre` when `pre` holds no `c`. */
  lemma PrefixBeforeOf(pre: string, c: char, rest: string)
    requires c !in pre
    ensures PrefixBefore(pre + [c] + rest, c) == pre
  {
    var s := pre + [c] + rest;
    assert s[|pre|] == c && s[..|pre|] == pre;
  }

  /** Replacing a character that does not occur changes nothing. */
  lemma {:induction false} ReplaceAllAbsent(s: string, c: char, rep: string)
    requires c !in s
    ensures ReplaceAll(s, c, rep) == s
    decreases |s|
  {
    if s != [] {
      ReplaceAllAbsent(s[1..], c, rep);
    }
  }

  /** Replacing in a one-character string. */
  lemma ReplaceSingle(x: char, c: char, rep: string)
    ensures ReplaceAll([x], c, rep) == if x == c then rep else [x]
  {
    assert [x][1..] == [];
  }

  /** Replacing in a string whose only `c` is its first character. */
  lemma ReplaceLeading(c: char, rest: string, rep: string)
    requires c !in rest
    ensures ReplaceAll([c] + rest, c, rep) == rep + rest
  {
    ReplaceAllConcat([c], rest, c, rep);
    ReplaceSingle(c, c, rep);
    ReplaceAllAbsent(rest, c, rep);
  }

  /** `xs.join(sep)`. */
  function Join(xs: seq<string>, sep: string): (r: string)
    ensures |xs| == 1 ==> r == xs[0]
  {
    if |xs| == 0 then "" else if |xs| == 1 then xs[0] else xs[0] + sep + Join(xs[1..], sep)
  }

  /** Where part `k` starts in `Join(xs, sep)`. */
  function JoinOffset(xs: seq<string>, sep: string, k: nat): nat
    requires k < |xs|
  {
    if k == 0 then 0 else |xs[0]| + |sep| + JoinOffset(xs[1..], sep, k - 1)
  }

  /** Part `k` of a join stands at its offset, and the offsets grow by the
      length of a part and a separator. */
  lemma {:induction false} JoinPiece(xs: seq<string>, sep: string, k: nat)
    requires k < |xs|
    ensures OccursAt(Join(xs, sep), xs[k], JoinOffset(xs, sep, k))
    ensures k + 1 < |xs| ==> JoinOffset(xs, sep, k + 1) == JoinOffset(xs, sep, k) + |xs[k]| + |sep|
    decreases k
  {
    var j := Join(xs, sep);
    if k == 0 {
      if |xs| > 1 {
        assert j == xs[0] + sep + Join(xs[1..], sep);
        assert j[..|xs[0]|] == xs[0];
      }
    } else {
      JoinPiece(xs[1..], sep, k - 1);
      var rest := Join(xs[1..], sep);
      assert j == xs[0] + sep + rest;
      var o := JoinOffset(xs[1..], sep, k - 1);
      assert j[|xs[0]| + |sep| + o..|xs[0]| + |sep| + o + |xs[k]|] == rest[o..o + |xs[k]|];
    }
  }

  lemma {:induction false} JoinSnoc(xs: seq<string>, x: string, sep: string)
    requires xs != []
    ensures Join(xs + [x], sep) == Join(xs, sep) + sep + x
    decreases |xs|
  {
    if |xs| == 1 {
      assert (xs + [x])[1..] == [x];
    } else {
      assert (xs + [x])[1..] == xs[1..] + [x];
      JoinSnoc(xs[1..], x, sep);
    }
  }

  /** `s.split(c)` for a single character `c`. */
  function SplitOn(s: string, c: char): (r: seq<string>)
    ensures r != []
    decreases |s|
  {
    match IndexOf(s, c)
    case None => [s]
    case Some(i) => [s[..i]] + SplitOn(s[i + 1..], c)
  }

  /** Splitting a join on a separator character that none of the parts
      contains gives the parts back, in order and in number. */
  lemma {:induction false} SplitJoin(xs: seq<string>, c: char)
    requires xs != []
    requires forall k :: 0 <= k < |xs| ==> c !in xs[k]
    ensures SplitOn(Join(xs, [c]), c) == xs
    decreases |xs|
  {
    if |xs| == 1 {
      assert IndexOf(xs[0], c).None?;
    } else {
      var s := Join(xs, [c]);
      var rest := Join(xs[1..], [c]);
      assert s == xs[0] + [c] + rest;
      var i := |xs[0]|;
      assert s[i] == c;
      assert s[..i] == xs[0];
      IndexOfAt(s, c, i);
      assert s[i + 1..] == rest;
      assert forall k :: 0 <= k < |xs[1..]| ==> c !in xs[1..][k] by {
        forall k | 0 <= k < |xs[1..]| ensures c !in xs[1..][k] {
          assert xs[1..][k] == xs[k + 1];
        }
      }
      SplitJoin(xs[1..], c);
      assert SplitOn(s, c) == [xs[0]] + xs[1..];
      assert xs == [xs[0]] + xs[1..];
    }
  }

  predicate IsDigit(c: char) {
    '0' <= c <= '9'
  }

  function DigitChar(d: nat): (c: char)
    requires d < 10
    ensures IsDigit(c)
  {
    ('0' as int + d) as char
  }

  /** The decimal rendering of a natural number, as a template literal prints it. */
  function Decimal(n: nat): (r: string)
    ensures r != [] && forall k :: 0 <= k < |r| ==> IsDigit(r[k])
  {
    if n < 10 then [DigitChar(n)] else Decimal(n / 10) + [DigitChar(n % 10)]
  }

  function HexDigitValue(c: char): Option<nat> {
    if '0' <= c <= '9' then Some(c as int - '0' as int)
    else if 'a' <= c <= 'f' then Some(c as int - 'a' as int + 10)
    else if 'A' <= c <= 'F' then Some(c as int - 'A' as int + 10)
    else None
  }

  /** The value of a digit `c` in base `radix` (10 or 16), if it is one. */
  function DigitValue(c: char, radix: nat): Option<nat> {
    match HexDigitValue(c)
    case Some(d) => if d < radix then Some(d) else None
    case None => None
  }

  /** The longest prefix of `s` made of base-`radix` digits. */
  function DigitPrefix(s: string, radix: nat): (r: string)
    ensures |r| <= |s| && r == s[..|r|]
    ensures forall k :: 0 <= k < |r| ==> DigitValue(r[k], radix).Some?
  {
    if s != [] && DigitValue(s[0], radix).Some? then [s[0]] + DigitPrefix(s[1..], radix) else []
  }

  /** The value of a string of base-`radix` digits. */
  function DigitsValue(ds: string, radix: nat): nat
    requires forall k :: 0 <= k < |ds| ==> DigitValue(ds[k], radix).Some?
  {
    if ds == [] then 0
    else
      var init := ds[..|ds| - 1];
      assert forall k :: 0 <= k < |init| ==> init[k] == ds[k];
      Scale(DigitsValue(init, radix), radix) + DigitValue(ds[|ds| - 1], radix).value
  }

  /** `n * radix`, kept apart so that its sign is settled once. */
  function Scale(n: nat, radix: nat): nat {
    n * radix
  }

  /** The value of the longest run of base-`radix` digits at the start of `u`. */
  function LeadingNumber(u: string, radix: nat): Option<nat> {
    var ds := DigitPrefix(u, radix);
    if ds == [] then None else Some(DigitsValue(ds, radix))
  }

  /** The unsigned part of `parseInt`: a `0x`/`0X` prefix selects base 16. */
  function ParseUnsigned(u: string): Option<nat> {
    if |u| >= 2 && u[0] == '0' && (u[1] == 'x' || u[1] == 'X') then LeadingNumber(u[2..], 16)
    else LeadingNumber(u, 10)
  }

  /** The global `parseInt(s)` without a radix argument, with `None` for `NaN`:
      leading whitespace is skipped, one sign is read, a `0x`/`0X` prefix selects
      base 16, and the longest run of digits that follows is the value. */
  function ParseInt(s: string): Option<int> {
    var t := TrimStart(s);
    if t != [] && t[0] == '-' then
      match ParseUnsigned(t[1..])
      case Some(v) => Some(0 - v as int)
      case None => None
    else if t != [] && t[0] == '+' then
      match ParseUnsigned(t[1..])
      case Some(v) => Some(v)
      case None => None
    else
      match ParseUnsigned(t)
      case Some(v) => Some(v)
      case None => None
  }

  lemma {:induction false} DecimalDigits(n: nat)
    ensures forall k :: 0 <= k < |Decimal(n)| ==> DigitValue(Decimal(n)[k], 10).Some?
    ensures DigitsValue(Decimal(n), 10) == n
  {
    if n >= 10 {
      DecimalDigits(n / 10);
      var d := Decimal(n);
      assert d[..|d| - 1] == Decimal(n / 10);
    }
  }

  lemma {:induction false} DigitPrefixOfDigits(s: string, radix: nat)
    requires forall k :: 0 <= k < |s| ==> DigitValue(s[k], radix).Some?
    ensures DigitPrefix(s, radix) == s
    decreases |s|
  {
    if s != [] {
      DigitPrefixOfDigits(s[1..], radix);
    }
  }

  /** `parseInt` of a plain run of decimal digits is the value of those digits. */
  lemma ParseIntOfDigits(d: string)
    requires d != [] && forall k :: 0 <= k < |d| ==> IsDigit(d[k])
    ensures forall k :: 0 <= k < |d| ==> DigitValue(d[k], 10).Some?
    ensures ParseInt(d) == Some(DigitsValue(d, 10))
  {
    forall k | 0 <= k < |d| ensures DigitValue(d[k], 10).Some? {
      assert HexDigitValue(d[k]).Some? && HexDigitValue(d[k]).value < 10;
    }
    ParseIntOfUnsigned(d);
    assert d + [] == d;
    NoHexPrefix(d, []);
    DigitPrefixOfDigits(d, 10);
  }

  lemma {:induction false} DigitPrefixStops(s: string, rest: string, radix: nat)
    requires forall k :: 0 <= k < |s| ==> DigitValue(s[k], radix).Some?
    requires rest == [] || DigitValue(rest[0], radix).None?
    ensures DigitPrefix(s + rest, radix) == s
    decreases |s|
  {
    if s == [] {
      assert s + rest == rest;
    } else {
      assert (s + rest)[1..] == s[1..] + rest;
      DigitPrefixStops(s[1..], rest, radix);
    }
  }

  /** `parseInt` reads back every number a template literal prints. */
  lemma ParseIntDecimal(n: nat)
    ensures ParseInt(Decimal(n)) == Some(n)
  {
    ParseIntOfDigits(Decimal(n));
    DecimalDigits(n);
  }

  /** `parseInt` reads a printed number back from the start of a text in which
      it is followed by something other than a digit or an `x`. */
  lemma ParseIntDecimalThen(n: nat, rest: string)
    requires rest == [] || (!IsDigit(rest[0]) && rest[0] != 'x' && rest[0] != 'X')
    ensures ParseInt(Decimal(n) + rest) == Some(n)
  {
    LeadingDecimal(n, rest);
    NoHexPrefix(Decimal(n), rest);
    ParseIntOfUnsigned(Decimal(n) + rest);
  }

  lemma LeadingDecimal(n: nat, rest: string)
    requires rest == [] || !IsDigit(rest[0])
    ensures LeadingNumber(Decimal(n) + rest, 10) == Some(n)
  {
    DecimalDigits(n);
    assert rest == [] || DigitValue(rest[0], 10).None?;
    DigitPrefixStops(Decimal(n), rest, 10);
  }

  lemma NoHexPrefix(d: string, rest: string)
    requires d != [] && forall k :: 0 <= k < |d| ==> IsDigit(d[k])
    requires rest == [] || (rest[0] != 'x' && rest[0] != 'X')
    ensures ParseUnsigned(d + rest) == LeadingNumber(d + rest, 10)
  {
    var s := d + rest;
    if |d| >= 2 {
      assert s[1] == d[1] && IsDigit(d[1]);
    } else if |s| >= 2 {
      assert s[1] == rest[0];
    }
  }

  lemma ParseIntOfUnsigned(s: string)
    requires s != [] && IsDigit(s[0])
    ensures ParseInt(s) == ParseUnsigned(s)
  {
    assert !IsWhitespace(s[0]) && s[0] != '-' && s[0] != '+';
    assert TrimStart(s) == s;
  }

  /** `a` sorts no later than `b` in character-code order (`a` is a prefix of
      `b`, or is smaller at the first position where they differ). */
  predicate CodeLeq(a: string, b: string)
    decreases |a|
  {
    a == [] || (b != [] && (a[0] < b[0] || (a[0] == b[0] && CodeLeq(a[1..], b[1..]))))
  }

  lemma {:induction false} CodeLeqTotal(a: string, b: string)
    ensures CodeLeq(a, b) || CodeLeq(b, a)
    decreases |a|
  {
    if a != [] && b != [] && a[0] == b[0] {
      CodeLeqTotal(a[1..], b[1..]);
    }
  }

  lemma {:induction false} CodeLeqTransitive(a: string, b: string, c: string)
    requires CodeLeq(a, b) && CodeLeq(b, c)
    ensures CodeLeq(a, c)
    decreases |a|
  {
    if a != [] && a[0] == b[0] && b[0] == c[0] {
      CodeLeqTransitive(a[1..], b[1..], c[1..]);
    }
  }

  lemma {:induction false} CodeLeqAntisymmetric(a: string, b: string)
    requires CodeLeq(a, b) && CodeLeq(b, a)
    ensures a == b
    decreases |a|
  {
    if a != [] {
      CodeLeqAntisymmetric(a[1..], b[1..]);
      assert a == [a[0]] + a[1..] && b == [b[0]] + b[1..];
    }
  }
}

=== FILE: orchestrator.dfy ===
/**
 * The three-stage pipeline (src/pipeline/orchestrator.ts): expand, critique,
 * refine, each fed the outputs of the previous ones, with nothing caught. The
 * stages are parameters; the clock reading is the `now` parameter. The calls
 * that are made are recorded so that "a later stage does not run" can be stated.
 */
module Orchestrator {
  import opened Wrappers
  import opened JsStrings
  import opened Refine

  /** The renderings of the `Date` taken at the start of a run that the rest of
      the system uses: `toISOString()`, `toTimeString()` and `toLocaleString()`. */
  datatype Timestamp = Timestamp(iso: string, timeString: string, locale: string)

  /** `PipelineResult`. */
  datatype PipelineResult = PipelineResult(
    originalIdea: string,
    expandedIdea: string,
    critique: string,
    plan: ProductPlan,
    timestamp: Timestamp)

  /** A stage call with the arguments it received. */
  datatype StageCall =
    | ExpandCall(idea: string)
    | CritiqueCall(expandedIdea: string)
    | RefineCall(expandedIdea: string, critique: string)

  /** The stage calls made by one run, in order, and how the run ended. */
  datatype PipelineRun = PipelineRun(calls: seq<StageCall>, outcome: Result<PipelineResult, Exception>)

  /** `runPipeline(idea)`. */
  function RunPipeline(idea: string, now: Timestamp,
                       expand: string -> Result<string, Exception>,
                       critique: string -> Result<string, Exception>,
                       refine: (string, string) -> Result<ProductPlan, Exception>): (run: PipelineRun)
    // the first stage always runs, on the idea as given
    ensures 1 <= |run.calls| <= 3 && run.calls[0] == ExpandCall(idea)
    // critique runs exactly when the expansion succeeded, on exactly its output
    ensures |run.calls| >= 2 <==> expand(idea).Success?
    ensures |run.calls| >= 2 ==> run.calls[1] == CritiqueCall(expand(idea).value)
    // refine runs exactly when both earlier stages succeeded, on exactly their outputs
    ensures |run.calls| == 3 <==> expand(idea).Success? && critique(expand(idea).value).Success?
    ensures |run.calls| == 3 ==>
              run.calls[2] == RefineCall(expand(idea).value, critique(expand(idea).value).value)
    // a failing stage is the last one called, and its error is the run's error, unchanged
    ensures expand(idea).Failure? ==> run.outcome == Failure(expand(idea).error)
    ensures expand(idea).Success? && critique(expand(idea).value).Failure? ==>
              run.outcome == Failure(critique(expand(idea).value).error)
    ensures |run.calls| == 3 && run.calls[2].RefineCall? ==>
              (run.outcome.Failure? <==> refine(run.calls[2].expandedIdea, run.calls[2].critique).Failure?)
    ensures |run.calls| == 3 && run.calls[2].RefineCall?
            && refine(run.calls[2].expandedIdea, run.calls[2].critique).Failure? ==>
              run.outcome == Failure(refine(run.calls[2].expandedIdea, run.calls[2].critique).error)
    // on success the record carries the input and the stage outputs unchanged
    ensures run.outcome.Success? ==>
              && |run.calls| == 3
              && run.outcome.value.originalIdea == idea
              && run.outcome.value.expandedIdea == expand(idea).value
              && run.outcome.value.critique == critique(expand(idea).value).value
              && run.outcome.value.plan == refine(run.outcome.value.expandedIdea, run.outcome.value.critique).value
              && run.outcome.value.timestamp == now
  {
    match expand(idea)
    case Failure(e) => PipelineRun([ExpandCall(idea)], Failure(e))
    case Success(expandedIdea) =>
      match critique(expandedIdea)
      case Failure(e) => PipelineRun([ExpandCall(idea), CritiqueCall(expandedIdea)], Failure(e))
      case Success(critiqueText) =>
        var calls := [ExpandCall(idea), CritiqueCall(expandedIdea), RefineCall(expandedIdea, critiqueText)];
        match refine(expandedIdea, critiqueText)
        case Failure(e) => PipelineRun(calls, Failure(e))
        case Success(plan) => PipelineRun(calls, Success(PipelineResult(idea, expandedIdea, critiqueText, plan, now)))
  }

  /** With the refinement of src/llm/refine.ts as the third stage, a run that got
      as far as refinement and failed there reports an error whose message starts
      with "Llama API error: ", and no plan. */
  lemma RefineStageFailureIsWrapped(idea: string, now: Timestamp,
                                    expand: string -> Result<string, Exception>,
                                    critique: string -> Result<string, Exception>,
                                    invoke: (string, string) -> Result<string, Exception>,
                                    parse: string -> Result<ProductPlan, Exception>)
    requires expand(idea).Success? && critique(expand(idea).value).Success?
    ensures var run := RunPipeline(idea, now, expand, critique,
                                   (e: string, c: string) => RefineIntoPlan(e, c, invoke, parse));
            run.outcome.Failure? ==>
              run.outcome.error.ErrorObject? && StartsWith(run.outcome.error.message, "Llama API error: ")
  {
    var e := expand(idea).value;
    var c := critique(e).value;
    var r := RefineIntoPlan(e, c, invoke, parse);
    assert r.Failure? ==> r.error.ErrorObject? && StartsWith(r.error.message, "Llama API error: ");
  }
}

=== FILE: output.dfy ===
/**
 * The plan serialiser (src/utils/output.ts): the file name chosen for a run
 * and the markdown document written for it. Creating the directory and
 * writing the file are left to the caller; the result is the name and the
 * text that would be written.
 */
module Output {
  import opened Wrappers
  import opened JsStrings
  import opened Refine
  import opened Orchestrator

  /** `timestamp.toISOString().split('T')[0]`. */
  function DatePart(iso: string): string {
    PrefixBefore(iso, 'T')
  }

  /** `timestamp.toTimeString().split(' ')[0].replace(/:/g, '-')`. */
  function TimePart(timeString: string): string {
    ReplaceAll(PrefixBefore(timeString, ' '), ':', "-")
  }

  /** `product-plan-${dateStr}-${timeStr}.md`. */
  function DefaultFilename(ts: Timestamp): string {
    "product-plan-" + DatePart(ts.iso) + "-" + TimePart(ts.timeString) + ".md"
  }

  /** `customFilename || default`: an absent or empty custom name gives the default. */
  function ChooseFilename(customFilename: Option<string>, ts: Timestamp): (r: string)
    ensures customFilename.Some? && customFilename.value != "" ==> r == customFilename.value
    ensures customFilename.None? || customFilename.value == "" ==>
              r == DefaultFilename(ts) && StartsWith(r, "product-plan-") && EndsWith(r, ".md")
  {
    if customFilename.Some? && customFilename.value != "" then customFilename.value
    else
      Affixes("product-plan-", DatePart(ts.iso), "-", TimePart(ts.timeString), ".md");
      DefaultFilename(ts)
  }

  lemma Affixes(pre: string, x: string, y: string, z: string, suf: string)
    ensures StartsWith(pre + x + y + z + suf, pre) && EndsWith(pre + x + y + z + suf, suf)
  {
    var s := pre + x + y + z + suf;
    assert s[..|pre|] == pre;
    assert s[|s| - |suf|..] == suf;
  }

  /** With the usual renderings, `2024-05-01T12:34:56.000Z` and `12:34:56 GMT+0000 (…)`,
      the default name is `product-plan-2024-05-01-12-34-56.md`: the date is the part of
      the ISO string before `T`, and the time is the first word of the time string with
      each `:` turned into `-`. */
  lemma DefaultFilenameShape(ts: Timestamp, date: string, isoRest: string,
                             h: string, m: string, s: string, zone: string)
    requires ts.iso == date + "T" + isoRest && 'T' !in date
    requires ts.timeString == h + ":" + m + ":" + s + " " + zone
    requires ':' !in h && ':' !in m && ':' !in s && ' ' !in h + ":" + m + ":" + s
    ensures ChooseFilename(None, ts) == "product-plan-" + date + "-" + h + "-" + m + "-" + s + ".md"
  {
    DatePartOf(date, isoRest);
    TimePartOf(h, m, s, zone);
  }

  lemma DatePartOf(date: string, isoRest: string)
    requires 'T' !in date
    ensures DatePart(date + "T" + isoRest) == date
  {
    assert date + "T" + isoRest == date + ['T'] + isoRest;
    PrefixBeforeOf(date, 'T', isoRest);
  }

  lemma TimePartOf(h: string, m: string, s: string, zone: string)
    requires ':' !in h && ':' !in m && ':' !in s && ' ' !in h + ":" + m + ":" + s
    ensures TimePart(h + ":" + m + ":" + s + " " + zone) == h + "-" + m + "-" + s
  {
    var clock := h + ":" + m + ":" + s;
    assert clock + " " + zone == clock + [' '] + zone;
    PrefixBeforeOf(clock, ' ', zone);
    ColonsToDashes(h, m, s);
  }

  lemma ColonsToDashes(h: string, m: string, s: string)
    requires ':' !in h && ':' !in m && ':' !in s
    ensures ReplaceAll(h + ":" + m + ":" + s, ':', "-") == h + "-" + m + "-" + s
  {
    ReplaceAllConcat(h + ":" + m + ":", s, ':', "-");
    ReplaceAllConcat(h + ":" + m, ":", ':', "-");
    ReplaceAllConcat(h + ":", m, ':', "-");
    ReplaceAllConcat(h, ":", ':', "-");
    ReplaceAllAbsent(h, ':', "-");
    ReplaceAllAbsent(m, ':', "-");
    ReplaceAllAbsent(s, ':', "-");
    assert ReplaceAll(":", ':', "-") == "-";
  }

  /** The lines of a bulleted list: `- item` for each item. */
  function BulletLines(items: seq<string>): (r: seq<string>)
    ensures |r| == |items|
    ensures forall i :: 0 <= i < |items| ==> r[i] == "- " + items[i]
  {
    seq(|items|, i requires 0 <= i < |items| => "- " + items[i])
  }

  /** `items.map(item => `- ${item}`).join('\n')`. */
  function Bullets(items: seq<string>): string {
    Join(BulletLines(items), "\n")
  }

  /** The lines of the numbered list: `${index + 1}. step` for each step. */
  function NumberedLines(steps: seq<string>): (r: seq<string>)
    ensures |r| == |steps|
    ensures forall i :: 0 <= i < |steps| ==> r[i] == Decimal(i + 1) + ". " + steps[i]
  {
    seq(|steps|, i requires 0 <= i < |steps| => Decimal(i + 1) + ". " + steps[i])
  }

  function Numbered(steps: seq<string>): string {
    Join(NumberedLines(steps), "\n")
  }

  /** A bulleted list splits back, line by line, into one `- item` line per item,
      in order, as long as no item spans lines; an empty list renders as nothing. */
  lemma BulletsReadBack(items: seq<string>)
    requires forall i :: 0 <= i < |items| ==> '\n' !in items[i]
    ensures items == [] ==> Bullets(items) == ""
    ensures items != [] ==> SplitOn(Bullets(items), '\n') == BulletLines(items)
    ensures forall i :: 0 <= i < |items| ==> StartsWith(BulletLines(items)[i], "- ")
                                             && BulletLines(items)[i][2..] == items[i]
  {
    var lines := BulletLines(items);
    forall k | 0 <= k < |lines| ensures '\n' !in lines[k] {
      assert lines[k] == "- " + items[k];
    }
    if items != [] {
      SplitJoin(lines, '\n');
    }
  }

  /** The numbered list splits back into one line per step, and `parseInt` of line
      `i` reads `i + 1`: the steps are numbered consecutively from 1. */
  lemma NumberedReadBack(steps: seq<string>)
    requires forall i :: 0 <= i < |steps| ==> '\n' !in steps[i]
    ensures steps == [] ==> Numbered(steps) == ""
    ensures steps != [] ==> SplitOn(Numbered(steps), '\n') == NumberedLines(steps)
    ensures forall i :: 0 <= i < |steps| ==> ParseInt(NumberedLines(steps)[i]) == Some(i + 1)
  {
    var lines := NumberedLines(steps);
    forall k | 0 <= k < |lines| ensures '\n' !in lines[k] && ParseInt(lines[k]) == Some(k + 1) {
      assert lines[k] == Decimal(k + 1) + (". " + steps[k]);
      ParseIntDecimalThen(k + 1, ". " + steps[k]);
    }
    if steps != [] {
      SplitJoin(lines, '\n');
    }
  }

  /** The seven section headings, in the order the document uses them. */
  const SectionHeadings: seq<string> := [
    "Problem & Solution", "Target User", "Core Features (MVP)", "Technical Considerations",
    "Risks & Edge Cases", "Open Questions", "Suggested Next Steps"]

  /** The body under each heading: prose fields verbatim, lists rendered. */
  function SectionBodies(plan: ProductPlan): (r: seq<string>)
    ensures |r| == |SectionHeadings|
    ensures r[0] == plan.problemAndSolution && r[1] == plan.targetUser && r[3] == plan.technicalConsiderations
    ensures r[2] == Bullets(plan.coreFeatures) && r[4] == Bullets(plan.risksAndEdgeCases)
    ensures r[5] == Bullets(plan.openQuestions) && r[6] == Numbered(plan.suggestedNextSteps)
  {
    [plan.problemAndSolution, plan.targetUser, Bullets(plan.coreFeatures), plan.technicalConsiderations,
     Bullets(plan.risksAndEdgeCases), Bullets(plan.openQuestions), Numbered(plan.suggestedNextSteps)]
  }

  function RenderSection(heading: string, body: string): string {
    "## " + heading + "\n\n" + body
  }

  function RenderedSections(plan: ProductPlan): (r: seq<string>)
    ensures |r| == |SectionHeadings|
    ensures forall k :: 0 <= k < |SectionHeadings| ==>
              r[k] == "## " + SectionHeadings[k] + "\n\n" + SectionBodies(plan)[k]
  {
    var bodies := SectionBodies(plan);
    seq(|SectionHeadings|, i requires 0 <= i < |SectionHeadings| => RenderSection(SectionHeadings[i], bodies[i]))
  }

  function Preamble(locale: string): string {
    "# Product Plan\n\n> Generated on " + locale + "\n\n"
  }

  /** Everything before the `---` rule: title, generation time and the sections. */
  function PlanBody(plan: ProductPlan, locale: string): string {
    Preamble(locale) + Join(RenderedSections(plan), "\n\n")
  }

  /** The horizontal rule between the plan and the appendix. */
  const Rule := "\n\n---\n\n"

  const AppendixHeading := "## Appendix: Pipeline Outputs\n\n"

  function CritiqueBlock(critique: string): string {
    "### Critique (Groq)\n" + critique + "\n"
  }

  function ExpandedBlock(expandedIdea: string, critique: string): string {
    "### Expanded Idea (Gemini)\n" + expandedIdea + "\n\n" + CritiqueBlock(critique)
  }

  /** The appendix heading and the three pipeline texts under their own headings. */
  function Appendix(originalIdea: string, expandedIdea: string, critique: string): string {
    AppendixHeading + "### Original Idea\n" + originalIdea + "\n\n" + ExpandedBlock(expandedIdea, critique)
  }

  /** The document written for a pipeline result. */
  function Markdown(result: PipelineResult): string {
    PlanBody(result.plan, result.timestamp.locale) + Rule
    + Appendix(result.originalIdea, result.expandedIdea, result.critique)
  }

  /** Where the heading of section `k` starts in the document. */
  function HeadingOffset(result: PipelineResult, k: nat): nat
    requires k < |SectionHeadings|
  {
    |Preamble(result.timestamp.locale)| + JoinOffset(RenderedSections(result.plan), "\n\n", k)
  }

  /** Every section heading stands in the document at its offset, the offsets
      grow with the position in the fixed order, and the appendix comes after the
      last section: the sections appear exactly in the order of `SectionHeadings`,
      followed by the appendix. */
  lemma SectionsInOrder(result: PipelineResult)
    ensures forall k :: 0 <= k < |SectionHeadings| ==>
              OccursAt(Markdown(result), "## " + SectionHeadings[k] + "\n\n", HeadingOffset(result, k))
    ensures forall k :: 0 <= k < |SectionHeadings| - 1 ==> HeadingOffset(result, k) < HeadingOffset(result, k + 1)
    ensures OccursAt(Markdown(result), Rule + AppendixHeading, |PlanBody(result.plan, result.timestamp.locale)|)
    ensures HeadingOffset(result, |SectionHeadings| - 1) < |PlanBody(result.plan, result.timestamp.locale)|
  {
    forall k | 0 <= k < |SectionHeadings|
      ensures OccursAt(Markdown(result), "## " + SectionHeadings[k] + "\n\n", HeadingOffset(result, k))
      ensures k < |SectionHeadings| - 1 ==> HeadingOffset(result, k) < HeadingOffset(result, k + 1)
    {
      HeadingAt(result, k);
      if k < |SectionHeadings| - 1 {
        HeadingsIncrease(result, k);
      }
    }
    AppendixAfterBody(result);
    JoinPiece(RenderedSections(result.plan), "\n\n", |SectionHeadings| - 1);
  }

  lemma HeadingAt(result: PipelineResult, k: nat)
    requires k < |SectionHeadings|
    ensures OccursAt(Markdown(result), "## " + SectionHeadings[k] + "\n\n", HeadingOffset(result, k))
  {
    var secs := RenderedSections(result.plan);
    var pre := Preamble(result.timestamp.locale);
    var rest := Rule + Appendix(result.originalIdea, result.expandedIdea, result.critique);
    var o := JoinOffset(secs, "\n\n", k);
    MarkdownParts(result);
    HeadingInSections(result.plan, k);
    OccursShifted(pre, Join(secs, "\n\n"), rest, "## " + SectionHeadings[k] + "\n\n", o);
    assert HeadingOffset(result, k) == |pre| + o;
  }

  /** Each section stands in the document at the offset of its heading: the
      heading, a blank line and the section's body, and the next heading follows
      after one blank line. */
  lemma SectionAt(result: PipelineResult, k: nat)
    requires k < |SectionHeadings|
    ensures OccursAt(Markdown(result), "## " + SectionHeadings[k] + "\n\n" + SectionBodies(result.plan)[k],
                     HeadingOffset(result, k))
    ensures k < |SectionHeadings| - 1 ==>
              HeadingOffset(result, k + 1)
              == HeadingOffset(result, k) + |"## " + SectionHeadings[k] + "\n\n" + SectionBodies(result.plan)[k]| + 2
  {
    var secs := RenderedSections(result.plan);
    var pre := Preamble(result.timestamp.locale);
    var rest := Rule + Appendix(result.originalIdea, result.expandedIdea, result.critique);
    MarkdownParts(result);
    JoinPiece(secs, "\n\n", k);
    OccursShifted(pre, Join(secs, "\n\n"), rest, secs[k], JoinOffset(secs, "\n\n", k));
  }

  lemma HeadingsIncrease(result: PipelineResult, k: nat)
    requires k < |SectionHeadings| - 1
    ensures HeadingOffset(result, k) < HeadingOffset(result, k + 1)
  {
    HeadingInSections(result.plan, k);
  }

  lemma MarkdownParts(result: PipelineResult)
    ensures Markdown(result) == Preamble(result.timestamp.locale) + Join(RenderedSections(result.plan), "\n\n")
                                + (Rule + Appendix(result.originalIdea, result.expandedIdea, result.critique))
  {
  }

  lemma HeadingInSections(plan: ProductPlan, k: nat)
    requires k < |SectionHeadings|
    ensures OccursAt(Join(RenderedSections(plan), "\n\n"), "## " + SectionHeadings[k] + "\n\n",
                     JoinOffset(RenderedSections(plan), "\n\n", k))
    ensures k < |SectionHeadings| - 1 ==>
              JoinOffset(RenderedSections(plan), "\n\n", k) < JoinOffset(RenderedSections(plan), "\n\n", k + 1)
  {
    var secs := RenderedSections(plan);
    JoinPiece(secs, "\n\n", k);
    var h := "## " + SectionHeadings[k] + "\n\n";
    var b := SectionBodies(plan)[k];
    assert secs[k] == h + b;
    OccursPrefix(Join(secs, "\n\n"), h, b, JoinOffset(secs, "\n\n", k));
  }

  lemma AppendixAfterBody(result: PipelineResult)
    ensures OccursAt(Markdown(result), Rule + AppendixHeading, |PlanBody(result.plan, result.timestamp.locale)|)
  {
    var tail := "### Original Idea\n" + result.originalIdea + "\n\n" + ExpandedBlock(result.expandedIdea, result.critique);
    var body := PlanBody(result.plan, result.timestamp.locale);
    assert Markdown(result) == body + (Rule + AppendixHeading) + tail;
    OccursInMiddle(body, Rule + AppendixHeading, tail);
  }

  /** A written file: its name and its text. */
  datatype OutputFile = OutputFile(filename: string, markdown: string)

  /** `writeMarkdownOutput(result, customFilename)`. `isSimpleResponse` is the value
      read from `result.isSimpleResponse`, a property the `PipelineResult` type does
      not declare: results built by `RunPipeline` never carry it, so it reads `false`
      for them. */
  function WriteMarkdownOutput(result: PipelineResult, isSimpleResponse: bool,
                               customFilename: Option<string>): (r: Option<OutputFile>)
    ensures r.None? <==> isSimpleResponse
    ensures r.Some? ==> r.value.filename == ChooseFilename(customFilename, result.timestamp)
    ensures r.Some? ==> r.value.markdown == Markdown(result)
  {
    if isSimpleResponse then None
    else Some(OutputFile(ChooseFilename(customFilename, result.timestamp), Markdown(result)))
  }

  /** The appendix ends the document and carries the expansion and the critique
      verbatim, each right under its own heading. */
  lemma AppendixVerbatim(result: PipelineResult)
    ensures EndsWith(Markdown(result), ExpandedBlock(result.expandedIdea, result.critique))
    ensures EndsWith(Markdown(result), CritiqueBlock(result.critique))
  {
    var e := ExpandedBlock(result.expandedIdea, result.critique);
    var c := CritiqueBlock(result.critique);
    var front := AppendixHeading + "### Original Idea\n" + result.originalIdea + "\n\n";
    var mid := "### Expanded Idea (Gemini)\n" + result.expandedIdea + "\n\n";
    var body := PlanBody(result.plan, result.timestamp.locale) + Rule;
    assert Markdown(result) == body + (front + e);
    assert e == mid + c;
    EndsWithLast(front, e);
    EndsWithExtended(body, front + e, e);
    EndsWithLast(mid, c);
    EndsWithExtended(front, e, c);
    EndsWithExtended(body, front + e, c);
  }
}

=== FILE: refine.dfy ===
/**
 * The refinement stage (src/llm/refine.ts): the JSON candidate taken from the
 * model's reply (the content of the first ``` fenced block, or the whole text),
 * trimmed and parsed into a `ProductPlan`, with every failure wrapped into an
 * error whose message starts with "Llama API error: ". The model call and
 * `JSON.parse` are parameters.
 */
module Refine {
  import opened Wrappers
  import opened JsStrings

  /** `ProductPlan`: three text fields and four lists. */
  datatype ProductPlan = ProductPlan(
    problemAndSolution: string,
    targetUser: string,
    coreFeatures: seq<string>,
    technicalConsiderations: string,
    risksAndEdgeCases: seq<string>,
    openQuestions: seq<string>,
    suggestedNextSteps: seq<string>)

  /** A fence, three backticks, starts at `i`. */
  predicate FenceAt(t: string, i: nat) {
    i + 3 <= |t| && t[i] == '`' && t[i + 1] == '`' && t[i + 2] == '`'
  }

  /** The tag `json` starts at `i`. */
  predicate JsonTagAt(t: string, i: nat) {
    i + 4 <= |t| && t[i] == 'j' && t[i + 1] == 's' && t[i + 2] == 'o' && t[i + 3] == 'n'
  }

  predicate LineFeedAt(t: string, i: nat) {
    i < |t| && t[i] == '\n'
  }

  /** Where the captured group of `/```(?:json)?\n?([\s\S]*?)\n?```/` starts for an
      opening fence at `p`: after the fence, after `json` if it follows, and after
      one line feed if one follows. Both optional parts are greedy, and giving
      either of them back cannot produce a closing fence the greedy choice misses
      (a closing fence needs a backtick, and neither `json` nor a line feed is one). */
  function ContentStart(t: string, p: nat): (s: nat)
    requires FenceAt(t, p)
    ensures p + 3 <= s <= |t|
  {
    var afterTag := if JsonTagAt(t, p + 3) then p + 7 else p + 3;
    if LineFeedAt(t, afterTag) then afterTag + 1 else afterTag
  }

  /** `\n?```` matches at `e`. */
  predicate ClosesAt(t: string, e: nat) {
    FenceAt(t, e) || (LineFeedAt(t, e) && FenceAt(t, e + 1))
  }

  /** The lazy group ends at the first `e >= from` where a closing fence matches. */
  function ClosingFrom(t: string, from: nat): (r: Option<nat>)
    requires from <= |t|
    ensures r.Some? ==> from <= r.value <= |t| && ClosesAt(t, r.value)
    ensures forall e: nat :: from <= e && (r.None? || e < r.value) ==> !ClosesAt(t, e)
    decreases |t| - from
  {
    if ClosesAt(t, from) then Some(from)
    else if from == |t| then None
    else ClosingFrom(t, from + 1)
  }

  /** The first fence at or after `from`. */
  function FirstFence(t: string, from: nat): (r: Option<nat>)
    requires from <= |t|
    ensures r.Some? ==> from <= r.value && FenceAt(t, r.value)
    ensures forall i: nat :: from <= i && (r.None? || i < r.value) ==> !FenceAt(t, i)
    decreases |t| - from
  {
    if FenceAt(t, from) then Some(from)
    else if from == |t| then None
    else FirstFence(t, from + 1)
  }

  /** The regex tried at `p` and, failing that, at every later position: the
      leftmost-match search of `String.prototype.match`. Yields the captured group. */
  function MatchFrom(t: string, p: nat): Option<string>
    decreases |t| - p
  {
    if p > |t| then None
    else if FenceAt(t, p) && ClosingFrom(t, ContentStart(t, p)).Some? then
      Some(t[ContentStart(t, p)..ClosingFrom(t, ContentStart(t, p)).value])
    else MatchFrom(t, p + 1)
  }

  /** The captured group, decided at the first fence alone. */
  function FirstFencedBlock(t: string): Option<string> {
    match FirstFence(t, 0)
    case None => None
    case Some(p) =>
      var s := ContentStart(t, p);
      match ClosingFrom(t, s)
      case None => None
      case Some(e) => Some(t[s..e])
  }

  /** The group of any later fence starts no earlier than that of fence `p`. */
  lemma LaterContentStart(t: string, p: nat, q: nat)
    requires FenceAt(t, p) && FenceAt(t, q) && p < q
    ensures ContentStart(t, p) <= ContentStart(t, q)
  {
  }

  /** When fence `p` finds no closing fence, no later position matches either. */
  lemma {:induction false} NoLaterMatch(t: string, p: nat, q: nat)
    requires FenceAt(t, p) && ClosingFrom(t, ContentStart(t, p)).None?
    requires p < q
    ensures MatchFrom(t, q) == None
    decreases |t| - q
  {
    if q <= |t| {
      if FenceAt(t, q) {
        LaterContentStart(t, p, q);
      }
      NoLaterMatch(t, p, q + 1);
    }
  }

  /** Until the first fence the search just moves on. */
  lemma {:induction false} MatchFromSkips(t: string, k: nat, p: nat)
    requires k <= p <= |t|
    requires forall i: nat :: k <= i < p ==> !FenceAt(t, i)
    ensures MatchFrom(t, k) == MatchFrom(t, p)
    decreases p - k
  {
    if k < p {
      MatchFromSkips(t, k + 1, p);
    }
  }

  /** The leftmost-match search is decided at the first fence: if that fence has
      no closing fence, there is no match at all. */
  lemma FirstFenceDecides(t: string)
    ensures MatchFrom(t, 0) == FirstFencedBlock(t)
  {
    match FirstFence(t, 0)
    case None =>
      MatchFromSkips(t, 0, |t|);
    case Some(p) =>
      MatchFromSkips(t, 0, p);
      if ClosingFrom(t, ContentStart(t, p)).None? {
        NoLaterMatch(t, p, p + 1);
      }
  }

  /** `(text.match(...) || [null, text])[1] || text`, trimmed: the fenced content
      when there is a non-empty one, else the whole text. */
  function RefineCandidate(text: string): (r: string)
    ensures |r| <= |text|
    // the leftmost match with a non-empty group: that group, trimmed
    ensures MatchFrom(text, 0).Some? && MatchFrom(text, 0).value != "" ==> r == Trim(MatchFrom(text, 0).value)
    // no match, or an empty group: the whole text, trimmed
    ensures MatchFrom(text, 0).None? || MatchFrom(text, 0) == Some("") ==> r == Trim(text)
  {
    FirstFenceDecides(text);
    var jsonText :=
      match FirstFencedBlock(text)
      case Some(group) => if group != "" then group else text
      case None => text;
    Trim(jsonText)
  }

  /** With no fence at all the candidate is the trimmed text. */
  lemma NoFenceCandidate(text: string)
    requires !Contains(text, "```")
    ensures RefineCandidate(text) == Trim(text)
  {
    var r := FirstFence(text, 0);
    if r.Some? {
      assert text[r.value..r.value + 3] == "```";
      assert OccursAt(text, "```", r.value);
    }
  }

  /** A non-empty group is the candidate, trimmed. */
  lemma CandidateOfBlock(t: string, group: string)
    requires FirstFencedBlock(t) == Some(group) && group != ""
    ensures RefineCandidate(t) == Trim(group)
  {
  }

  /** When the first fence is closed right where its group starts, the group is
      empty and the candidate falls back to the whole text. */
  lemma EmptyBlockFallsBack(text: string)
    requires FirstFence(text, 0).Some?
    requires ClosesAt(text, ContentStart(text, FirstFence(text, 0).value))
    ensures FirstFencedBlock(text) == Some("")
    ensures RefineCandidate(text) == Trim(text)
  {
    var s := ContentStart(text, FirstFence(text, 0).value);
    assert ClosingFrom(text, s) == Some(s);
    assert text[s..s] == "";
  }

  /** No closing fence can start where no backtick follows. */
  lemma {:induction false} NoClosingAfter(t: string, from: nat)
    requires from <= |t|
    requires forall i :: from <= i < |t| ==> t[i] != '`'
    ensures ClosingFrom(t, from) == None
    decreases |t| - from
  {
    assert !ClosesAt(t, from);
    if from < |t| {
      NoClosingAfter(t, from + 1);
    }
  }

  /** An opening fence that is never closed, such as "```json\n[1]": there is no
      match, and the candidate is the whole text, trimmed. */
  lemma UnclosedFenceFallsBack(prose: string, rest: string)
    requires '`' !in prose && '`' !in rest
    ensures FirstFencedBlock(prose + "```" + rest) == None
    ensures MatchFrom(prose + "```" + rest, 0) == None
    ensures RefineCandidate(prose + "```" + rest) == Trim(prose + "```" + rest)
  {
    var after := "```" + rest;
    var t := prose + after;
    assert t == prose + "```" + rest;
    assert after[0] == '`' && after[1] == '`' && after[2] == '`';
    FirstFenceAfterProse(prose, after);
    var p := |prose|;
    forall i | p + 3 <= i < |t| ensures t[i] != '`' {
      assert t[i] == rest[i - p - 3];
    }
    NoClosingAfter(t, ContentStart(t, p));
    FirstFenceDecides(t);
  }

  /** An empty fenced block right after backtick-free prose. */
  lemma EmptyBlockAfterProse(prose: string, rest: string)
    requires '`' !in prose
    ensures RefineCandidate(prose + "```\n```" + rest) == Trim(prose + "```\n```" + rest)
  {
    var after := "```\n```" + rest;
    var t := prose + after;
    assert t == prose + "```\n```" + rest;
    var p := |prose|;
    var w := after[..7];
    assert w == "```\n```";
    assert after[0] == w[0] == '`' && after[1] == w[1] == '`' && after[2] == w[2] == '`';
    assert after[3] == w[3] == '\n';
    assert after[4] == w[4] == '`' && after[5] == w[5] == '`' && after[6] == w[6] == '`';
    FirstFenceAfterProse(prose, after);
    assert t[p + 3] == after[3] && t[p + 4] == after[4] && t[p + 5] == after[5] && t[p + 6] == after[6];
    assert ContentStart(t, p) == p + 4;
    assert ClosingFrom(t, p + 4) == Some(p + 4);
    assert FirstFence(t, 0) == Some(p);
    assert t[p + 4..p + 4] == [];
    assert FirstFencedBlock(t) == Some([]);
    EmptyBlockFallsBack(t);
  }

  /** The opening fence, with or without the `json` tag, and its line feed. */
  function Opening(tagged: bool): string {
    if tagged then "```json\n" else "```\n"
  }

  /** A fence right after backtick-free prose is the first one. */
  lemma FirstFenceAfterProse(prose: string, after: string)
    requires '`' !in prose && FenceAt(after, 0)
    ensures FirstFence(prose + after, 0) == Some(|prose|)
  {
    var t := prose + after;
    assert t[|prose|] == after[0] && t[|prose| + 1] == after[1] && t[|prose| + 2] == after[2];
    assert FenceAt(t, |prose|);
    forall i: nat | i < |prose| ensures !FenceAt(t, i) {
      assert t[i] == prose[i];
    }
  }

  /** After an opening fence the group starts right after its line feed. */
  lemma StartAfterOpening(t: string, p: nat, tagged: bool)
    requires p + |Opening(tagged)| <= |t|
    requires t[p..p + |Opening(tagged)|] == Opening(tagged)
    ensures FenceAt(t, p) && ContentStart(t, p) == p + |Opening(tagged)|
  {
    var o := Opening(tagged);
    var w := t[p..p + |o|];
    assert t[p] == w[0] && t[p + 1] == w[1] && t[p + 2] == w[2] && t[p + 3] == w[3];
    if tagged {
      assert t[p + 4] == w[4] && t[p + 5] == w[5] && t[p + 6] == w[6] && t[p + 7] == w[7];
    }
  }

  /** Backtick-free content followed by a line feed and a fence ends at that line feed. */
  lemma ClosingAfterContent(t: string, s: nat, content: string)
    requires s + |content| < |t| && '`' !in content
    requires forall i :: 0 <= i < |content| ==> t[s + i] == content[i]
    requires t[s + |content|] == '\n' && FenceAt(t, s + |content| + 1)
    ensures ClosingFrom(t, s) == Some(s + |content|)
  {
    var e := s + |content|;
    assert ClosesAt(t, e);
    forall i: nat | s <= i < e ensures !ClosesAt(t, i) {
      assert t[i] == content[i - s];
      assert i + 1 < e ==> t[i + 1] == content[i + 1 - s];
    }
  }

  /** Where the five parts of `prose + opening + content + closing + rest` lie. */
  lemma Layout(prose: string, opening: string, content: string, closing: string, rest: string)
    ensures var t := prose + opening + content + closing + rest;
            var s := |prose| + |opening|;
            var e := s + |content|;
            e + |closing| <= |t| && t[..|prose|] == prose && t[|prose|..s] == opening
            && t[s..e] == content && t[e..e + |closing|] == closing
  {
    var t := prose + opening + content + closing + rest;
    var s := |prose| + |opening|;
    var e := s + |content|;
    assert t[..|prose|] == prose;
    assert t[|prose|..s] == opening;
    assert t[s..e] == content;
    assert t[e..e + |closing|] == closing;
  }

  /** A text laid out as prose, an opening fence, backtick-free content and a
      closing fence yields the content, trimmed. */
  lemma BlockAt(t: string, prose: string, tagged: bool, content: string)
    requires '`' !in prose && '`' !in content && content != ""
    requires |prose| + |Opening(tagged)| + |content| + 4 <= |t|
    requires t[..|prose|] == prose
    requires t[|prose|..|prose| + |Opening(tagged)|] == Opening(tagged)
    requires t[|prose| + |Opening(tagged)|..|prose| + |Opening(tagged)| + |content|] == content
    requires t[|prose| + |Opening(tagged)| + |content|..|prose| + |Opening(tagged)| + |content| + 4] == "\n```"
    ensures RefineCandidate(t) == Trim(content)
  {
    var p := |prose|;
    var s := p + |Opening(tagged)|;
    var e := s + |content|;
    StartAfterOpening(t, p, tagged);
    FirstFenceAfterPrefix(t, prose);
    ClosingFenceAt(t, e);
    SliceChars(t, s, content);
    ClosingAfterContent(t, s, content);
    BlockBetween(t, p, s, e);
    CandidateOfBlock(t, content);
  }

  /** A fence right after a backtick-free prefix of the text is the first one. */
  lemma FirstFenceAfterPrefix(t: string, prose: string)
    requires |prose| <= |t| && t[..|prose|] == prose && '`' !in prose && FenceAt(t, |prose|)
    ensures FirstFence(t, 0) == Some(|prose|)
  {
    var after := t[|prose|..];
    assert t == prose + after;
    assert after[0] == t[|prose|] && after[1] == t[|prose| + 1] && after[2] == t[|prose| + 2];
    FirstFenceAfterProse(prose, after);
  }

  /** A line feed and a fence. */
  lemma ClosingFenceAt(t: string, e: nat)
    requires e + 4 <= |t| && t[e..e + 4] == "\n```"
    ensures t[e] == '\n' && FenceAt(t, e + 1)
  {
    var w := t[e..e + 4];
    assert t[e] == w[0] && t[e + 1] == w[1] && t[e + 2] == w[2] && t[e + 3] == w[3];
  }

  /** A slice, character by character. */
  lemma SliceChars(t: string, s: nat, content: string)
    requires s + |content| <= |t| && t[s..s + |content|] == content
    ensures forall i :: 0 <= i < |content| ==> t[s + i] == content[i]
  {
    forall i | 0 <= i < |content| ensures t[s + i] == content[i] {
      assert t[s + i] == t[s..s + |content|][i];
    }
  }

  /** The group of the first fence runs from its content start to its closing fence. */
  lemma BlockBetween(t: string, p: nat, s: nat, e: nat)
    requires FirstFence(t, 0) == Some(p) && ContentStart(t, p) == s && ClosingFrom(t, s) == Some(e)
    ensures s <= e <= |t| && FirstFencedBlock(t) == Some(t[s..e])
  {
  }

  /** A reply made of prose, a fenced block (with or without the `json` tag) and
      anything after it yields the block's content, trimmed. */
  lemma FencedBlockRoundTrip(prose: string, tagged: bool, content: string, rest: string)
    requires '`' !in prose && '`' !in content && content != ""
    ensures RefineCandidate(prose + Opening(tagged) + content + "\n```" + rest) == Trim(content)
  {
    Layout(prose, Opening(tagged), content, "\n```", rest);
    BlockAt(prose + Opening(tagged) + content + "\n```" + rest, prose, tagged, content);
  }

  lemma ProseWrappedCandidate(reply: string, json: string)
    requires json == "[1,2,3]"
    requires reply == "here is the data: " + "```json\n" + json + "\n```" + " thanks"
    ensures RefineCandidate(reply) == Trim(json)
  {
    FencedBlockRoundTrip("here is the data: ", true, json, " thanks");
  }

  /** A json-tagged block between two pieces of prose. */
  lemma ProseWrappedExample(reply: string, json: string)
    requires json == "[1,2,3]"
    requires reply == "here is the data: " + "```json\n" + json + "\n```" + " thanks"
    ensures RefineCandidate(reply) == json
  {
    ProseWrappedCandidate(reply, json);
    TrimUnchanged(json);
  }

  /** `refineIntoPlan(expandedIdea, critique, apiKey)`, with the model call on the
      prompt built from the two texts as `invoke` and `JSON.parse` as `parse`. */
  function RefineIntoPlan(expandedIdea: string, critique: string,
                          invoke: (string, string) -> Result<string, Exception>,
                          parse: string -> Result<ProductPlan, Exception>): (r: Result<ProductPlan, Exception>)
    // success exactly when the call and the parse of the candidate both succeed
    ensures r.Success? <==>
              invoke(expandedIdea, critique).Success?
              && parse(RefineCandidate(invoke(expandedIdea, critique).value)).Success?
    ensures r.Success? ==> r.value == parse(RefineCandidate(invoke(expandedIdea, critique).value)).value
    // every failure is re-raised as an `Error` with the prefixed message
    ensures r.Failure? ==> r.error.ErrorObject? && StartsWith(r.error.message, "Llama API error: ")
    ensures invoke(expandedIdea, critique).Failure? ==>
              r == Failure(ErrorObject("Llama API error: " + MessageOf(invoke(expandedIdea, critique).error)))
  {
    match invoke(expandedIdea, critique)
    case Failure(e) => Failure(ErrorObject("Llama API error: " + MessageOf(e)))
    case Success(text) =>
      match parse(RefineCandidate(text))
      case Failure(e) => Failure(ErrorObject("Llama API error: " + MessageOf(e)))
      case Success(plan) => Success(plan)
  }
}

=== FILE: server.dfy ===
/**
 * The HTTP handlers of the web server (src/server.ts), each as a function from
 * the request fields, the API key setting, the model stages and the output
 * directory to the reply, the new directory and the stage calls made. The
 * output directory is a map from file name to text; `readdir` order is a
 * parameter of the listing. Express routing and the file-system calls are not
 * modelled beyond that map.
 */
module Server {
  import opened Wrappers
  import opened JsStrings
  import opened Refine
  import opened Guided
  import Orchestrator
  import Output

  /** The output directory: file name to file text. */
  type Dir = map<string, string>

  /** A JSON reply with its HTTP status. */
  datatype Reply =
    | ErrorReply(status: int, error: string)
    | GenerateReply(planContent: Option<string>, planFilename: Option<string>, isSimpleResponse: bool)
    | FileListReply(files: seq<string>)
    | FileReply(content: string, filename: string)
    | StartReply(expandedIdea: string, techStacks: seq<TechStackOption>)
    | QuestionsReply(questions: seq<string>)
    | CompleteReply(finalPlan: string, savedAs: string)
    | DeletedReply(message: string)

  /** A call into the pipeline or one of its stages. */
  datatype ServiceCall =
    | PipelineCall(idea: string)
    | ExpandIdeaCall(idea: string)
    | TechStacksCall(idea: string)
    | OpenQuestionsCall(questionsPrompt: QuestionsPrompt)
    | FinalPlanCall(planPrompt: PlanPrompt)

  /** What a handler produced: the reply, the directory afterwards and the calls made. */
  datatype Outcome = Outcome(reply: Reply, dir: Dir, calls: seq<ServiceCall>)

  /** `!value`, for a request field that is absent or a string. */
  predicate Falsy(v: Option<string>) {
    v.None? || v.value == ""
  }

  /** `!idea || !idea.trim()`. */
  predicate MissingIdea(idea: Option<string>) {
    idea.None? || Trim(idea.value) == ""
  }

  /** `!process.env.OPENROUTER_API_KEY`. */
  predicate MissingKey(apiKey: Option<string>) {
    Falsy(apiKey)
  }

  const MissingKeyReply := ErrorReply(500, "Missing OPENROUTER_API_KEY")

  /** The status and message of the catch-all `catch (error)` of a handler. */
  function Internal(e: Exception): Reply {
    ErrorReply(500, MessageOf(e))
  }

  /** The object the generate handler receives from `runPipeline(idea, llmCount)`:
      the pipeline result, and the `isSimpleResponse` and `simpleResponse`
      properties it reads from it. */
  datatype PipelineReply = PipelineReply(result: Orchestrator.PipelineResult, isSimpleResponse: bool,
                                         simpleResponse: Option<string>)

  /** `POST /api/generate`. */
  function Generate(idea: Option<string>, apiKey: Option<string>,
                    pipeline: string -> Result<PipelineReply, Exception>, dir: Dir): (o: Outcome)
    // the idea is checked first, then the key, and neither failure calls anything or writes anything
    ensures MissingIdea(idea) ==> o == Outcome(ErrorReply(400, "Idea is required"), dir, [])
    ensures !MissingIdea(idea) && MissingKey(apiKey) ==> o == Outcome(MissingKeyReply, dir, [])
    // otherwise the pipeline runs exactly once, on the idea as sent
    ensures !MissingIdea(idea) && !MissingKey(apiKey) ==> o.calls == [PipelineCall(idea.value)]
    // a failing pipeline gives 500 with its message, and nothing is written
    ensures !MissingIdea(idea) && !MissingKey(apiKey) && pipeline(idea.value).Failure? ==>
              o.reply == Internal(pipeline(idea.value).error) && o.dir == dir
    // a simple response is passed through and no file is written
    ensures !MissingIdea(idea) && !MissingKey(apiKey) && pipeline(idea.value).Success?
            && pipeline(idea.value).value.isSimpleResponse ==>
              o.reply == GenerateReply(pipeline(idea.value).value.simpleResponse, None, true) && o.dir == dir
    // a full plan is written under its default name, and the reply carries the text read back
    ensures !MissingIdea(idea) && !MissingKey(apiKey) && pipeline(idea.value).Success?
            && !pipeline(idea.value).value.isSimpleResponse ==>
              var result := pipeline(idea.value).value.result;
              var name := Output.DefaultFilename(result.timestamp);
              && o.dir == dir[name := Output.Markdown(result)]
              && o.reply == GenerateReply(Some(Output.Markdown(result)), Some(name), false)
  {
    if MissingIdea(idea) then Outcome(ErrorReply(400, "Idea is required"), dir, [])
    else if MissingKey(apiKey) then Outcome(MissingKeyReply, dir, [])
    else
      var calls := [PipelineCall(idea.value)];
      match pipeline(idea.value)
      case Failure(e) => Outcome(Internal(e), dir, calls)
      case Success(reply) =>
        if reply.isSimpleResponse then Outcome(GenerateReply(reply.simpleResponse, None, true), dir, calls)
        else
          SavePlan(reply.result, dir, calls)
  }

  /** Writing a full plan and reading it back. */
  function SavePlan(result: Orchestrator.PipelineResult, dir: Dir, calls: seq<ServiceCall>): (o: Outcome)
    ensures var name := Output.DefaultFilename(result.timestamp);
            && o.dir == dir[name := Output.Markdown(result)]
            && o.reply == GenerateReply(Some(Output.Markdown(result)), Some(name), false)
            && o.calls == calls
  {
    // `writeMarkdownOutput` returns a path whenever the flag is unset, so the
    // "Failed to write output file" reply cannot be produced
    var file := Output.WriteMarkdownOutput(result, false, None).value;
    var written := dir[file.filename := file.markdown];
    Outcome(GenerateReply(Some(written[file.filename]), Some(file.filename), false), written, calls)
  }

  /** The generate handler fed by the pipeline of src/pipeline/orchestrator.ts:
      the object it returns has no `isSimpleResponse` property, which reads as unset. */
  function OrchestratorPipeline(now: Orchestrator.Timestamp,
                                expand: string -> Result<string, Exception>,
                                critique: string -> Result<string, Exception>,
                                refine: (string, string) -> Result<ProductPlan, Exception>): string -> Result<PipelineReply, Exception>
  {
    (idea: string) =>
      match Orchestrator.RunPipeline(idea, now, expand, critique, refine).outcome
      case Failure(e) => Failure(e)
      case Success(result) => Success(PipelineReply(result, false, None))
  }

  /** With the orchestrator as it stands, the simple-response branch is never taken:
      every successful generate request writes the plan document and returns it. */
  lemma GenerateWithOrchestratorAlwaysWrites(idea: string, apiKey: string, dir: Dir,
                                             now: Orchestrator.Timestamp,
                                             expand: string -> Result<string, Exception>,
                                             critique: string -> Result<string, Exception>,
                                             refine: (string, string) -> Result<ProductPlan, Exception>)
    requires Trim(idea) != "" && apiKey != ""
    requires Orchestrator.RunPipeline(idea, now, expand, critique, refine).outcome.Success?
    ensures var o := Generate(Some(idea), Some(apiKey), OrchestratorPipeline(now, expand, critique, refine), dir);
            var result := Orchestrator.RunPipeline(idea, now, expand, critique, refine).outcome.value;
            && o.reply == GenerateReply(Some(Output.Markdown(result)), Some(Output.DefaultFilename(now)), false)
            && Output.DefaultFilename(now) in o.dir
  {
    var result := Orchestrator.RunPipeline(idea, now, expand, critique, refine).outcome.value;
    var pipeline := OrchestratorPipeline(now, expand, critique, refine);
    assert !MissingIdea(Some(idea)) && !MissingKey(Some(apiKey));
    assert pipeline(idea) == Success(PipelineReply(result, false, None));
    assert result.timestamp == now;
  }

  /** `filename.includes('..') || filename.includes('/')`. */
  predicate UnsafeFilename(filename: string) {
    Contains(filename, "..") || '/' in filename
  }

  /** `GET /api/files/:filename`: a read failure of any kind is reported as 404. */
  function GetFile(filename: string, dir: Dir): (r: Reply)
    ensures UnsafeFilename(filename) ==> r == ErrorReply(400, "Invalid filename")
    ensures r.FileReply? <==> !UnsafeFilename(filename) && filename in dir
    ensures r.FileReply? ==> r == FileReply(dir[filename], filename)
    ensures !UnsafeFilename(filename) && filename !in dir ==> r == ErrorReply(404, "File not found")
  {
    if UnsafeFilename(filename) then ErrorReply(400, "Invalid filename")
    else if filename in dir then FileReply(dir[filename], filename)
    else ErrorReply(404, "File not found")
  }

  /** `DELETE /api/files/:filename`. */
  function DeleteFile(filename: string, dir: Dir): (o: Outcome)
    // only a safe name of an existing markdown file is removed, and nothing else
    ensures o.reply.DeletedReply? <==> !UnsafeFilename(filename) && EndsWith(filename, ".md") && filename in dir
    ensures o.reply.DeletedReply? ==> o.dir == dir - {filename}
    ensures !o.reply.DeletedReply? ==> o.dir == dir
    // the traversal guard comes first, then the extension rule, then existence
    ensures UnsafeFilename(filename) ==> o.reply == ErrorReply(400, "Invalid filename")
    ensures !UnsafeFilename(filename) && !EndsWith(filename, ".md") ==>
              o.reply == ErrorReply(400, "Can only delete markdown files")
    ensures !UnsafeFilename(filename) && EndsWith(filename, ".md") && filename !in dir ==>
              o.reply == ErrorReply(404, "File not found")
    ensures o.calls == []
  {
    if UnsafeFilename(filename) then Outcome(ErrorReply(400, "Invalid filename"), dir, [])
    else if !EndsWith(filename, ".md") then Outcome(ErrorReply(400, "Can only delete markdown files"), dir, [])
    else if filename !in dir then Outcome(ErrorReply(404, "File not found"), dir, [])
    else Outcome(DeletedReply("File deleted successfully"), dir - {filename}, [])
  }

  /** The listing filter: `file.endsWith('.md') && file !== '.gitkeep'`. */
  predicate Listed(name: string) {
    EndsWith(name, ".md") && name != ".gitkeep"
  }

  /** The `.gitkeep` exclusion never changes the outcome: that name does not end in `.md`. */
  lemma GitkeepExclusionIsRedundant(name: string)
    ensures Listed(name) <==> EndsWith(name, ".md")
  {
    if name == ".gitkeep" {
      assert name[|name| - 3..] == "eep";
    }
  }

  function FilterListed(names: seq<string>): (r: seq<string>)
    ensures forall i :: 0 <= i < |r| ==> Listed(r[i])
  {
    if names == [] then []
    else if Listed(names[0]) then [names[0]] + FilterListed(names[1..])
    else FilterListed(names[1..])
  }

  /** Descending order under `b.localeCompare(a)`, taken as character-code order. */
  predicate SortedDescending(s: seq<string>) {
    forall i, j :: 0 <= i < j < |s| ==> CodeLeq(s[j], s[i])
  }

  /** Insert `x` into a descending list before the first element not above it. */
  function InsertDescending(x: string, s: seq<string>): (r: seq<string>)
    requires SortedDescending(s)
    ensures SortedDescending(r)
    ensures multiset(r) == multiset(s) + multiset{x}
    decreases |s|
  {
    if s == [] then [x]
    else if CodeLeq(s[0], x) then
      assert forall j :: 0 <= j < |s| ==> CodeLeq(s[j], x) by {
        forall j | 0 <= j < |s| ensures CodeLeq(s[j], x) {
          if j > 0 { CodeLeqTransitive(s[j], s[0], x); }
        }
      }
      [x] + s
    else
      CodeLeqTotal(s[0], x);
      var rest := InsertDescending(x, s[1..]);
      assert forall j :: 0 <= j < |rest| ==> CodeLeq(rest[j], s[0]) by {
        forall j | 0 <= j < |rest| ensures CodeLeq(rest[j], s[0]) {
          assert rest[j] in multiset(s[1..]) + multiset{x};
          if rest[j] != x {
            assert rest[j] in s[1..];
            var k :| 0 <= k < |s[1..]| && s[1..][k] == rest[j];
            assert s[k + 1] == rest[j];
          }
        }
      }
      assert s == [s[0]] + s[1..];
      [s[0]] + rest
  }

  /** `.sort((a, b) => b.localeCompare(a))`. */
  function SortDescending(s: seq<string>): (r: seq<string>)
    ensures SortedDescending(r)
    ensures multiset(r) == multiset(s)
  {
    if s == [] then []
    else
      assert s == [s[0]] + s[1..];
      InsertDescending(s[0], SortDescending(s[1..]))
  }

  /** The names `readdir` returns for the directory, in the order it returns them. */
  ghost predicate Lists(entries: seq<string>, dir: Dir) {
    forall name :: name in entries <==> name in dir
  }

  /** `GET /api/files`, with `entries` the names `readdir` returned for `dir`. */
  function ListFiles(entries: seq<string>, dir: Dir): (r: Reply)
    requires Lists(entries, dir)
    ensures r.FileListReply?
    // exactly the saved markdown files are listed
    ensures forall name :: name in r.files <==> name in dir && EndsWith(name, ".md")
    // every listed name ends in `.md`, and every entry ending in `.md` is listed as often as it occurs
    ensures forall i :: 0 <= i < |r.files| ==> EndsWith(r.files[i], ".md")
    ensures forall name :: EndsWith(name, ".md") ==> multiset(r.files)[name] == multiset(entries)[name]
    ensures forall name :: !EndsWith(name, ".md") ==> name !in r.files
    // newest first: descending name order
    ensures SortedDescending(r.files)
  {
    var kept := FilterListed(entries);
    FilterCounts(entries);
    var sorted := SortDescending(kept);
    assert forall i :: 0 <= i < |sorted| ==> Listed(sorted[i]) by {
      forall i | 0 <= i < |sorted| ensures Listed(sorted[i]) {
        assert sorted[i] in multiset(kept);
        assert sorted[i] in kept;
      }
    }
    forall name | EndsWith(name, ".md") ensures multiset(sorted)[name] == multiset(entries)[name] {
      GitkeepExclusionIsRedundant(name);
    }
    assert forall name :: name in sorted <==> name in dir && EndsWith(name, ".md") by {
      forall name ensures name in sorted <==> name in dir && EndsWith(name, ".md") {
        assert name in sorted <==> multiset(sorted)[name] > 0;
        assert name in entries <==> multiset(entries)[name] > 0;
      }
    }
    FileListReply(sorted)
  }

  lemma {:induction false} FilterCounts(entries: seq<string>)
    ensures forall name :: Listed(name) ==> multiset(FilterListed(entries))[name] == multiset(entries)[name]
    ensures forall name :: !Listed(name) ==> multiset(FilterListed(entries))[name] == 0
  {
    if entries != [] {
      FilterCounts(entries[1..]);
      assert entries == [entries[0]] + entries[1..];
    }
  }

  /** `POST /api/guided/start`: the idea is expanded, then tech stacks are generated
      from the original idea. */
  function GuidedStart(idea: Option<string>, apiKey: Option<string>,
                       expand: string -> Result<string, Exception>,
                       invokeStacks: string -> Result<string, Exception>,
                       parseStacks: string -> Result<seq<TechStackOption>, Exception>, dir: Dir): (o: Outcome)
    ensures o.dir == dir
    ensures MissingIdea(idea) ==> o.reply == ErrorReply(400, "Idea is required") && o.calls == []
    ensures !MissingIdea(idea) && MissingKey(apiKey) ==> o.reply == MissingKeyReply && o.calls == []
    ensures !MissingIdea(idea) && !MissingKey(apiKey) ==>
              && 1 <= |o.calls| <= 2 && o.calls[0] == ExpandIdeaCall(idea.value)
              && (|o.calls| == 2 <==> expand(idea.value).Success?)
              && (|o.calls| == 2 ==> o.calls[1] == TechStacksCall(idea.value))
    ensures o.reply.StartReply? <==>
              !MissingIdea(idea) && !MissingKey(apiKey) && expand(idea.value).Success?
              && GenerateTechStackOptions(idea.value, invokeStacks, parseStacks).Success?
    ensures o.reply.StartReply? ==>
              o.reply == StartReply(expand(idea.value).value, GenerateTechStackOptions(idea.value, invokeStacks, parseStacks).value)
    ensures o.reply.ErrorReply? && o.calls != [] ==> o.reply.status == 500
  {
    if MissingIdea(idea) then Outcome(ErrorReply(400, "Idea is required"), dir, [])
    else if MissingKey(apiKey) then Outcome(MissingKeyReply, dir, [])
    else
      match expand(idea.value)
      case Failure(e) => Outcome(Internal(e), dir, [ExpandIdeaCall(idea.value)])
      case Success(expandedIdea) =>
        var calls := [ExpandIdeaCall(idea.value), TechStacksCall(idea.value)];
        match GenerateTechStackOptions(idea.value, invokeStacks, parseStacks)
        case Failure(e) => Outcome(Internal(e), dir, calls)
        case Success(stacks) => Outcome(StartReply(expandedIdea, stacks), dir, calls)
  }

  /** `POST /api/guided/select-stack`. */
  function SelectStack(idea: Option<string>, expandedIdea: Option<string>, selectedStack: Option<TechStackOption>,
                       apiKey: Option<string>,
                       invokeQuestions: QuestionsPrompt -> Result<string, Exception>,
                       parseQuestions: string -> Result<seq<string>, Exception>, dir: Dir): (o: Outcome)
    ensures o.dir == dir
    ensures Falsy(idea) || Falsy(expandedIdea) || selectedStack.None? ==>
              o.reply == ErrorReply(400, "Missing required fields") && o.calls == []
    ensures !(Falsy(idea) || Falsy(expandedIdea) || selectedStack.None?) && MissingKey(apiKey) ==>
              o.reply == MissingKeyReply && o.calls == []
    // once past both guards the questions are always requested, exactly once
    ensures !(Falsy(idea) || Falsy(expandedIdea) || selectedStack.None?) && !MissingKey(apiKey) ==>
              o.calls == [OpenQuestionsCall(QuestionsPromptFor(idea.value, expandedIdea.value, selectedStack.value))]
    ensures o.calls != [] ==>
              o.calls == [OpenQuestionsCall(QuestionsPromptFor(idea.value, expandedIdea.value, selectedStack.value))]
    ensures o.reply.QuestionsReply? <==>
              o.calls != []
              && GenerateOpenQuestions(idea.value, expandedIdea.value, selectedStack.value,
                                       invokeQuestions, parseQuestions).Success?
    ensures o.reply.QuestionsReply? ==>
              o.reply.questions == GenerateOpenQuestions(idea.value, expandedIdea.value, selectedStack.value,
                                                         invokeQuestions, parseQuestions).value
    ensures o.reply.ErrorReply? && o.calls != [] ==> o.reply.status == 500
    // a failed generation is answered by the catch block with its message
    ensures o.calls != [] && !o.reply.QuestionsReply? ==>
              o.reply == Internal(GenerateOpenQuestions(idea.value, expandedIdea.value, selectedStack.value,
                                                        invokeQuestions, parseQuestions).error)
  {
    if Falsy(idea) || Falsy(expandedIdea) || selectedStack.None? then
      Outcome(ErrorReply(400, "Missing required fields"), dir, [])
    else if MissingKey(apiKey) then Outcome(MissingKeyReply, dir, [])
    else
      var calls := [OpenQuestionsCall(QuestionsPromptFor(idea.value, expandedIdea.value, selectedStack.value))];
      match GenerateOpenQuestions(idea.value, expandedIdea.value, selectedStack.value, invokeQuestions, parseQuestions)
      case Failure(e) => Outcome(Internal(e), dir, calls)
      case Success(questions) => Outcome(QuestionsReply(questions), dir, calls)
  }

  /** `POST /api/guided/complete`: the plan text is saved under the default name for
      the time the plan came back. An empty list of pairs is present, so it passes the
      guard. */
  function Complete(idea: Option<string>, expandedIdea: Option<string>, selectedStack: Option<TechStackOption>,
                    questionsAndAnswers: Option<seq<QA>>, apiKey: Option<string>, now: Orchestrator.Timestamp,
                    invokePlan: PlanPrompt -> Result<string, Exception>, dir: Dir): (o: Outcome)
    ensures Falsy(idea) || Falsy(expandedIdea) || selectedStack.None? || questionsAndAnswers.None? ==>
              o == Outcome(ErrorReply(400, "Missing required fields"), dir, [])
    ensures (!(Falsy(idea) || Falsy(expandedIdea) || selectedStack.None? || questionsAndAnswers.None?)
             && MissingKey(apiKey)) ==> o == Outcome(MissingKeyReply, dir, [])
    // once past both guards the plan is always requested, exactly once
    ensures !(Falsy(idea) || Falsy(expandedIdea) || selectedStack.None? || questionsAndAnswers.None?)
            && !MissingKey(apiKey) ==>
              o.calls == [FinalPlanCall(PlanPromptFor(idea.value, expandedIdea.value, selectedStack.value,
                                                      questionsAndAnswers.value))]
    ensures o.calls != [] ==>
              o.calls == [FinalPlanCall(PlanPromptFor(idea.value, expandedIdea.value, selectedStack.value,
                                                      questionsAndAnswers.value))]
    ensures o.reply.CompleteReply? <==>
              o.calls != [] && invokePlan(PlanPromptFor(idea.value, expandedIdea.value, selectedStack.value,
                                                        questionsAndAnswers.value)).Success?
    ensures o.reply.ErrorReply? && o.calls != [] ==> o.reply.status == 500
    // a failed generation is answered by the catch block with its message
    ensures o.calls != [] && !o.reply.CompleteReply? ==>
              o.reply == Internal(invokePlan(PlanPromptFor(idea.value, expandedIdea.value, selectedStack.value,
                                                           questionsAndAnswers.value)).error)
    // the saved file and the reply carry the model's plan text unchanged
    ensures o.reply.CompleteReply? ==>
              var plan := invokePlan(PlanPromptFor(idea.value, expandedIdea.value, selectedStack.value,
                                                   questionsAndAnswers.value)).value;
              && o.reply == CompleteReply(plan, Output.DefaultFilename(now))
              && o.dir == dir[Output.DefaultFilename(now) := plan]
    ensures !o.reply.CompleteReply? ==> o.dir == dir
  {
    if Falsy(idea) || Falsy(expandedIdea) || selectedStack.None? || questionsAndAnswers.None? then
      Outcome(ErrorReply(400, "Missing required fields"), dir, [])
    else if MissingKey(apiKey) then Outcome(MissingKeyReply, dir, [])
    else
      var prompt := PlanPromptFor(idea.value, expandedIdea.value, selectedStack.value, questionsAndAnswers.value);
      match GenerateGuidedFinalPlan(idea.value, expandedIdea.value, selectedStack.value, questionsAndAnswers.value, invokePlan)
      case Failure(e) => Outcome(Internal(e), dir, [FinalPlanCall(prompt)])
      case Success(plan) =>
        var filename := Output.DefaultFilename(now);
        Outcome(CompleteReply(plan, filename), dir[filename := plan], [FinalPlanCall(prompt)])
  }

  /** A name made of the default pattern is safe when its date and time parts hold
      no `.` and no `/`: such a file, once saved by the complete endpoint, can be
      read back, is listed, and can be deleted. */
  lemma SavedPlanLifecycle(idea: string, expandedIdea: string, stack: TechStackOption, qas: seq<QA>,
                           apiKey: string, now: Orchestrator.Timestamp,
                           invokePlan: PlanPrompt -> Result<string, Exception>, dir: Dir, entries: seq<string>)
    requires idea != "" && expandedIdea != "" && apiKey != ""
    requires invokePlan(PlanPromptFor(idea, expandedIdea, stack, qas)).Success?
    requires Lists(entries, Complete(Some(idea), Some(expandedIdea), Some(stack), Some(qas), Some(apiKey), now,
                                     invokePlan, dir).dir)
    requires '.' !in Output.DatePart(now.iso) && '/' !in Output.DatePart(now.iso)
    requires '.' !in Output.TimePart(now.timeString) && '/' !in Output.TimePart(now.timeString)
    ensures var o := Complete(Some(idea), Some(expandedIdea), Some(stack), Some(qas), Some(apiKey), now, invokePlan, dir);
            var name := Output.DefaultFilename(now);
            && o.reply == CompleteReply(invokePlan(PlanPromptFor(idea, expandedIdea, stack, qas)).value, name)
            && GetFile(name, o.dir) == FileReply(o.dir[name], name)
            && name in ListFiles(entries, o.dir).files
            && DeleteFile(name, o.dir).dir == o.dir - {name}
  {
    var name := Output.DefaultFilename(now);
    DefaultNameIsSafe(now);
    var o := Complete(Some(idea), Some(expandedIdea), Some(stack), Some(qas), Some(apiKey), now, invokePlan, dir);
    assert name in o.dir;
  }

  lemma DefaultNameIsSafe(now: Orchestrator.Timestamp)
    requires '.' !in Output.DatePart(now.iso) && '/' !in Output.DatePart(now.iso)
    requires '.' !in Output.TimePart(now.timeString) && '/' !in Output.TimePart(now.timeString)
    ensures !UnsafeFilename(Output.DefaultFilename(now)) && EndsWith(Output.DefaultFilename(now), ".md")
  {
    var d := Output.DatePart(now.iso);
    var t := Output.TimePart(now.timeString);
    var stem := "product-plan-" + d + "-" + t;
    var name := stem + ".md";
    assert name == Output.DefaultFilename(now);
    assert '.' !in stem && '/' !in stem;
    assert '/' !in name;
    forall i: nat | i + 2 <= |name| ensures name[i] != '.' || name[i + 1] != '.' {
      if i < |stem| {
        assert name[i] == stem[i];
      } else {
        assert name[i + 1] == ".md"[i + 1 - |stem|];
      }
    }
    forall i: nat | i <= |name| ensures !OccursAt(name, "..", i) {
      if i + 2 <= |name| {
        assert name[i..i + 2][0] == name[i] && name[i..i + 2][1] == name[i + 1];
      }
    }
    assert name[|stem|..] == ".md";
  }
}

=== FILE: validate.dfy ===
/**
 * Input validation (src/llm/validate.ts): a fast path that answers single
 * filler words with a canned reply and no model call, otherwise one model
 * call whose JSON verdict is coerced into a `ValidationResult`, failing open
 * on any error. The model call and `JSON.parse` are parameters.
 */
module Validate {
  import opened Wrappers
  import opened JsStrings

  /** A value `JSON.parse` can produce. */
  datatype JsValue =
    | JsNull
    | JsBool(b: bool)
    | JsNumber(n: real)
    | JsString(s: string)
    | JsArray(items: seq<JsValue>)
    | JsObject(fields: map<string, JsValue>)

  /** JavaScript truthiness of a parsed value (JSON cannot produce `NaN`). */
  predicate Truthy(v: JsValue) {
    match v
    case JsNull => false
    case JsBool(b) => b
    case JsNumber(n) => n != 0.0
    case JsString(s) => s != ""
    case _ => true
  }

  /** `{ isValidProductIdea, response, reasoning }`. `response` and `reasoning` are
      whatever the parsed JSON held, which need not be strings. */
  datatype ValidationResult = ValidationResult(isValidProductIdea: bool, response: JsValue, reasoning: JsValue)

  const FillerWords: seq<string> := ["test", "hello", "hi", "hey", "yes", "no", "ok", "okay"]

  const SimpleResponses: map<string, string> := map[
    "test" := "Hi! I'm PM Assist, your product planning assistant. I help transform product ideas into comprehensive plans. Try describing a product or business idea you'd like to explore!",
    "hello" := "Hello! I'm here to help you turn product ideas into detailed plans. What product or business idea would you like to work on?",
    "hi" := "Hi there! Ready to help you develop your product ideas. Share an idea and I'll create a comprehensive plan for it!",
    "hey" := "Hey! I'm PM Assist. Tell me about a product idea and I'll help you create a detailed plan.",
    "yes" := "Great! Share a product idea and I'll help you develop a comprehensive plan for it.",
    "no" := "No problem! When you're ready, share a product idea and I'll help you create a plan.",
    "ok" := "Ready when you are! Describe a product idea and I'll help turn it into a detailed plan.",
    "okay" := "Perfect! Share your product idea and I'll help create a comprehensive plan."
  ]

  const DefaultSimpleResponse := "I'm here to help you turn product ideas into detailed plans. Share an idea to get started!"

  /** The canned chat reply for a word. */
  function GetSimpleResponse(word: string): (r: string)
    ensures r != ""
  {
    if word in SimpleResponses then SimpleResponses[word] else DefaultSimpleResponse
  }

  /** Every filler word has its own table entry, so none of them gets the generic
      default, and the table holds nothing else. */
  lemma SimpleResponseTable()
    ensures SimpleResponses.Keys == set w | w in FillerWords
    ensures forall w :: w in FillerWords ==> GetSimpleResponse(w) == SimpleResponses[w] != DefaultSimpleResponse
    ensures forall w :: w !in FillerWords ==> GetSimpleResponse(w) == DefaultSimpleResponse
  {
  }

  /** The number of maximal whitespace runs in `s`. */
  function WhitespaceRuns(s: string): nat
    decreases |s|
  {
    if s == [] then 0
    else if IsWhitespace(s[0]) then 1 + WhitespaceRuns(TrimStart(s))
    else WhitespaceRuns(s[1..])
  }

  /** `s.split(/\s+/).length`: one more than the number of whitespace runs. */
  function WordCount(s: string): nat {
    1 + WhitespaceRuns(s)
  }

  /** The fast-path test: the trimmed input is one word and lower-cases to a filler word. */
  predicate IsFillerInput(userInput: string) {
    var trimmed := Trim(userInput);
    WordCount(trimmed) == 1 && ToLower(trimmed) in FillerWords
  }

  lemma {:induction false} NoWhitespaceNoRuns(s: string)
    requires forall k :: 0 <= k < |s| ==> !IsWhitespace(s[k])
    ensures WhitespaceRuns(s) == 0
    decreases |s|
  {
    if s != [] {
      NoWhitespaceNoRuns(s[1..]);
    }
  }

  predicate LowerAsciiWord(w: string) {
    forall k :: 0 <= k < |w| ==> 'a' <= w[k] <= 'z'
  }

  lemma FillerWordsAreLowerAscii()
    ensures forall w :: w in FillerWords ==> LowerAsciiWord(w)
  {
    forall w | w in FillerWords ensures LowerAsciiWord(w) {
      assert w in {"test", "hello", "hi", "hey", "yes", "no", "ok", "okay"};
    }
  }

  /** The one-word test of the fast path never decides anything: the fast path
      is taken exactly when the trimmed, lower-cased input is a filler word. */
  lemma FastPathIsFillerWord(userInput: string)
    ensures IsFillerInput(userInput) <==> ToLower(Trim(userInput)) in FillerWords
  {
    var t := Trim(userInput);
    if ToLower(t) in FillerWords {
      FillerWordsAreLowerAscii();
      LowerWordHasNoWhitespace(t, ToLower(t));
      NoWhitespaceNoRuns(t);
    }
  }

  /** A text that lower-cases to a word of ASCII letters holds no whitespace. */
  lemma LowerWordHasNoWhitespace(t: string, lower: string)
    requires lower == ToLower(t) && LowerAsciiWord(lower)
    ensures forall k :: 0 <= k < |t| ==> !IsWhitespace(t[k])
  {
    forall k | 0 <= k < |t| ensures !IsWhitespace(t[k]) {
      LetterIsNotWhitespace(t[k], lower[k]);
    }
  }

  /** A character that lower-cases to an ASCII letter is not whitespace. */
  lemma LetterIsNotWhitespace(c: char, lower: char)
    requires lower == LowerChar(c) && 'a' <= lower <= 'z'
    ensures !IsWhitespace(c)
  {
  }

  /** The JSON candidate of the verdict: `text.match(/\{[\s\S]*\}/)`, falling back
      to the trimmed text. */
  function VerdictCandidate(text: string): string {
    match GreedyRegion(text, '{', '}')
    case Some(region) => region
    case None => Trim(text)
  }

  /** `value || fallback` for a property that may be `undefined`. */
  function OrDefault(v: Option<JsValue>, fallback: string): (r: JsValue)
    ensures fallback != "" ==> Truthy(r)
    ensures v.Some? && Truthy(v.value) ==> r == v.value
  {
    if v.Some? && Truthy(v.value) then v.value else JsString(fallback)
  }

  /** `parsed.key`: `undefined` is `None`. Only objects have the three keys read here. */
  function Property(parsed: JsValue, key: string): Option<JsValue> {
    if parsed.JsObject? && key in parsed.fields then Some(parsed.fields[key]) else None
  }

  /** Whether the template conversion `${v}` throws. The own `toString` of a
      parsed object is a plain value, not a function, so the conversion falls
      back to the inherited `valueOf`, which returns the object itself, and a
      TypeError follows. An array converts through `join`, which converts every
      item that is not `null`. Every other parsed value converts. */
  predicate ToStringThrows(v: JsValue)
    decreases v
  {
    match v
    case JsObject(fields) => "toString" in fields
    case JsArray(items) => exists i :: 0 <= i < |items| && ToStringThrows(items[i])
    case _ => false
  }

  /** Whether the parsed verdict has a `reasoning` that the log line before the
      return cannot convert to a string. */
  predicate UnprintableReasoning(parsed: JsValue) {
    Property(parsed, "reasoning").Some? && ToStringThrows(Property(parsed, "reasoning").value)
  }

  /** The coercion of a parsed verdict. Reading a property of `null` throws, and so
      does logging a `reasoning` that cannot be converted to a string; both are
      `None`. Every other value gives a result with the fixed defaults. */
  function ReadVerdict(parsed: JsValue): (r: Option<ValidationResult>)
    ensures r.None? <==> parsed == JsNull || UnprintableReasoning(parsed)
    ensures r.Some? ==> (r.value.isValidProductIdea <==> Property(parsed, "isValid") == Some(JsBool(true)))
    ensures r.Some? ==> Truthy(r.value.response) && Truthy(r.value.reasoning)
    ensures r.Some? && (Property(parsed, "response").None? || Property(parsed, "response") == Some(JsString(""))) ==>
              r.value.response == JsString("valid")
    ensures r.Some? && Property(parsed, "reasoning").None? ==>
              r.value.reasoning == JsString("No reasoning provided")
  {
    if parsed == JsNull || UnprintableReasoning(parsed) then None
    else
      Some(ValidationResult(
        Property(parsed, "isValid") == Some(JsBool(true)),
        OrDefault(Property(parsed, "response"), "valid"),
        OrDefault(Property(parsed, "reasoning"), "No reasoning provided")))
  }

  /** The result returned on any error inside the `try` block. */
  const FailOpen := ValidationResult(true, JsString("valid"), JsString("Validation error - proceeding with generation"))

  /** The verdict obtained from the model, or `None` if the call, the parse or the
      coercion threw. */
  function ModelVerdict(userInput: string, classify: string -> Result<string, Exception>,
                        parse: string -> Option<JsValue>): Option<ValidationResult>
  {
    match classify(userInput)
    case Failure(_) => None
    case Success(text) =>
      match parse(VerdictCandidate(text))
      case None => None
      case Some(parsed) => ReadVerdict(parsed)
  }

  /** The model answered, its candidate parsed, and the parsed `isValid` is exactly `true`. */
  predicate ParsedIsValidTrue(userInput: string, classify: string -> Result<string, Exception>,
                              parse: string -> Option<JsValue>)
  {
    && classify(userInput).Success?
    && parse(VerdictCandidate(classify(userInput).value)).Some?
    && Property(parse(VerdictCandidate(classify(userInput).value)).value, "isValid") == Some(JsBool(true))
  }

  /** `validateInput(userInput, apiKey)`, with the classification call on the
      prompt built from `userInput` as `classify` and `JSON.parse` as `parse`. */
  function ValidateInput(userInput: string, classify: string -> Result<string, Exception>,
                         parse: string -> Option<JsValue>): (r: ValidationResult)
    // the fast path: decided from the input alone, whatever the model would say
    ensures IsFillerInput(userInput) ==>
              !r.isValidProductIdea
              && r.response == JsString(GetSimpleResponse(ToLower(Trim(userInput))))
              && r.reasoning == JsString("Single word input: \"" + ToLower(Trim(userInput)) + "\" - not a product idea")
    // otherwise a verdict read from the model's reply is returned as it is
    ensures !IsFillerInput(userInput) && ModelVerdict(userInput, classify, parse).Some? ==>
              r == ModelVerdict(userInput, classify, parse).value
    // fail open: any error yields the permissive result and is never rethrown
    ensures !IsFillerInput(userInput) && ModelVerdict(userInput, classify, parse).None? ==> r == FailOpen
    // the idea goes through exactly on an error or on a parsed `isValid` that is exactly `true`
    ensures r.isValidProductIdea <==>
              !IsFillerInput(userInput)
              && (ModelVerdict(userInput, classify, parse).None? || ParsedIsValidTrue(userInput, classify, parse))
    ensures Truthy(r.response) && Truthy(r.reasoning)
  {
    var trimmed := Trim(userInput);
    var lowerInput := ToLower(trimmed);
    if WordCount(trimmed) == 1 && lowerInput in FillerWords then
      ValidationResult(false, JsString(GetSimpleResponse(lowerInput)),
                       JsString("Single word input: \"" + lowerInput + "\" - not a product idea"))
    else
      match ModelVerdict(userInput, classify, parse)
      case Some(verdict) => verdict
      case None => FailOpen
  }

  /** A model verdict without `response` or `reasoning` reaches the caller with
      both defaults filled in. */
  lemma VerdictDefaultsReachCaller(userInput: string, classify: string -> Result<string, Exception>,
                                   parse: string -> Option<JsValue>, parsed: JsValue)
    requires !IsFillerInput(userInput) && classify(userInput).Success?
    requires parse(VerdictCandidate(classify(userInput).value)) == Some(parsed)
    requires parsed != JsNull && !UnprintableReasoning(parsed)
    requires Property(parsed, "response").None? && Property(parsed, "reasoning").None?
    ensures ValidateInput(userInput, classify, parse).response == JsString("valid")
    ensures ValidateInput(userInput, classify, parse).reasoning == JsString("No reasoning provided")
  {
  }

  /** A verdict whose `reasoning` cannot be logged is an error inside the `try`
      block: the idea goes through, whatever `isValid` says. */
  lemma UnprintableReasoningFailsOpen(userInput: string, classify: string -> Result<string, Exception>,
                                      parse: string -> Option<JsValue>)
    requires !IsFillerInput(userInput) && classify(userInput).Success?
    requires parse(VerdictCandidate(classify(userInput).value)).Some?
    requires UnprintableReasoning(parse(VerdictCandidate(classify(userInput).value)).value)
    ensures ValidateInput(userInput, classify, parse) == FailOpen
  {
  }

  /** `{"isValid": false, "reasoning": {"toString": 1}}` and the same with the
      object inside an array: the conversion throws, so the verdict is lost. */
  lemma RejectionWithObjectReasoningIsLost()
    ensures var obj := JsObject(map["toString" := JsNumber(1.0)]);
            && ReadVerdict(JsObject(map["isValid" := JsBool(false), "reasoning" := obj])).None?
            && ReadVerdict(JsObject(map["isValid" := JsBool(false), "reasoning" := JsArray([JsNull, obj])])).None?
  {
    var obj := JsObject(map["toString" := JsNumber(1.0)]);
    assert ToStringThrows(JsArray([JsNull, obj]).items[1]);
  }

  /** The candidate is the greedy brace region exactly when some `{` comes before
      some `}`; that region runs from the first `{` to the last `}`. */
  lemma {:induction false} VerdictCandidateSpec(text: string)
    ensures (exists i, j :: 0 <= i < j < |text| && text[i] == '{' && text[j] == '}') <==>
              GreedyRegion(text, '{', '}').Some?
    ensures GreedyRegion(text, '{', '}').Some? ==>
              exists i: nat, j: nat :: IsGreedySpan(text, '{', '}', i, j) && VerdictCandidate(text) == text[i..j + 1]
    ensures GreedyRegion(text, '{', '}').None? ==> VerdictCandidate(text) == Trim(text)
  {
    GreedyRegionSpec(text, '{', '}');
  }
}

=== FILE: wrappers.dfy ===
/** Failure-compatible wrappers shared by the whole model. */
module Wrappers {

  /** A value that may be absent: JavaScript's `null`/`undefined` on one side, a present value on the other. */
  datatype Option<+T> = None | Some(value: T)

  /** The outcome of an operation that may throw: its value, or what was thrown. */
  datatype Result<+T, +E> = Success(value: T) | Failure(error: E)

  /** What a JavaScript `throw` carries: an `Error` object with its message, or
      any other value (which callers report as "Unknown error"). */
  datatype Exception = ErrorObject(message: string) | NonErrorValue

  /** `error instanceof Error ? error.message : 'Unknown error'`. */
  function MessageOf(e: Exception): string {
    match e
    case ErrorObject(m) => m
    case NonErrorValue => "Unknown error"
  }
}
